=== FILE: README.md ===
# MoTeC LD log generator — a Dafny model

This project models the core of a converter that turns telemetry logs into
MoTeC `.ld` files. It has four parts:

- **Encoder (`motec_log.c`).** It places the header, event, venue and vehicle
  records at fixed offsets. It gives each channel a metadata record in a
  doubly linked chain and a float sample buffer. Each added channel shifts
  every data offset forward by one record size. The encoder then writes
  everything with positioned writes.
- **Decoder pieces (`ldparser.c`).** These are the fixed-width string trim
  and the event → venue → vehicle readers, which follow optional references.
  `read_ldfile` is modelled as the combination of two header and channel
  readers.
- **Time-series model (`data_log.c`).** It covers channels, samples, start,
  end, duration and average frequency, and how the CSV reader builds channels
  from a header line, a units line and data rows.
- **Command-line driver (`motec_log_generator.c`).** It covers argument and
  log-type validation, the output file name, and `process_log_file`, which
  chains ingestion, metadata, encoding and writing.

The encoder is a pure value (`MotecLog.Encoder`). A write is a plan of
`FileImage.Write(offset, bytes)` steps, and `FileImage.Render` turns that plan
into the file's bytes, with zeros in any hole. The decoder works on that byte
sequence with an explicit position and returns `Option` for a short read.

The layout is proved against a closed form (`Layout.WellLaid`), with
R = `sizeof(ldChan)` and n channels:

- record i sits at `HEADER_PTR + i·R`;
- the header's data offset is `HEADER_PTR + n·R`;
- channel i's samples start there, plus 4 bytes for every earlier sample.

The rendered file is then read back with the decoder's record readers.

The driver is modelled as the code is written: `Generator.ProcessLogFile` runs
the CSV reader as written (`CsvLog.FromCsvLogAsWritten`) and the encoder's
write as written (`MotecLog.WriteLogAsWritten`). For each defect listed under
"## Findings" a corrected definition sits beside the as-written one, with the
intended property proved about it (`CsvLog.FromCsvLogCorrected`,
`CsvText.Trim`, `CsvText.IsNumeric`, `MotecLog.WriteLog`).

Modules, in dependency order:

- `Wrappers`: `Option` and `Result`.
- `Bytes`: little-endian fields and the fixed-width text fields.
- `LdFormat`: the record layouts.
- `LdParser`: the decoder.
- `FileImage`: the positioned-write file model.
- `TimeSeries`: the `DataLog` and its channels.
- `CsvText`: the CSV tokens, `trim_whitespace`, `strtod` and `is_numeric`.
- `CsvLog`: CSV ingestion.
- `MotecLog`: the encoder.
- `Layout`: the closed-form layout and the chain walk.
- `RoundTrip`: what the written file reads back as.
- `Generator`: the driver.

## Model

| member | source | states |
|---|---|---|
| Bytes.U32RoundTrip | motec_log.c:196-198 | a `uint32_t` field written little-endian reads back as the value modulo 2^32 |
| Bytes.U16RoundTrip | motec_log.c:240-243 | a `uint16_t` field written little-endian reads back as the value modulo 2^16 |
| Bytes.I16RoundTrip | motec_log.c:244-247 | an `int16_t` field in range reads back as itself (two's complement) |
| Bytes.TextField | motec_log.c:63-66 | a `strncpy(buf, s, width-1)` field is exactly `width` bytes, starts with the text's first `width-1` characters, and every byte after them, the last included, is NUL |
| Bytes.DecodeString | ldparser.c:11-19 | the decoded string is a prefix of the field; it does not end in NUL or space; every byte removed is NUL or space |
| Bytes.DecodeStringUnique | ldparser.c:14-19 | those three facts determine the decoded string: any prefix with them is the result |
| Bytes.DecodeStringIdempotent | ldparser.c:14-19 | decoding an already decoded string changes nothing |
| Bytes.AllPadDecodesEmpty | ldparser.c:15-17 | a field made only of NULs and spaces decodes to the empty string |
| Bytes.DecodeStringExample | ldparser.c:15-17 | "ab" followed by six NULs decodes to "ab" |
| Bytes.TextFieldDecodes | ldparser.c:7-21 | a text written as a fixed-width field decodes back to the (cut) text when it has no NUL and does not end in a space |
| LdFormat.DTypeA | motec_log.c:231 | the first dtype word is 0x07 exactly for the float32 and float16 kinds, otherwise 0 |
| LdFormat.DTypeWidth | motec_log.c:232 | the width word is 2 exactly for the 16-bit kinds, otherwise 4 |
| LdFormat.Magic | motec_log.c:233 | the magic is 0x2ee1 + index in a `uint16_t`, wrapping to 0 at 2^16 |
| LdFormat.HeaderRefs | motec_log.c:195-198 | the header's first twelve bytes decode to its metadata, data and event references |
| LdFormat.ChanRecordFields | motec_log.c:230-252 | the 84-byte channel record decodes field by field to the four references, the magic, both dtype words, the frequency, shift, mul, scale, dec and the three names |
| LdFormat.ChanRecordRefs | motec_log.c:235-238 | the record's first sixteen bytes decode to prev, next, data offset and sample count |
| LdFormat.ChanShortsFields | motec_log.c:240-247 | the eight 16-bit words of a record decode to magic, dtype words, frequency and the four scaling values |
| LdFormat.ChanRecordBytes | motec_log.c:230-252 | write_ld_channel's record is exactly 84 bytes, at most the record size R = sizeof(ldChan) that the chain and data offsets step by; `LdFormat.ChanRecordFields` decodes every field back from its position |
| LdFormat.VenueBytesAsWritten | motec_log.c:214-217 | the venue record as written is 66 bytes: the decoder's 1100-byte record with its 1034 reserved bytes left out, so the vehicle reference sits at +64 rather than +1098 |
| LdParser.ReadBytes | ldparser.c:33-36 | a fixed-size read succeeds exactly when the bytes are there and advances past them |
| LdParser.ReadVehicle | ldparser.c:24-47 | reading a vehicle succeeds exactly when all 64+4+32+32 bytes are there, consumes exactly those, and yields id, weight, type and comment from their positions |
| LdParser.ReadVenue | ldparser.c:50-77 | reading a venue needs 64 + 1034 + 2 bytes; the vehicle reference is the u16 after the skip; a vehicle is present exactly when that reference is positive and a vehicle reads there; the position returned is just past the reference |
| LdParser.ReadEvent | ldparser.c:80-112 | reading an event needs 64+64+1024+2 bytes; a venue is present exactly when its reference is positive and a venue reads there; the position is restored to just past the reference |
| LdParser.ReadLdFile | ldparser.c:115-144 | a file reads exactly when both the header and the channel reader succeed; there is no partial result |
| LdParser.VehicleRoundTrip | ldparser.c:33-44 | a vehicle record as the encoder lays it out reads back as the same vehicle |
| LdParser.VenueRoundTrip | ldparser.c:57-65 | a venue record in the decoder's layout reads back with the same name and vehicle reference |
| LdParser.EventRoundTrip | ldparser.c:89-100 | an event record as the encoder lays it out reads back with the same name, session, comment and venue reference |
| FileImage.Overlay | motec_log.c:208-211 | one positioned write puts its bytes at its offset, keeps every other byte, and fills a hole past the old end with zeros |
| FileImage.RenderReadsBack | motec_log.c:263-272 | a write that no later write overlaps can be read back from the finished file |
| FileImage.RenderGap | motec_log.c:207-227 | a byte that no write touches reads as zero |
| FileImage.RenderCovers | motec_log.c:265-272 | every non-empty write lies inside the finished file |
| FileImage.RenderSlice | motec_log.c:265-272 | a write that no later write overlaps lies inside the finished file and reads back as the same byte range |
| TimeSeries.AddChannel | data_log.c:216-224 | adds exactly one empty channel at the end, keeps the existing channels, doubles the slots when full, so the channels always fit |
| TimeSeries.Clear | data_log.c:31-36 | removes every channel and keeps the name and slot count |
| TimeSeries.ChannelSpanAppend | data_log.c:265-273 | an appended sample becomes the channel's end; it is the start only for an empty channel; a time-ordered channel starts no later than it ends |
| TimeSeries.ChannelStart | data_log.c:265-268 | 0 for an empty channel, otherwise one of its timestamps, and no later than any of them when the channel is in ascending time |
| TimeSeries.ChannelEnd | data_log.c:270-273 | 0 for an empty channel, otherwise one of its timestamps, and no earlier than any of them when the channel is in ascending time |
| TimeSeries.AvgFrequency | data_log.c:169-177 | the frequency is never negative; it is positive exactly with two or more samples and a positive span; then it times the span is the sample count minus one |
| TimeSeries.AvgFrequencyExample | data_log.c:169-177 | timestamps 0, 0.5 and 1 give 2 Hz |
| TimeSeries.UniformFrequency | data_log.c:169-177 | samples spaced `h` apart give a frequency of 1/h |
| TimeSeries.MinStart | data_log.c:229-234 | the result is no later than any channel's start and equals one of them |
| TimeSeries.MaxEnd | data_log.c:240-245 | the result is at least every channel's end and at least 0, and is 0 or one of the ends |
| TimeSeries.Start | data_log.c:226-235 | 0 with no channels, otherwise the earliest channel start |
| TimeSeries.End | data_log.c:237-246 | 0 with no channels, otherwise the latest channel end floored at 0 |
| TimeSeries.Duration | data_log.c:193-196 | the duration is end minus start in every case; with no channel both are 0, so it is 0 |
| TimeSeries.DurationNonNegative | data_log.c:193-196 | with every channel in ascending time, the duration is not negative |
| TimeSeries.ClearResetsSpan | data_log.c:31-36 | after clearing, start, end and duration are all 0 |
| TimeSeries.AddChannelStart | data_log.c:216-235 | for any log, with or without channels, an added empty channel starts at 0, so the log's start becomes the smaller of the old start and 0 |
| CsvText.DropTrailingSpace | data_log.c:280-282 | removes exactly the maximal run of trailing whitespace |
| CsvText.DropLeadingSpace | data_log.c:278 | removes exactly the maximal run of leading whitespace |
| CsvText.Trim | data_log.c:276-283 | the trimmed token neither starts nor ends with whitespace, and is empty exactly when the token is all whitespace |
| CsvText.TrimIsInnerSlice | data_log.c:276-283 | the trimmed token is a contiguous slice of the token, with only whitespace before and after it |
| CsvText.TrimIdempotent | data_log.c:276-283 | trimming twice is trimming once |
| CsvText.TrimKeepsLeadingSpaceAsWritten | data_log.c:278 | the function as written returns " w" unchanged, while the corrected trim gives "w" |
| CsvText.TrimAsWrittenAgrees | data_log.c:276-283 | the trim as written agrees with the corrected trim on text not starting with whitespace; otherwise dropping its leading whitespace gives the corrected result; an all-whitespace token is left whole as written and emptied when corrected |
| CsvText.TrimAsWritten | data_log.c:276-283 | as written, an all-whitespace token comes back unchanged; any other token loses exactly its maximal trailing whitespace run and keeps its leading whitespace; its partner `CsvText.TrimAsWrittenAgrees` relates it to the corrected trim on every input |
| CsvText.StrToD | data_log.c:13 | the converted prefix lies inside the token; nothing converted means value 0; a converted prefix holds a digit and goes past the leading whitespace; a conversion never stops in front of a digit |
| CsvText.StrToDInteger | data_log.c:13 | on an unsigned integer literal followed by the end or by a character that cannot continue a number, `strtod` consumes exactly the digits and converts their decimal value |
| CsvText.StrToDDecimal | data_log.c:13 | on a literal "digits.digits" `strtod` consumes up to the end of the fraction and converts the integer part plus the fraction's digits over 10^f |
| CsvText.DecimalMantissa | data_log.c:13 | the mantissa of "digits.digits" spans both digit runs and the point, and is worth the integer part plus the fraction over 10^f |
| CsvText.IsNumericHasDigit | data_log.c:9-15 | a token accepted as numeric (corrected) contains a digit |
| CsvText.BlankAcceptedAsWritten | data_log.c:9-15 | a whitespace-only token is accepted as written but rejected by the corrected test |
| CsvText.IsNumericAsWrittenAgrees | data_log.c:9-15 | `is_numeric` as written accepts a token exactly when the corrected test does, or when `strtod` converts nothing and the token starts with whitespace |
| CsvText.FieldLen | data_log.c:69-74 | a field ends at the first comma or at the end of the line |
| CsvText.Tokens | data_log.c:69-74 | `strtok` tokens are non-empty and hold no comma |
| CsvText.TokensSplit | data_log.c:69-74 | tokenising two comma-joined parts gives the tokens of each part in order, with empty fields dropped |
| CsvText.SingleField | data_log.c:69-74 | a comma-free text is one token, or none when it is empty |
| CsvLog.ColumnNames | data_log.c:69-75 | the columns are the first 1000 header tokens, each trimmed, in order; no header means no column |
| CsvLog.UnitNames | data_log.c:77-86 | the units are the unit tokens, at most one per column, each trimmed, in order |
| CsvLog.AddColumns | data_log.c:88-95 | adds one channel per column index in order, with that column's name, unit and 3 decimals, and keeps the channels fitting their slots |
| CsvLog.AddColumnsAsWritten | data_log.c:88-95 | as written: one channel per column index in order, with that column's name, unit and 3 decimals, earlier channels kept, and the slot count unchanged |
| CsvLog.AddHeaderChannels | data_log.c:88-95 | one channel per column 1 .. min(columns, units) − 1, in column order, with the trimmed name and unit, earlier channels kept, the log's name kept, and the channels fitting their slots |
| CsvLog.AddHeaderChannelsAsWritten | data_log.c:69-95 | as written: one channel per column 1 .. min(columns, units) − 1, in column order, named and united by the as-written trim, earlier channels and the log's name kept, the slot count unchanged |
| CsvLog.RowCell | data_log.c:108-125 | a numeric cell appends (timestamp, value) to its channel; a missing or non-numeric cell leaves the channel unchanged |
| CsvLog.IngestRowWith | data_log.c:100-126 | a row whose first token is missing or non-numeric changes nothing; otherwise each channel gets its own cell's sample |
| CsvLog.IngestRowAsWritten | data_log.c:100-126 | one data line read as written adds to each channel i exactly the sample of cell i + 1 under is_numeric as written, and nothing else |
| CsvLog.IngestRow | data_log.c:100-126 | the same under the corrected numeric test |
| CsvLog.RowAddsSample | data_log.c:101-124 | one data line adds to channel i exactly the sample its cell gives, at the row's timestamp, and nothing else |
| CsvLog.IngestRowsByColumn | data_log.c:100-126 | reading the data lines row by row is reading them column by column: channel i keeps name, units and decimals and gets its earlier samples followed by those of column i + 1, in file order |
| CsvLog.ColumnAt | data_log.c:100-126 | the same, for one channel, by induction on the lines |
| CsvLog.IngestRowsAppend | data_log.c:100-126 | ingesting two blocks of rows is ingesting the first, then the second |
| CsvLog.RowWithoutTimestampSkipped | data_log.c:101-102 | as written, a row with no token, or whose first token neither starts with whitespace nor holds a digit, leaves every channel unchanged |
| CsvLog.BlankTimestampAsWritten | data_log.c:101-124 | as written, the row " ,5" passes the timestamp test and adds the sample (0, 5); the corrected test skips it |
| CsvLog.RowWithoutTimestampSkippedCorrected | data_log.c:101-102 | with the corrected test, a row with no token or whose first token holds no digit leaves every channel unchanged |
| CsvLog.FromCsvLogAsWritten | data_log.c:49-126 | the CSV reader as written keeps the log's name and slot count; it adds one channel per column 1 .. min(columns, units) − 1 with the as-written trimmed name and unit and 3 decimals; every channel, old or new, gets exactly its column's samples in file order |
| CsvLog.FromCsvLogCorrected | data_log.c:49-126 | the same reader with both-ends trim, slot growth and the corrected numeric test: the same channel and sample structure, and the channels fit their slots |
| CsvLog.CsvChannelsFit | data_log.c:88-95 | the corrected reader, started on a fresh log, never leaves more channels than slots, whatever the line count |
| CsvLog.CsvCapacityOverflowAsWritten | data_log.c:88-95 | as written, a header and a units line of 502 or more tokens each produce more channels than the 500 slots |
| CsvLog.ExampleFileAsWritten | data_log.c:49-126 | the file "t,a,b" / "s,V,A" / "0,1,2" / "1,3,4" / "x,5,6" reads, as written, as the channels a (V) and b (A), 3 decimals, with samples (0,1), (1,3) and (0,2), (1,4); the row "x,5,6" is skipped |
| CsvLog.LeadingSpaceInNameAsWritten | data_log.c:69-75 | as written, the header "t, rpm" makes one channel, named " rpm" with its leading space |
| CsvLog.NameTrimmedExample | data_log.c:69-95 | with the corrected trim, the header "t, rpm" and units "s,x" make one channel, named "rpm" |
| CsvLog.TrailingCommaSampleAsWritten | data_log.c:108-124 | the row "1,\n" adds a sample (1, 0) as written and nothing when corrected |
| CsvLog.ExampleColumns | data_log.c:69-75 | header "t, rpm" gives the columns "t" and the trimmed " rpm" |
| CsvLog.ExampleUnits | data_log.c:77-86 | units "s,x" for two columns give "s" and "x" |
| CsvLog.OneDigit | data_log.c:9-15 | a single digit is converted and is numeric |
| MotecLog.Store | motec_log.c:293-302 | a given text replaces the stored one, cut to width − 1 characters; an absent text keeps it |
| MotecLog.SetMetadata | motec_log.c:281-303 | the weight is stored modulo 2^32; each of the nine texts keeps the old value when absent and otherwise becomes the given text's first width − 1 characters, or all of it when shorter |
| MotecLog.StoreIdempotent | motec_log.c:293-302 | copying the same text into a buffer twice leaves what one copy leaves |
| MotecLog.SetMetadataIdempotent | motec_log.c:281-303 | setting the same metadata twice is setting it once |
| MotecLog.AuxRecords | motec_log.c:59-91 | the event refers to its venue at VENUE_PTR, and the venue refers to its vehicle at VEHICLE_PTR |
| MotecLog.Initialize | motec_log.c:56-120 | no channels; the header's metadata and data offsets are HEADER_PTR and its event offset is EVENT_PTR; the event, venue and vehicle carry the metadata |
| MotecLog.Values | motec_log.c:176-178 | the record's data holds the channel's sample values, in order |
| MotecLog.Freq | motec_log.c:162 | the frequency field is the average frequency truncated to an integer while it fits 16 bits |
| MotecLog.AddChannel | motec_log.c:122-182 | the header and every earlier data offset move forward by one record size and nothing else changes; the new record follows the last one in the chain (or starts it at HEADER_PTR with prev 0), its next is its own offset plus R, its samples follow the previous channel's, and it carries the channel's content |
| MotecLog.AddAllChannels | motec_log.c:184-193 | adds one record per channel and moves the header's data offset by one record size per channel |
| MotecLog.AddAllShifts | motec_log.c:135-139 | after adding channels, an earlier record differs only in its data offset, moved by one record size per added channel |
| MotecLog.AddAllCarries | motec_log.c:184-193 | after adding channels, the record added for channel i carries channel i's content |
| MotecLog.Terminate | motec_log.c:260-261 | the last record's next reference becomes 0 and nothing else changes |
| MotecLog.SampleBytes | motec_log.c:270-271 | the sample buffer is the values' float images, four bytes each, in order |
| MotecLog.AuxWrites | motec_log.c:207-227 | the event, venue and vehicle are written at their references, each only when present |
| MotecLog.ChannelWrites | motec_log.c:265-272 | record i is written at its metadata offset as index i, then its samples at its data offset |
| MotecLog.WriteLogWith | motec_log.c:254-279 | the write order is the header at 0, its nested records, then the channels of the terminated encoder |
| MotecLog.WriteLogAsWritten | motec_log.c:254-279 | motec_log_write's plan as written has the same writes at the same offsets as the plan in the decoder's layout, except that the venue record's bytes lack the 1034 reserved bytes; with no venue the two plans are equal |
| MotecLog.AuxWritesVenueOnly | motec_log.c:207-227 | two venue layouts give the same nested writes at the same offsets, differing only in the venue record's bytes |
| Layout.InitializeLaid | motec_log.c:102-104 | a fresh encoder satisfies the closed-form layout |
| Layout.MetaOffsetClosed | motec_log.c:156-158 | record i sits at HEADER_PTR + i·R: each record starts one record size after the one before, the first at HEADER_PTR |
| Layout.AddChannelLaid | motec_log.c:135-160 | adding a channel preserves the closed-form layout |
| Layout.EarlierStillLaid | motec_log.c:135-139 | after an append, every earlier record is still where the closed form puts it, its samples moved with the data region |
| Layout.NewRecordLaid | motec_log.c:141-160 | the appended record sits one record size after the last one, links back to it, and its samples start where the earlier channels' samples end |
| Layout.AddAllLaid | motec_log.c:184-193 | adding any number of channels preserves the closed-form layout |
| Layout.Build | motec_log.c:56-193 | the encoder for a log has one record per channel and the given record size; `Layout.BuildClosedForm` gives its closed-form layout |
| Layout.BuildClosedForm | motec_log.c:56-193 | the built encoder has record i at HEADER_PTR + i·R, its data offset at HEADER_PTR + n·R, channel i's samples after the earlier ones, and every record carries its channel's content |
| Layout.BuildCarries | motec_log.c:184-193 | record i of the encoder built from a log carries channel i's name, units, sample count and values |
| Layout.DoublyLinked | motec_log.c:142-144 | each record's offset is its predecessor's next reference, and its prev reference is its predecessor's offset |
| Layout.MetaRecordsApart | motec_log.c:158 | metadata records never overlap |
| Layout.DataBuffersApart | motec_log.c:145-146 | sample buffers never overlap |
| Layout.DataBuffersContiguous | motec_log.c:145-146 | each sample buffer ends where the next one begins |
| Layout.DataAfterMeta | motec_log.c:135-139 | every sample buffer starts after the last metadata record |
| Layout.TotalLenPrefix | motec_log.c:145-146 | a channel's samples end no later than the samples of any later prefix |
| Layout.MetaOffsetGap | motec_log.c:158 | record offsets at least one index apart are at least R apart |
| Layout.FindLaid | motec_log.c:156-158 | in a laid-out encoder the record at HEADER_PTR + i·R is record i |
| Layout.TerminatedNext | motec_log.c:156-158 | after termination, record i's next reference is record i + 1's offset, or 0 for the last record |
| Layout.WalkFrom | motec_log.c:260-268 | following next references from record i visits i .. n−1 and stops |
| Layout.ChainVisitsAll | motec_log.c:260-268 | after termination, walking from the header's metadata offset visits exactly the n records in order and stops |
| Layout.EmptyChainDangles | motec_log.c:273-275 | with no channel the header's metadata offset is HEADER_PTR, and no record is there |
| RoundTrip.PlanShape | motec_log.c:254-272 | the write plan holds the header, event, venue and vehicle writes, then each record and its samples, at their offsets |
| RoundTrip.AuxChainRoundTrip | ldparser.c:80-112 | in the written file, the event at EVENT_PTR reads back as the encoder's event, with its venue and vehicle |
| RoundTrip.VenueLinkLostAsWritten | motec_log.c:214-217 | as written, the venue's vehicle reference reads back as 0, so the decoded venue has no vehicle |
| RoundTrip.VenueWithoutVehicle | ldparser.c:57-74 | an event whose venue has zero bytes where the reader expects the vehicle reference decodes with a venue but no vehicle |
| RoundTrip.AuxChainAsWritten | motec_log.c:207-227 | in the file as motec_log.c writes it, the event at EVENT_PTR reads back with its texts, venue reference and venue name, and with the venue's vehicle reference 0 and no vehicle |
| RoundTrip.EventWithoutVehicle | ldparser.c:80-112 | a file holding a written event, its venue's name, and zeros at the reader's vehicle reference decodes to the event with the vehicle dropped |
| RoundTrip.RecordReadsBack | motec_log.c:265-268 | for either venue layout, each channel record reads back, byte for byte, at its metadata offset |
| RoundTrip.SamplesReadBack | motec_log.c:270-271 | for either venue layout, each channel's samples read back at its data offset as the float images of its values |
| RoundTrip.HeaderReadsBack | motec_log.c:195-198 | for a venue layout ending before the event record, the file's first twelve bytes decode to the header's metadata, data and event references |
| RoundTrip.RecordStoresNext | motec_log.c:236 | the u32 at record offset + 4 in the file is that record's next reference |
| RoundTrip.StoredNext | motec_log.c:260-268 | for either venue layout, record i stores record i + 1's offset at its offset + 4, or 0 for the last record, when offsets fit 32 bits |
| RoundTrip.StoredChain | motec_log.c:260-268 | for either venue layout, every record stores the next record's offset at offset + 4, and the last stores 0, when offsets fit 32 bits |
| RoundTrip.FileChainFrom | motec_log.c:260-268 | following the stored next references from record i in the file visits the later record offsets in order and stops |
| RoundTrip.FileChainVisitsAll | motec_log.c:254-279 | for a venue layout ending before the event record, starting from the file's metadata reference, the stored chain visits HEADER_PTR + k·R for k = 0 .. n−1 in order, then stops |
| Generator.SelectLogType | motec_log_generator.c:78-92 | a type is accepted exactly when it is CSV or ACCESSPORT, or CAN with a DBC file; the error tells a missing DBC from an unknown type |
| Generator.TypeNameSelects | motec_log_generator.c:78-92 | every log type's name selects that type |
| Generator.ParseArguments | motec_log_generator.c:23-95 | fewer than 3 arguments, a bad option or a missing positional is rejected; otherwise the result succeeds exactly when the type does, with the log path and type taken from the positionals |
| Generator.LastDot | motec_log_generator.c:100 | finds the last '.', or reports that there is none |
| Generator.Stem | motec_log_generator.c:100-101 | the stem is the path up to its last '.', or the whole path when it has no '.' |
| Generator.StemCuts | motec_log_generator.c:108-109 | a path cut at its last '.' is its stem |
| Generator.OutputFilename | motec_log_generator.c:97-115 | the output name ends with ".ld" and starts with the stem of the output path when given, or of the input path |
| Generator.OutputFilenameIdempotent | motec_log_generator.c:106-114 | deriving a name from a derived name gives it back |
| Generator.OutputWins | motec_log_generator.c:98-105 | a given output path decides the name regardless of the input path |
| Generator.OutputFilenameExamples | motec_log_generator.c:97-115 | "data.csv" gives "data.ld", "log" gives "log.ld", and the output "run.d/log" gives "run.ld" |
| Generator.Ingest | motec_log_generator.c:133-146 | exactly the CSV type yields a log, the CSV reader as written run on a fresh log; the CAN and Accessport readers fail |
| Generator.ProcessLogFile | motec_log_generator.c:117-206 | an unopened log, a failed reader or zero channels is an error and nothing is written; a CSV log succeeds exactly when the as-written reader finds a channel, and then the file written as motec_log.c writes it, from the encoder built from the log and options, goes under the derived name |
| Generator.BuiltFileReadsBack | motec_log_generator.c:170-195 | in the file as written, the event reads back with the texts the options set and the venue's name, but with its vehicle lost; every record carries its channel's content |
| Generator.BuiltFileReadsBackCorrected | motec_log_generator.c:170-195 | with the venue written in the decoder's layout, the event reads back whole, venue and vehicle included, and every record carries its channel's content |
| Generator.BuiltFileChain | motec_log_generator.c:182-195 | in the file as written, the stored chain visits every channel record in order, when offsets fit 32 bits |
| Generator.EventOfBuilt | motec_log_generator.c:170-195 | the event of the file written from a built encoder reads back as the options set it, with the venue's vehicle lost |
| Generator.ConvertedFile | motec_log_generator.c:117-206 | a successful conversion is a CSV log with channels, the file name ends in ".ld", and the event reads back as the options set it, with the venue's vehicle lost |

## Left out

- File I/O: `FILE*`, `fopen`, `fclose`, `fseek` and `fwrite` are not modelled as calls. Reads work on an in-memory byte sequence. Writes become a plan that `FileImage.Render` turns into bytes.
- `getopt_long` is not modelled. `Generator.ParseArguments` receives the parsed options, or None for an unknown option, and the positional arguments.
- `mkdir`, `stat` and `dirname` for the output directory are not modelled; they do not affect the file's content.
- `printf`, `print_usage`, `data_log_print_channels` and `main` are not modelled; they are output only.
- The `--frequency` option is parsed and unused. `Options.frequency` carries it, with DEFAULT_FREQUENCY 20.0 when it is not given, and nothing reads it.
- malloc and realloc failures are not modelled: every allocation is taken to succeed. This matters for the layout. `motec_log_add_channel` shifts the header's and every earlier channel's data offset (motec_log.c:135-139) before its two mallocs (motec_log.c:153 and 170). When either fails it returns -1 with the offsets already shifted and no record added; `motec_log_add_all_channels` then stops (motec_log.c:188-189), and `process_log_file` ignores the result and writes the file anyway (motec_log_generator.c:183-195). Such a file's data offsets are one record size too far for each failed channel. `malloc(0)` at motec_log.c:170, for a channel with no sample, may return NULL and take this path.
- The encoder's pointer-array growth (motec_log.c:125-133) and the free functions are not modelled. When the growth succeeds it changes no offset.
- The `struct tm` header timestamp depends on the platform. It is a byte-sequence parameter `tm`.
- The `(float)` narrowing of sample values is a parameter `f32` giving four bytes per value. IEEE rounding is not modelled.
- `read_head`, `read_channels`, `read_channel` and `read_channel_data` are declared in ldparser.h:85-93 without bodies. `LdParser.ReadLdFile` takes the header and channel readers as parameters. The chain walk over the written file is stated with `RoundTrip.FileChain`, which reads the next reference at record + 4 as `write_ld_channel` lays it out.
- The CAN and Accessport readers (data_log.c:205-213) always fail. `Generator.Ingest` gives no log for them, and the conversion reports no channels.
- `split_csv_line` (data_log.c:286-299) is not modelled. Nothing in the core calls it.
- The `channel->frequency` value the CSV reader computes (data_log.c:128-139) is not modelled. The encoder recomputes the frequency with `channel_avg_frequency`.
- `fgets` splits lines at 9999 characters. The model receives the lines already split; a missing header or units line is `None`.
- Text is assumed to hold no NUL character. `strtok` and `strncpy` would stop at one.
- Bytes the C code leaves uninitialised are modelled as 0. These are the last byte of each `strncpy` field and the channel's short name.
- MotecLog.Freq: the `(int)` conversion is stated only while the frequency fits 16 bits. Beyond that the model takes the floor modulo 2^16; C's behaviour for a double out of `int` range is undefined.
- CsvText.StrToD: only decimal syntax (sign, digits, fraction, exponent) is modelled. Hexadecimal, `inf` and `nan` are not. Reference values are proved for unsigned integer and "digits.digits" literals (`StrToDInteger`, `StrToDDecimal`). Signed, whitespace-led and exponent forms have the general contract only. The value is an exact real; the rounding to `double` is not modelled.
- CsvLog.ColumnNames: with no header line, `strtok(header, ",")` at data_log.c:69 gets NULL with no earlier string, which is undefined behaviour in C. The model reads this as "no column", so such a file makes no channel and `Generator.ProcessLogFile` reports NoChannels.
- Bytes.CharByte: a character becomes one byte, its code modulo 256. The model's strings are sequences of byte-sized characters; UTF-8 encoding of wider characters is not modelled.
- Layout.WellLaid: offsets are unbounded naturals. The 32-bit wrap of the stored offsets appears only as the requirement that the last record offset is below 2^32 in the chain read-back lemmas.
- RoundTrip.HeaderReadsBack: requires the `tm` image to be at most 1494 bytes, so that the header ends before the vehicle record.
- RoundTrip.FileChainVisitsAll: requires `HEADER_PTR + n·R < 2^32`, for the same reason.
- LdParser.VenueRoundTrip: states the name and the vehicle reference only. Whether a vehicle is present follows from `LdParser.ReadVenue`'s own contract.
- LdParser.EventRoundTrip: states the four fields of the event record only. The nested venue is covered by `RoundTrip.AuxChainRoundTrip`.
- Bytes.DecodeString: keeps NUL or space bytes that sit inside the field, as `decode_string` does. A C reader of the result would stop at the first NUL.
- Layout.EmptyChainDangles: writing with no channel leaves the header's metadata reference at HEADER_PTR, where nothing is written. `process_log_file` never writes such a log, so this is recorded rather than corrected.

## Findings

| source | as written | input that shows it | evidently intended | confidence | as-written member | corrected member |
|---|---|---|---|---|---|---|
| data_log.c:88-95 | the CSV reader stores channels with `log->channels[log->channel_count++]`, without growing the 500 slots | a header and a units line with 502 tokens each, giving 501 channels | grow the slots as `datalog_add_channel` does | not executed | CsvLog.CsvCapacityOverflowAsWritten | CsvLog.CsvChannelsFit |
| data_log.c:276-283 | `trim_whitespace` advances its local copy of the pointer past the leading whitespace, so the caller's string keeps it | header "t, rpm" gives the channel name " rpm" | remove whitespace at both ends | not executed | CsvText.TrimKeepsLeadingSpaceAsWritten | CsvText.Trim |
| data_log.c:9-15 | `is_numeric` accepts a token when `strtod` stops at whitespace, even if it converted nothing | the row "1,\n": the token "\n" is accepted and adds the sample (1, 0) | require that a number was converted | not executed | CsvLog.TrailingCommaSampleAsWritten | CsvText.IsNumericHasDigit |
| motec_log.c:214-217 | the venue record is written as name then `vehicle_ptr` at +64, but the reader skips 1034 bytes and reads `vehicle_ptr` at +1098 (ldparser.c:57-59) | any written file: the venue reads back with vehicle reference 0 and no vehicle | write `vehicle_ptr` where the reader expects it | not executed | RoundTrip.VenueLinkLostAsWritten | RoundTrip.AuxChainRoundTrip |

=== FILE: bytes.dfy ===
/** Binary primitives of the LD format: bytes, little-endian unsigned
    fields of width 2 and 4, fixed-width text fields written with strncpy,
    and the padded-string decoder of the parser (ldparser.c). */
module Bytes {

  newtype Byte = b: int | 0 <= b < 256

  const TWO16: nat := 0x1_0000
  const TWO32: nat := 0x1_0000_0000

  /** The value range of a C `uint16_t` and `uint32_t`. */
  type U16 = x: int | 0 <= x < 0x1_0000
  type U32 = x: int | 0 <= x < 0x1_0000_0000

  function Min(a: nat, b: nat): nat {
    if a <= b then a else b
  }

  function LowByte(x: nat): Byte {
    (x % 256) as Byte
  }

  /** The two bytes `fwrite` emits for a `uint16_t` holding `x` on a
      little-endian machine; the field keeps `x` modulo 2^16. */
  function U16Le(x: nat): (r: seq<Byte>)
    ensures |r| == 2
  {
    [LowByte(x), LowByte(x / 0x100)]
  }

  /** The four bytes `fwrite` emits for a `uint32_t` holding `x`. */
  function U32Le(x: nat): (r: seq<Byte>)
    ensures |r| == 4
  {
    [LowByte(x), LowByte(x / 0x100), LowByte(x / 0x1_0000), LowByte(x / 0x100_0000)]
  }

  function DecodeU16(b: seq<Byte>): (r: nat)
    requires |b| == 2
    ensures r < TWO16
  {
    b[0] as nat + 0x100 * b[1] as nat
  }

  function DecodeU32(b: seq<Byte>): (r: nat)
    requires |b| == 4
    ensures r < TWO32
  {
    b[0] as nat + 0x100 * b[1] as nat + 0x1_0000 * b[2] as nat + 0x100_0000 * b[3] as nat
  }

  /** Reading back a written `uint16_t` yields the value modulo 2^16. */
  lemma U16RoundTrip(x: nat)
    ensures DecodeU16(U16Le(x)) == x % TWO16
  {
    var q := x / 0x100;
    assert x == 0x100 * q + x % 0x100;
    assert q == 0x100 * (q / 0x100) + q % 0x100;
    assert x / 0x1_0000 == q / 0x100;
  }

  /** Reading back a written `uint32_t` yields the value modulo 2^32. */
  lemma U32RoundTrip(x: nat)
    ensures DecodeU32(U32Le(x)) == x % TWO32
  {
    var q1 := x / 0x100;
    var q2 := q1 / 0x100;
    var q3 := q2 / 0x100;
    assert x == 0x100 * q1 + x % 0x100;
    assert q1 == 0x100 * q2 + q1 % 0x100;
    assert q2 == 0x100 * q3 + q2 % 0x100;
    assert q3 == 0x100 * (q3 / 0x100) + q3 % 0x100;
    assert x / 0x1_0000 == q2;
    assert x / 0x100_0000 == q3;
    assert x / 0x1_0000_0000 == q3 / 0x100;
  }

  /** The two bytes of an `int16_t` holding `x` (two's complement). */
  function I16Le(x: int): (r: seq<Byte>)
    ensures |r| == 2
  {
    U16Le(x % TWO16)
  }

  /** A two-byte field read as an `int16_t`. */
  function DecodeI16(b: seq<Byte>): (r: int)
    requires |b| == 2
    ensures -0x8000 <= r < 0x8000
  {
    var u := DecodeU16(b);
    if u >= 0x8000 then u - TWO16 else u
  }

  /** Every value an `int16_t` can hold survives a write and a read. */
  lemma I16RoundTrip(x: int)
    requires -0x8000 <= x < 0x8000
    ensures DecodeI16(I16Le(x)) == x
  {
    U16RoundTrip(x % TWO16);
  }

  /** The byte a C `char` holds for `c`; text is treated as single bytes. */
  function CharByte(c: char): Byte {
    (c as int % 256) as Byte
  }

  function BytesOf(s: string): (r: seq<Byte>)
    ensures |r| == |s|
    ensures forall i | 0 <= i < |s| :: r[i] == CharByte(s[i])
  {
    seq(|s|, i requires 0 <= i < |s| => CharByte(s[i]))
  }

  function Zeros(n: nat): (r: seq<Byte>)
    ensures |r| == n
    ensures forall i | 0 <= i < n :: r[i] == 0
  {
    seq(n, _ => 0)
  }

  /** A `width`-byte text field filled by `strncpy(field, s, width - 1)`:
      at most `width - 1` bytes of `s`, zero filled. The final byte, which
      the source leaves as whatever the allocation held, is taken as 0. */
  function TextField(s: string, width: nat): (r: seq<Byte>)
    requires width >= 1
    ensures |r| == width
    ensures r[width - 1] == 0
    ensures r[..Min(|s|, width - 1)] == BytesOf(s[..Min(|s|, width - 1)])
    ensures forall k | Min(|s|, width - 1) <= k < width :: r[k] == 0
  {
    var n := Min(|s|, width - 1);
    BytesOf(s[..n]) + Zeros(width - n)
  }

  /** The `w` bytes of a fixed-width slot holding `b`: truncated or zero filled. */
  function Fit(b: seq<Byte>, w: nat): (r: seq<Byte>)
    ensures |r| == w
    ensures |b| == w ==> r == b
  {
    if |b| >= w then b[..w] else b + Zeros(w - |b|)
  }

  /** A slice of a record found at `pos` is the same slice of the file. */
  lemma SubSlice(f: seq<Byte>, pos: nat, n: nat, i: nat, j: nat)
    requires pos + n <= |f| && i <= j <= n
    ensures f[pos + i..pos + j] == f[pos..pos + n][i..j]
  {
    var a := f[pos + i..pos + j];
    var b := f[pos..pos + n][i..j];
    assert |a| == |b|;
    forall k | 0 <= k < |a|
      ensures a[k] == b[k]
    {
      assert a[k] == f[pos + i + k];
      assert b[k] == f[pos..pos + n][i + k];
    }
  }

  /** The parts of a four-part record are its consecutive slices. */
  lemma Parts4(a: seq<Byte>, b: seq<Byte>, c: seq<Byte>, d: seq<Byte>)
    ensures var s := a + b + c + d;
      && s[0..|a|] == a && s[|a|..|a| + |b|] == b
      && s[|a| + |b|..|a| + |b| + |c|] == c && s[|a| + |b| + |c|..|s|] == d
  {
  }

  /** A four-part record stored at `pos` puts each part at its own offset. */
  lemma Fields4(f: seq<Byte>, pos: nat, a: seq<Byte>, b: seq<Byte>, c: seq<Byte>, d: seq<Byte>)
    requires pos + |a| + |b| + |c| + |d| <= |f|
    requires f[pos..pos + |a| + |b| + |c| + |d|] == a + b + c + d
    ensures f[pos..pos + |a|] == a
    ensures f[pos + |a|..pos + |a| + |b|] == b
    ensures f[pos + |a| + |b|..pos + |a| + |b| + |c|] == c
    ensures f[pos + |a| + |b| + |c|..pos + |a| + |b| + |c| + |d|] == d
  {
    var n := |a| + |b| + |c| + |d|;
    Parts4(a, b, c, d);
    SubSlice(f, pos, n, 0, |a|);
    SubSlice(f, pos, n, |a|, |a| + |b|);
    SubSlice(f, pos, n, |a| + |b|, |a| + |b| + |c|);
    SubSlice(f, pos, n, |a| + |b| + |c|, n);
  }

  /** NUL and space are the padding bytes of a text field. */
  predicate IsPad(b: Byte) {
    b == 0 || b == 32
  }

  /** decode_string: the field with its maximal trailing run of NUL/space
      bytes removed (ldparser.c). Embedded padding bytes are kept. */
  function DecodeString(f: seq<Byte>): (r: seq<Byte>)
    ensures |r| <= |f| && r == f[..|r|]
    ensures |r| == 0 || !IsPad(r[|r| - 1])
    ensures forall i | |r| <= i < |f| :: IsPad(f[i])
  {
    if |f| == 0 then []
    else if IsPad(f[|f| - 1]) then DecodeString(f[..|f| - 1])
    else f
  }

  /** The three properties of DecodeString's contract pin its result down:
      any other prefix with the same properties is the same sequence. */
  lemma DecodeStringUnique(f: seq<Byte>, r: seq<Byte>)
    requires |r| <= |f| && r == f[..|r|]
    requires |r| == 0 || !IsPad(r[|r| - 1])
    requires forall i | |r| <= i < |f| :: IsPad(f[i])
    ensures r == DecodeString(f)
  {
  }

  /** Decoding an already decoded string changes nothing. */
  lemma DecodeStringIdempotent(f: seq<Byte>)
    ensures DecodeString(DecodeString(f)) == DecodeString(f)
  {
    var d := DecodeString(f);
    DecodeStringUnique(d, d);
  }

  /** A field made only of NUL and space bytes decodes to the empty string. */
  lemma AllPadDecodesEmpty(f: seq<Byte>)
    requires forall i | 0 <= i < |f| :: IsPad(f[i])
    ensures DecodeString(f) == []
  {
  }

  /** The 8-byte field "ab" followed by six NULs decodes to "ab". */
  lemma DecodeStringExample()
    ensures DecodeString([97, 98, 0, 0, 0, 0, 0, 0]) == [97, 98]
  {
    DecodeStringUnique([97, 98, 0, 0, 0, 0, 0, 0], [97, 98]);
  }

  /** Decoding a text field written by strncpy gives back the stored text,
      provided that text does not itself end in a padding byte. */
  lemma TextFieldDecodes(s: string, width: nat)
    requires width >= 1
    requires forall i | 0 <= i < |s| :: CharByte(s[i]) != 0
    requires Min(|s|, width - 1) == 0 || CharByte(s[Min(|s|, width - 1) - 1]) != 32
    ensures DecodeString(TextField(s, width)) == BytesOf(s[..Min(|s|, width - 1)])
  {
    var n := Min(|s|, width - 1);
    var f := TextField(s, width);
    var b := BytesOf(s[..n]);
    assert f == b + Zeros(width - n);
    assert f[..n] == b;
    forall i | n <= i < width
      ensures IsPad(f[i])
    {
      assert f[i] == Zeros(width - n)[i - n];
    }
    DecodeStringUnique(f, b);
  }
}

=== FILE: csv_log.dfy ===
/** datalog_from_csv_log (data_log.c): the header and units lines define
    one channel per column after the first, and every later line whose
    first token is numeric contributes one sample per numeric cell.

    The file is given as the sequence of strings `fgets` returns: lines of
    at most 9999 characters, each with its newline, a longer line already
    split into such pieces. */
module CsvLog {
  import opened Wrappers
  import opened CsvText
  import opened TimeSeries

  /** At most this many header tokens become columns. */
  const MAX_COLUMNS: nat := 1000

  /** Decimals given to every channel read from a CSV file. */
  const CSV_DECIMALS: int := 3

  function Take<T>(s: seq<T>, n: nat): (r: seq<T>)
    ensures |r| == if |s| <= n then |s| else n
    ensures r == s[..|r|]
  {
    if |s| <= n then s else s[..n]
  }

  /** The line `fgets` returns at index `k`, if there is one. */
  function LineAt(lines: seq<string>, k: nat): Option<string> {
    if k < |lines| then Some(lines[k]) else None
  }

  /** The header tokens that become columns, each passed through `trim`. */
  function ColumnNames(header: Option<string>, trim: string -> string): (r: seq<string>)
    ensures header.None? ==> r == []
    ensures header.Some? ==> |r| == |Take(Tokens(header.value), MAX_COLUMNS)|
    ensures header.Some? ==> forall i | 0 <= i < |r| :: r[i] == trim(Tokens(header.value)[i])
  {
    match header
    case None => []
    case Some(h) =>
      var toks := Take(Tokens(h), MAX_COLUMNS);
      seq(|toks|, i requires 0 <= i < |toks| => trim(toks[i]))
  }

  /** The tokens the units loop sees. With a units line, its tokens. With
      none, `strtok(NULL, ",")` carries on where the header loop stopped:
      past the end of the header, or, when the header loop stopped at
      MAX_COLUMNS, after the one further token that loop had already
      taken. */
  function UnitSource(header: Option<string>, units: Option<string>): seq<string> {
    match units
    case Some(u) => Tokens(u)
    case None =>
      if header.Some? && |Tokens(header.value)| > MAX_COLUMNS + 1 then Tokens(header.value)[MAX_COLUMNS + 1..]
      else []
  }

  /** The unit tokens, at most one per column, each passed through `trim`. */
  function UnitNames(header: Option<string>, units: Option<string>, columns: nat, trim: string -> string): (r: seq<string>)
    ensures |r| == |Take(UnitSource(header, units), columns)|
    ensures forall i | 0 <= i < |r| :: r[i] == trim(UnitSource(header, units)[i])
  {
    var toks := Take(UnitSource(header, units), columns);
    seq(|toks|, i requires 0 <= i < |toks| => trim(toks[i]))
  }

  /** The number of channels the header and units lines define: one per
      column index 1 .. min(columns, units) - 1. */
  function ChannelCount(names: seq<string>, units: seq<string>): nat {
    var m := if |names| <= |units| then |names| else |units|;
    if m == 0 then 0 else m - 1
  }

  /** Adds the channels for column indices `lo` .. `hi - 1` through
      datalog_add_channel, which grows the channel slots when full. */
  function AddColumns(log: DataLog, names: seq<string>, units: seq<string>, lo: nat, hi: nat): (r: DataLog)
    requires 1 <= lo <= hi && hi <= |names| && hi <= |units|
    ensures |r.channels| == |log.channels| + (hi - lo)
    ensures r.channels[..|log.channels|] == log.channels
    ensures forall k | lo <= k < hi ::
              r.channels[|log.channels| + (k - lo)] == NewChannel(names[k], units[k], CSV_DECIMALS)
    ensures r.name == log.name
    ensures CapacityOk(log) ==> CapacityOk(r)
    decreases hi - lo
  {
    if lo == hi then log
    else
      var next := AddChannel(log, names[lo], units[lo], CSV_DECIMALS);
      AddColumns(next, names, units, lo + 1, hi)
  }

  /** The same loop as the source writes it: the new channel is stored at
      index `channel_count` with no check against the slots allocated, so
      the capacity never changes. */
  function AddColumnsAsWritten(log: DataLog, names: seq<string>, units: seq<string>, lo: nat, hi: nat): (r: DataLog)
    requires 1 <= lo <= hi && hi <= |names| && hi <= |units|
    ensures |r.channels| == |log.channels| + (hi - lo)
    ensures r.channels[..|log.channels|] == log.channels
    ensures forall k | lo <= k < hi ::
              r.channels[|log.channels| + (k - lo)] == NewChannel(names[k], units[k], CSV_DECIMALS)
    ensures r.name == log.name
    ensures r.capacity == log.capacity
    decreases hi - lo
  {
    if lo == hi then log
    else
      var next := log.(channels := log.channels + [NewChannel(names[lo], units[lo], CSV_DECIMALS)]);
      AddColumnsAsWritten(next, names, units, lo + 1, hi)
  }

  /** Channel creation from the first two lines, with whitespace removed
      from both ends of every name and unit. */
  function AddHeaderChannels(log: DataLog, header: Option<string>, units: Option<string>): (r: DataLog)
    ensures var names := ColumnNames(header, Trim);
      var us := UnitNames(header, units, |names|, Trim);
      && |r.channels| == |log.channels| + ChannelCount(names, us)
      && r.channels[..|log.channels|] == log.channels
      && (forall k | 1 <= k <= ChannelCount(names, us) ::
            r.channels[|log.channels| + (k - 1)] == NewChannel(names[k], us[k], CSV_DECIMALS))
    ensures r.name == log.name
    ensures CapacityOk(log) ==> CapacityOk(r)
  {
    var names := ColumnNames(header, Trim);
    var us := UnitNames(header, units, |names|, Trim);
    var n := ChannelCount(names, us);
    if n == 0 then log else AddColumns(log, names, us, 1, n + 1)
  }

  /** Channel creation as the source writes it: trim_whitespace as written
      and no growth of the channel slots. */
  function AddHeaderChannelsAsWritten(log: DataLog, header: Option<string>, units: Option<string>): (r: DataLog)
    ensures var names := ColumnNames(header, TrimAsWritten);
      var us := UnitNames(header, units, |names|, TrimAsWritten);
      && |r.channels| == |log.channels| + ChannelCount(names, us)
      && r.channels[..|log.channels|] == log.channels
      && (forall k | 1 <= k <= ChannelCount(names, us) ::
            r.channels[|log.channels| + (k - 1)] == NewChannel(names[k], us[k], CSV_DECIMALS))
    ensures r.name == log.name
    ensures r.capacity == log.capacity
  {
    var names := ColumnNames(header, TrimAsWritten);
    var us := UnitNames(header, units, |names|, TrimAsWritten);
    var n := ChannelCount(names, us);
    if n == 0 then log else AddColumnsAsWritten(log, names, us, 1, n + 1)
  }

  /** Channel i's part of a data row with tokens `toks`: the cell after
      the timestamp at i + 1, if present and numeric, is appended as one
      sample at the row's timestamp; otherwise the channel is unchanged. */
  function RowCell(c: Channel, toks: seq<string>, numeric: string -> bool, i: nat): (r: Channel)
    requires |toks| > 0
    ensures r.name == c.name && r.units == c.units && r.decimals == c.decimals
    ensures i + 1 < |toks| && numeric(toks[i + 1]) ==>
              r.samples == c.samples + [Sample(StrToD(toks[0]).value, StrToD(toks[i + 1]).value)]
    ensures !(i + 1 < |toks| && numeric(toks[i + 1])) ==> r == c
  {
    if i + 1 < |toks| && numeric(toks[i + 1]) then AppendSample(c, StrToD(toks[0]).value, StrToD(toks[i + 1]).value)
    else c
  }

  /** One data line. The row is skipped when it has no token or its first
      token is not numeric; otherwise every channel takes its cell as
      RowCell says. */
  function IngestRowWith(chs: seq<Channel>, line: string, numeric: string -> bool): (r: seq<Channel>)
    ensures |r| == |chs|
    ensures (|Tokens(line)| == 0 || !numeric(Tokens(line)[0])) ==> r == chs
    ensures |Tokens(line)| > 0 && numeric(Tokens(line)[0]) ==>
              forall i | 0 <= i < |chs| :: r[i] == RowCell(chs[i], Tokens(line), numeric, i)
  {
    var toks := Tokens(line);
    if |toks| == 0 || !numeric(toks[0]) then chs
    else seq(|chs|, i requires 0 <= i < |chs| => RowCell(chs[i], toks, numeric, i))
  }

  /** One data line, with a cell counted as numeric only when a number was
      actually converted. */
  function IngestRow(chs: seq<Channel>, line: string): (r: seq<Channel>)
    ensures |r| == |chs|
    ensures forall i | 0 <= i < |chs| :: r[i] == chs[i].(samples := chs[i].samples + RowSample(line, i, IsNumeric))
  {
    IngestRowWith(chs, line, IsNumeric)
  }

  /** One data line as the source reads it, with is_numeric as written. */
  function IngestRowAsWritten(chs: seq<Channel>, line: string): (r: seq<Channel>)
    ensures |r| == |chs|
    ensures forall i | 0 <= i < |chs| ::
              r[i] == chs[i].(samples := chs[i].samples + RowSample(line, i, IsNumericAsWritten))
  {
    IngestRowWith(chs, line, IsNumericAsWritten)
  }

  /** The data lines in file order. */
  function IngestRowsWith(chs: seq<Channel>, rows: seq<string>, numeric: string -> bool): (r: seq<Channel>)
    ensures |r| == |chs|
    decreases |rows|
  {
    if |rows| == 0 then chs else IngestRowsWith(IngestRowWith(chs, rows[0], numeric), rows[1..], numeric)
  }

  /** The lines after the header and units lines. */
  function DataRows(lines: seq<string>): seq<string> {
    if |lines| <= 2 then [] else lines[2..]
  }

  /** The sample one data line gives channel i: one, at the row's
      timestamp, when the first token and the token at i + 1 are both
      numeric; none otherwise. */
  function RowSample(line: string, i: nat, numeric: string -> bool): seq<Sample> {
    var toks := Tokens(line);
    if |toks| > 0 && numeric(toks[0]) && i + 1 < |toks| && numeric(toks[i + 1]) then
      [Sample(StrToD(toks[0]).value, StrToD(toks[i + 1]).value)]
    else []
  }

  /** Column i + 1 read down the data lines: the samples channel i gets,
      in file order. */
  function ColumnSamples(rows: seq<string>, i: nat, numeric: string -> bool): seq<Sample>
    decreases |rows|
  {
    if |rows| == 0 then [] else RowSample(rows[0], i, numeric) + ColumnSamples(rows[1..], i, numeric)
  }

  /** One data line adds to channel i exactly the sample its cell gives. */
  lemma RowAddsSample(chs: seq<Channel>, line: string, numeric: string -> bool, i: nat)
    requires i < |chs|
    ensures IngestRowWith(chs, line, numeric)[i] == chs[i].(samples := chs[i].samples + RowSample(line, i, numeric))
  {
  }

  /** Reading row by row is reading column by column: after the data lines
      channel i keeps its name, units and decimals, and holds its earlier
      samples followed by those of column i + 1. */
  lemma IngestRowsByColumn(chs: seq<Channel>, rows: seq<string>, numeric: string -> bool)
    ensures var r := IngestRowsWith(chs, rows, numeric);
      forall i | 0 <= i < |chs| :: r[i] == chs[i].(samples := chs[i].samples + ColumnSamples(rows, i, numeric))
  {
    forall i | 0 <= i < |chs|
      ensures IngestRowsWith(chs, rows, numeric)[i] == chs[i].(samples := chs[i].samples + ColumnSamples(rows, i, numeric))
    {
      ColumnAt(chs, rows, numeric, i);
    }
  }

  /** Channel i after the data lines, by induction on the lines. */
  lemma {:induction false} ColumnAt(chs: seq<Channel>, rows: seq<string>, numeric: string -> bool, i: nat)
    requires i < |chs|
    ensures IngestRowsWith(chs, rows, numeric)[i] == chs[i].(samples := chs[i].samples + ColumnSamples(rows, i, numeric))
    decreases |rows|
  {
    if |rows| == 0 {
      assert chs[i].samples + [] == chs[i].samples;
    } else {
      var mid := IngestRowWith(chs, rows[0], numeric);
      ColumnAt(mid, rows[1..], numeric, i);
      RowAddsSample(chs, rows[0], numeric, i);
      ColumnStep(chs[i], mid[i], IngestRowsWith(chs, rows, numeric)[i], RowSample(rows[0], i, numeric),
                 ColumnSamples(rows[1..], i, numeric));
    }
  }

  /** One step of ColumnAt over plain values. */
  lemma ColumnStep(c: Channel, mid: Channel, r: Channel, b: seq<Sample>, rest: seq<Sample>)
    requires mid == c.(samples := c.samples + b) && r == mid.(samples := mid.samples + rest)
    ensures r == c.(samples := c.samples + (b + rest))
  {
    assert (c.samples + b) + rest == c.samples + (b + rest);
  }

  /** datalog_from_csv_log as the source writes it: channels from the
      first two lines with trim_whitespace as written and no growth of the
      slots, then the samples of the data lines under is_numeric as
      written. Channel i takes column i + 1 of every row. */
  function FromCsvLogAsWritten(log: DataLog, lines: seq<string>): (r: DataLog)
    ensures r.name == log.name && r.capacity == log.capacity
    ensures var names := ColumnNames(LineAt(lines, 0), TrimAsWritten);
      var us := UnitNames(LineAt(lines, 0), LineAt(lines, 1), |names|, TrimAsWritten);
      var n := |log.channels|;
      var rows := DataRows(lines);
      && |r.channels| == n + ChannelCount(names, us)
      && (forall i | 0 <= i < n :: r.channels[i]
            == log.channels[i].(samples := log.channels[i].samples + ColumnSamples(rows, i, IsNumericAsWritten)))
      && (forall k | 1 <= k <= ChannelCount(names, us) :: r.channels[n + (k - 1)]
            == Channel(names[k], us[k], CSV_DECIMALS, ColumnSamples(rows, n + (k - 1), IsNumericAsWritten)))
  {
    var withChannels := AddHeaderChannelsAsWritten(log, LineAt(lines, 0), LineAt(lines, 1));
    IngestRowsByColumn(withChannels.channels, DataRows(lines), IsNumericAsWritten);
    withChannels.(channels := IngestRowsWith(withChannels.channels, DataRows(lines), IsNumericAsWritten))
  }

  /** datalog_from_csv_log as evidently intended: names and units trimmed
      at both ends, the slots grown as channels are added, and a cell
      counted only when a number was converted. */
  function FromCsvLogCorrected(log: DataLog, lines: seq<string>): (r: DataLog)
    ensures r.name == log.name
    ensures CapacityOk(log) ==> CapacityOk(r)
    ensures var names := ColumnNames(LineAt(lines, 0), Trim);
      var us := UnitNames(LineAt(lines, 0), LineAt(lines, 1), |names|, Trim);
      var n := |log.channels|;
      var rows := DataRows(lines);
      && |r.channels| == n + ChannelCount(names, us)
      && (forall i | 0 <= i < n :: r.channels[i]
            == log.channels[i].(samples := log.channels[i].samples + ColumnSamples(rows, i, IsNumeric)))
      && (forall k | 1 <= k <= ChannelCount(names, us) :: r.channels[n + (k - 1)]
            == Channel(names[k], us[k], CSV_DECIMALS, ColumnSamples(rows, n + (k - 1), IsNumeric)))
  {
    var withChannels := AddHeaderChannels(log, LineAt(lines, 0), LineAt(lines, 1));
    IngestRowsByColumn(withChannels.channels, DataRows(lines), IsNumeric);
    withChannels.(channels := IngestRowsWith(withChannels.channels, DataRows(lines), IsNumeric))
  }

  /** Reading the rows in two parts is reading them all at once. */
  lemma {:induction false} IngestRowsAppend(chs: seq<Channel>, a: seq<string>, b: seq<string>, numeric: string -> bool)
    ensures IngestRowsWith(chs, a + b, numeric) == IngestRowsWith(IngestRowsWith(chs, a, numeric), b, numeric)
    decreases |a|
  {
    if |a| > 0 {
      assert (a + b)[0] == a[0];
      assert (a + b)[1..] == a[1..] + b;
      IngestRowsAppend(IngestRowWith(chs, a[0], numeric), a[1..], b, numeric);
    } else {
      assert a + b == b;
    }
  }

  /** As the source reads rows, a row is skipped when its first token has
      no digit and does not start with whitespace: nothing converts and the
      character after the empty conversion is not whitespace. */
  lemma RowWithoutTimestampSkipped(chs: seq<Channel>, line: string)
    requires |Tokens(line)| == 0 ||
             (!IsSpace(Tokens(line)[0][0]) && forall k | 0 <= k < |Tokens(line)[0]| :: !IsDigit(Tokens(line)[0][k]))
    ensures IngestRowAsWritten(chs, line) == chs
  {
    var toks := Tokens(line);
    if |toks| > 0 {
      assert StrToD(toks[0]).len == 0;
      assert !IsNumericAsWritten(toks[0]);
    }
  }

  /** A first token of whitespace alone, as in " ,5", passes is_numeric as
      written and gives the row timestamp 0; the corrected test skips the
      row. */
  lemma BlankTimestampAsWritten(c: Channel, line: string)
    requires line == " ,5"
    ensures IngestRowAsWritten([c], line) == [AppendSample(c, 0.0, 5.0)]
    ensures IngestRow([c], line) == [c]
  {
    TwoTokens(" ", "5");
    assert " " + "," + "5" == line;
    assert AllSpace(" ");
    BlankAcceptedAsWritten(" ");
    OneDigit("5");
  }

  /** With the corrected is_numeric a row whose timestamp has no digit adds
      nothing anywhere. */
  lemma RowWithoutTimestampSkippedCorrected(chs: seq<Channel>, line: string)
    requires |Tokens(line)| == 0 || forall k | 0 <= k < |Tokens(line)[0]| :: !IsDigit(Tokens(line)[0][k])
    ensures IngestRow(chs, line) == chs
  {
    var toks := Tokens(line);
    if |toks| > 0 {
      assert !IsNumeric(toks[0]);
    }
  }

  /** Reading a CSV file into a fresh log as the source does: 501 columns
      make 500 channels, which fill the slots exactly; one column more and
      the channels outnumber the slots, the source's write past the end of
      its channel array. */
  lemma CsvCapacityOverflowAsWritten(name: string, lines: seq<string>)
    requires |lines| >= 2 && |Tokens(lines[0])| >= 502 && |Tokens(lines[1])| >= 502
    ensures var r := FromCsvLogAsWritten(Create(name), lines);
      |r.channels| > r.capacity
  {
    var names := ColumnNames(Some(lines[0]), TrimAsWritten);
    var us := UnitNames(Some(lines[0]), Some(lines[1]), |names|, TrimAsWritten);
    assert |names| >= 502;
    assert |us| >= 502;
  }

  /** With datalog_add_channel's growth the channels always fit. */
  lemma CsvChannelsFit(name: string, lines: seq<string>)
    ensures CapacityOk(FromCsvLogCorrected(Create(name), lines))
  {
  }

  /** The columns of the header "t, rpm" under a trim that keeps "t". */
  lemma ExampleColumns(trim: string -> string)
    requires trim("t") == "t"
    ensures ColumnNames(Some("t, rpm"), trim) == ["t", trim(" rpm")]
  {
    TwoTokens("t", " rpm");
    assert "t" + "," + " rpm" == "t, rpm";
    var r := ColumnNames(Some("t, rpm"), trim);
    assert |r| == 2;
    assert r[0] == "t";
  }

  /** The units "s,x" under a two-column header. */
  lemma ExampleUnits(trim: string -> string)
    requires trim("s") == "s" && trim("x") == "x"
    ensures UnitNames(Some("t, rpm"), Some("s,x"), 2, trim) == ["s", "x"]
  {
    TwoTokens("s", "x");
    assert "s" + "," + "x" == "s,x";
    var toks := Take(UnitSource(Some("t, rpm"), Some("s,x")), 2);
    assert toks == ["s", "x"];
  }

  /** A single character that is not whitespace survives either trim. */
  lemma NoSpaceTrims(w: string)
    requires |w| == 1 && !IsSpace(w[0])
    ensures Trim(w) == w && TrimAsWritten(w) == w
  {
    assert !AllSpace(w);
  }

  /** A header "t, rpm" names its channel " rpm" as the source reads it and
      "rpm" once leading whitespace is removed. */
  lemma LeadingSpaceInNameAsWritten()
    ensures var r := AddHeaderChannelsAsWritten(Create(""), Some("t, rpm"), Some("s,x"));
      |r.channels| == 1 && r.channels[0].name == " rpm"
  {
    ExampleTrims();
    ExampleColumns(TrimAsWritten);
    ExampleUnits(TrimAsWritten);
    var names := ColumnNames(Some("t, rpm"), TrimAsWritten);
    var us := UnitNames(Some("t, rpm"), Some("s,x"), |names|, TrimAsWritten);
    assert names == ["t", " rpm"] && us == ["s", "x"];
    assert ChannelCount(names, us) == 1;
  }

  /** With the corrected trim the same header names the channel "rpm". */
  lemma NameTrimmedExample()
    ensures var r := AddHeaderChannels(Create(""), Some("t, rpm"), Some("s,x"));
      |r.channels| == 1 && r.channels[0].name == "rpm"
  {
    ExampleTrims();
    ExampleColumns(Trim);
    ExampleUnits(Trim);
    var names := ColumnNames(Some("t, rpm"), Trim);
    var us := UnitNames(Some("t, rpm"), Some("s,x"), |names|, Trim);
    assert names == ["t", "rpm"] && us == ["s", "x"];
    assert ChannelCount(names, us) == 1;
  }

  /** How both trims treat the tokens of the example. */
  lemma ExampleTrims()
    ensures Trim("t") == "t" && TrimAsWritten("t") == "t"
    ensures Trim("s") == "s" && TrimAsWritten("s") == "s"
    ensures Trim("x") == "x" && TrimAsWritten("x") == "x"
    ensures Trim(" rpm") == "rpm" && TrimAsWritten(" rpm") == " rpm"
  {
    NoSpaceTrims("t");
    NoSpaceTrims("s");
    NoSpaceTrims("x");
    RpmTrims();
  }

  lemma RpmTrims()
    ensures Trim(" rpm") == "rpm" && TrimAsWritten(" rpm") == " rpm"
  {
    TrimKeepsLeadingSpaceAsWritten("rpm");
    assert " " + "rpm" == " rpm";
  }

  /** Two non-empty comma-free fields joined by a comma are two tokens. */
  lemma TwoTokens(a: string, b: string)
    requires |a| > 0 && |b| > 0 && ',' !in a && ',' !in b
    ensures Tokens(a + "," + b) == [a, b]
  {
    TokensSplit(a, b);
    SingleField(a);
    SingleField(b);
  }

  /** A line ending in a comma leaves a last token "\n". The source counts
      it as numeric and stores a sample of value 0; with the conversion
      check the cell is dropped. */
  lemma TrailingCommaSampleAsWritten(c: Channel, line: string)
    requires line == "1,\n"
    ensures IngestRowAsWritten([c], line) == [AppendSample(c, 1.0, 0.0)]
    ensures IngestRow([c], line) == [c]
  {
    TwoTokens("1", "\n");
    assert "1" + "," + "\n" == line;
    BlankAcceptedAsWritten("\n");
    OneDigit("1");
  }

  /** `strtod` on a single decimal digit converts the whole string. */
  lemma OneDigit(w: string)
    requires |w| == 1 && IsDigit(w[0])
    ensures StrToD(w) == Scan(1, DigitValue(w[0]) as real)
    ensures IsNumeric(w)
  {
    StrToDInteger(w, 1);
    assert w[..1] == w;
    assert DigitsValue(w) == DigitValue(w[0]);
  }

  /** A cell of one digit, alone or followed by the line's newline. */
  lemma DigitCell(w: string)
    requires 1 <= |w| <= 2 && IsDigit(w[0]) && (|w| == 2 ==> w[1] == '\n')
    ensures StrToD(w) == Scan(1, DigitValue(w[0]) as real)
    ensures IsNumericAsWritten(w) && IsNumeric(w)
  {
    StrToDInteger(w, 1);
    assert w[..1] == [w[0]];
    assert DigitsValue([w[0]]) == DigitValue(w[0]);
  }

  /** Three non-empty comma-free fields joined by commas are three tokens. */
  lemma ThreeTokens(a: string, b: string, c: string)
    requires |a| > 0 && |b| > 0 && |c| > 0 && ',' !in a && ',' !in b && ',' !in c
    ensures Tokens(a + "," + b + "," + c) == [a, b, c]
  {
    TokensSplit(a + "," + b, c);
    TwoTokens(a, b);
    SingleField(c);
  }

  /** A line "x,y,z" ending in its newline, with x, y, z not commas. */
  function Line3(x: char, y: char, z: char): string {
    [x] + "," + [y] + "," + [z, '\n']
  }

  /** A data line of three digit cells gives channel 0 the sample (x, y)
      and channel 1 the sample (x, z). */
  lemma DigitRow(x: char, y: char, z: char)
    requires IsDigit(x) && IsDigit(y) && IsDigit(z)
    ensures RowSample(Line3(x, y, z), 0, IsNumericAsWritten) == [Sample(DigitValue(x) as real, DigitValue(y) as real)]
    ensures RowSample(Line3(x, y, z), 1, IsNumericAsWritten) == [Sample(DigitValue(x) as real, DigitValue(z) as real)]
  {
    ThreeTokens([x], [y], [z, '\n']);
    DigitCell([x]);
    DigitCell([y]);
    DigitCell([z, '\n']);
  }

  /** A data line whose timestamp is a letter that is not whitespace gives
      no channel a sample. */
  lemma LetterRow(x: char, y: char, z: char, i: nat)
    requires !IsDigit(x) && !IsSpace(x) && x != ',' && y != ',' && z != ','
    ensures RowSample(Line3(x, y, z), i, IsNumericAsWritten) == []
  {
    ThreeTokens([x], [y], [z, '\n']);
    assert StrToD([x]).len == 0;
  }

  /** Two digit rows and a letter row, read down column i + 1. */
  lemma ColumnOfRows(x0: char, y0: char, z0: char, x1: char, y1: char, z1: char, x2: char, y2: char, z2: char)
    requires IsDigit(x0) && IsDigit(y0) && IsDigit(z0) && IsDigit(x1) && IsDigit(y1) && IsDigit(z1)
    requires !IsDigit(x2) && !IsSpace(x2) && x2 != ',' && y2 != ',' && z2 != ','
    ensures var rows := [Line3(x0, y0, z0), Line3(x1, y1, z1), Line3(x2, y2, z2)];
      && ColumnSamples(rows, 0, IsNumericAsWritten)
         == [Sample(DigitValue(x0) as real, DigitValue(y0) as real), Sample(DigitValue(x1) as real, DigitValue(y1) as real)]
      && ColumnSamples(rows, 1, IsNumericAsWritten)
         == [Sample(DigitValue(x0) as real, DigitValue(z0) as real), Sample(DigitValue(x1) as real, DigitValue(z1) as real)]
  {
    var rows := [Line3(x0, y0, z0), Line3(x1, y1, z1), Line3(x2, y2, z2)];
    DigitRow(x0, y0, z0);
    DigitRow(x1, y1, z1);
    LetterRow(x2, y2, z2, 0);
    LetterRow(x2, y2, z2, 1);
    ColumnOfThree(rows, 0, IsNumericAsWritten);
    ColumnOfThree(rows, 1, IsNumericAsWritten);
  }

  /** A column read down three data lines. */
  lemma ColumnOfThree(rows: seq<string>, i: nat, numeric: string -> bool)
    requires |rows| == 3
    ensures ColumnSamples(rows, i, numeric)
            == RowSample(rows[0], i, numeric) + RowSample(rows[1], i, numeric) + RowSample(rows[2], i, numeric)
  {
    assert rows[1..][1..][1..] == [];
    assert ColumnSamples(rows[1..][1..], i, numeric) == RowSample(rows[2], i, numeric) + [];
  }

  /** Three header tokens and three unit tokens make three columns. */
  lemma ThreeColumns(header: string, units: string, trim: string -> string)
    requires |Tokens(header)| == 3 && |Tokens(units)| == 3
    ensures var names := ColumnNames(Some(header), trim);
      var us := UnitNames(Some(header), Some(units), |names|, trim);
      && names == [trim(Tokens(header)[0]), trim(Tokens(header)[1]), trim(Tokens(header)[2])]
      && us == [trim(Tokens(units)[0]), trim(Tokens(units)[1]), trim(Tokens(units)[2])]
  {
  }

  /** A header line "x,y,z" and units line "u,v,w" of single letters that
      are not whitespace name the columns x, y, z with the units u, v, w as
      the source trims them. */
  lemma LetterHeader(x: char, y: char, z: char, u: char, v: char, w: char)
    requires x != ',' && y != ',' && z != ',' && u != ',' && v != ',' && w != ','
    requires !IsSpace(x) && !IsSpace(y) && !IsSpace(z) && !IsSpace(u) && !IsSpace(v) && !IsSpace(w)
    ensures var names := ColumnNames(Some(Line3(x, y, z)), TrimAsWritten);
      var us := UnitNames(Some(Line3(x, y, z)), Some(Line3(u, v, w)), |names|, TrimAsWritten);
      names == [[x], [y], [z]] && us == [[u], [v], [w]]
  {
    ThreeTokens([x], [y], [z, '\n']);
    ThreeTokens([u], [v], [w, '\n']);
    ThreeColumns(Line3(x, y, z), Line3(u, v, w), TrimAsWritten);
    LetterTrims(x, y, z);
    LetterTrims(u, v, w);
  }

  /** The source's trim keeps a single letter and cuts the newline after
      one. */
  lemma LetterTrims(x: char, y: char, z: char)
    requires !IsSpace(x) && !IsSpace(y) && !IsSpace(z)
    ensures TrimAsWritten([x]) == [x] && TrimAsWritten([y]) == [y] && TrimAsWritten([z, '\n']) == [z]
  {
    NoSpaceTrims([x]);
    NoSpaceTrims([y]);
    NewlineTrims(z);
  }

  /** The source's trim cuts the newline after a one-character name. */
  lemma NewlineTrims(c: char)
    requires !IsSpace(c)
    ensures TrimAsWritten([c, '\n']) == [c]
  {
    assert !IsSpace([c, '\n'][0]);
    assert [c, '\n'][..1] == [c];
    assert DropTrailingSpace([c]) == [c];
  }

  /** A five-line file, read as the source reads it: header "t,a,b",
      units "s,V,A", and the rows "0,1,2", "1,3,4" and "x,5,6" give channel
      a the samples (0, 1), (1, 3) and channel b the samples (0, 2), (1, 4);
      the row with the letter timestamp is skipped. */
  lemma ExampleFileAsWritten(lines: seq<string>)
    requires lines == ["t,a,b\n", "s,V,A\n", "0,1,2\n", "1,3,4\n", "x,5,6\n"]
    ensures FromCsvLogAsWritten(Create(""), lines).channels
            == [Channel("a", "V", CSV_DECIMALS, [Sample(0.0, 1.0), Sample(1.0, 3.0)]),
                Channel("b", "A", CSV_DECIMALS, [Sample(0.0, 2.0), Sample(1.0, 4.0)])]
  {
    Line3Is('t', 'a', 'b', "t,a,b\n");
    Line3Is('s', 'V', 'A', "s,V,A\n");
    Line3Is('0', '1', '2', "0,1,2\n");
    Line3Is('1', '3', '4', "1,3,4\n");
    Line3Is('x', '5', '6', "x,5,6\n");
    ExampleRead(lines, 't', 'a', 'b', 's', 'V', 'A', '0', '1', '2', '1', '3', '4', 'x', '5', '6');
    DigitValues();
  }

  lemma DigitValues()
    ensures DigitValue('0') as real == 0.0 && DigitValue('1') as real == 1.0 && DigitValue('2') as real == 2.0
    ensures DigitValue('3') as real == 3.0 && DigitValue('4') as real == 4.0
  {
  }

  /** A six-character line spelled "x,y,z" and a newline is Line3(x, y, z). */
  lemma Line3Is(x: char, y: char, z: char, s: string)
    requires |s| == 6 && s[0] == x && s[1] == ',' && s[2] == y && s[3] == ',' && s[4] == z && s[5] == '\n'
    ensures Line3(x, y, z) == s
  {
  }

  /** FromCsvLogAsWritten on a header, a units line, two digit rows and a
      letter row, all of three single-character cells. */
  lemma ExampleRead(lines: seq<string>, h0: char, h1: char, h2: char, u0: char, u1: char, u2: char,
                    x0: char, y0: char, z0: char, x1: char, y1: char, z1: char, x2: char, y2: char, z2: char)
    requires lines == [Line3(h0, h1, h2), Line3(u0, u1, u2), Line3(x0, y0, z0), Line3(x1, y1, z1), Line3(x2, y2, z2)]
    requires h0 != ',' && h1 != ',' && h2 != ',' && u0 != ',' && u1 != ',' && u2 != ','
    requires !IsSpace(h0) && !IsSpace(h1) && !IsSpace(h2) && !IsSpace(u0) && !IsSpace(u1) && !IsSpace(u2)
    requires IsDigit(x0) && IsDigit(y0) && IsDigit(z0) && IsDigit(x1) && IsDigit(y1) && IsDigit(z1)
    requires !IsDigit(x2) && !IsSpace(x2) && x2 != ',' && y2 != ',' && z2 != ','
    ensures FromCsvLogAsWritten(Create(""), lines).channels
            == [Channel([h1], [u1], CSV_DECIMALS, [Sample(DigitValue(x0) as real, DigitValue(y0) as real),
                                                   Sample(DigitValue(x1) as real, DigitValue(y1) as real)]),
                Channel([h2], [u2], CSV_DECIMALS, [Sample(DigitValue(x0) as real, DigitValue(z0) as real),
                                                   Sample(DigitValue(x1) as real, DigitValue(z1) as real)])]
  {
    assert DataRows(lines) == [Line3(x0, y0, z0), Line3(x1, y1, z1), Line3(x2, y2, z2)];
    LetterHeader(h0, h1, h2, u0, u1, u2);
    ColumnOfRows(x0, y0, z0, x1, y1, z1, x2, y2, z2);
    ReadTwoColumns(lines, [[h0], [h1], [h2]], [[u0], [u1], [u2]],
                   [Sample(DigitValue(x0) as real, DigitValue(y0) as real), Sample(DigitValue(x1) as real, DigitValue(y1) as real)],
                   [Sample(DigitValue(x0) as real, DigitValue(z0) as real), Sample(DigitValue(x1) as real, DigitValue(z1) as real)]);
  }

  /** A file whose header and units lines give three columns reads into
      two channels, holding what the data lines give columns 1 and 2. */
  lemma ReadTwoColumns(lines: seq<string>, names: seq<string>, us: seq<string>, col0: seq<Sample>, col1: seq<Sample>)
    requires |names| == 3 && |us| == 3
    requires ColumnNames(LineAt(lines, 0), TrimAsWritten) == names
    requires UnitNames(LineAt(lines, 0), LineAt(lines, 1), 3, TrimAsWritten) == us
    requires ColumnSamples(DataRows(lines), 0, IsNumericAsWritten) == col0
    requires ColumnSamples(DataRows(lines), 1, IsNumericAsWritten) == col1
    ensures FromCsvLogAsWritten(Create(""), lines).channels
            == [Channel(names[1], us[1], CSV_DECIMALS, col0), Channel(names[2], us[2], CSV_DECIMALS, col1)]
  {
    assert ChannelCount(names, us) == 2;
    var r := FromCsvLogAsWritten(Create(""), lines);
    assert r.channels[0] == Channel(names[1], us[1], CSV_DECIMALS, col0);
    assert r.channels[1] == Channel(names[2], us[2], CSV_DECIMALS, col1);
  }
}

=== FILE: csv_text.dfy ===
/** Text scanning used by the CSV reader of data_log.c: the C `isspace`
    class, trim_whitespace, the decimal subset of `strtod`, is_numeric, and
    `strtok(line, ",")` splitting. */
module CsvText {

  /** The characters C's `isspace` accepts in the "C" locale. */
  predicate IsSpace(c: char) {
    c == ' ' || c == '\t' || c == '\n' || c == '\r' || c as int == 11 || c as int == 12
  }

  predicate IsDigit(c: char) {
    '0' <= c <= '9'
  }

  predicate AllSpace(s: string) {
    forall i | 0 <= i < |s| :: IsSpace(s[i])
  }

  /** `s` without its maximal run of trailing whitespace. */
  function DropTrailingSpace(s: string): (r: string)
    ensures |r| <= |s| && r == s[..|r|]
    ensures |r| == 0 || !IsSpace(r[|r| - 1])
    ensures forall i | |r| <= i < |s| :: IsSpace(s[i])
  {
    if |s| == 0 then s
    else if IsSpace(s[|s| - 1]) then DropTrailingSpace(s[..|s| - 1])
    else s
  }

  /** `s` without its maximal run of leading whitespace. */
  function DropLeadingSpace(s: string): (r: string)
    ensures |r| <= |s| && r == s[|s| - |r|..]
    ensures |r| == 0 || !IsSpace(r[0])
    ensures forall i | 0 <= i < |s| - |r| :: IsSpace(s[i])
  {
    if |s| == 0 then s
    else if IsSpace(s[0]) then DropLeadingSpace(s[1..])
    else s
  }

  /** trim_whitespace as written: the scan past leading whitespace only
      moves a local pointer, so leading whitespace stays in the caller's
      string; trailing whitespace is cut unless the string is all
      whitespace, which is returned unchanged. */
  function TrimAsWritten(s: string): (r: string)
    ensures AllSpace(s) ==> r == s
    ensures !AllSpace(s) ==> 0 < |r| <= |s| && r == s[..|r|] && !IsSpace(r[|r| - 1])
    ensures !AllSpace(s) ==> forall k | |r| <= k < |s| :: IsSpace(s[k])
  {
    if AllSpace(s) then s else DropTrailingSpace(s)
  }

  /** trim_whitespace as evidently intended: whitespace removed from both
      ends. */
  function Trim(s: string): (r: string)
    ensures |r| == 0 || (!IsSpace(r[0]) && !IsSpace(r[|r| - 1]))
    ensures AllSpace(s) <==> r == []
  {
    DropLeadingSpace(DropTrailingSpace(s))
  }

  /** The trimmed string is `s` with only whitespace removed around it. */
  lemma TrimIsInnerSlice(s: string)
    ensures var r := Trim(s);
      var a := |DropTrailingSpace(s)| - |r|;
      && a + |r| <= |s|
      && r == s[a..a + |r|]
      && (forall i | 0 <= i < a :: IsSpace(s[i]))
      && (forall i | a + |r| <= i < |s| :: IsSpace(s[i]))
  {
    var t := DropTrailingSpace(s);
    var r := DropLeadingSpace(t);
    var a := |t| - |r|;
    assert r == t[a..];
    assert t == s[..|t|];
    forall i | 0 <= i < a
      ensures IsSpace(s[i])
    {
      assert s[i] == t[i];
    }
  }

  /** Trimming twice is trimming once. */
  lemma TrimIdempotent(s: string)
    ensures Trim(Trim(s)) == Trim(s)
  {
    var r := Trim(s);
    if |r| > 0 {
      assert DropTrailingSpace(r) == r;
      assert DropLeadingSpace(r) == r;
    }
  }

  /** The source's trim keeps leading whitespace in front of a name: " w"
      stays " w" where whitespace removal from both ends gives "w". */
  lemma TrimKeepsLeadingSpaceAsWritten(w: string)
    requires |w| > 0 && !IsSpace(w[0]) && !IsSpace(w[|w| - 1])
    ensures TrimAsWritten(" " + w) == " " + w
    ensures Trim(" " + w) == w
  {
    var s := " " + w;
    assert s[|s| - 1] == w[|w| - 1];
    assert !AllSpace(s) by { assert !IsSpace(s[|s| - 1]); }
    assert DropTrailingSpace(s) == s;
    assert s[1..] == w;
    assert DropLeadingSpace(s) == DropLeadingSpace(w);
  }

  /** The source's trim and the corrected one differ only in leading
      whitespace: a string that does not start with whitespace is trimmed
      alike, and otherwise the source's result, once its leading
      whitespace is dropped, is the corrected one. */
  lemma TrimAsWrittenAgrees(s: string)
    ensures |s| > 0 && !IsSpace(s[0]) ==> TrimAsWritten(s) == Trim(s)
    ensures !AllSpace(s) ==> DropLeadingSpace(TrimAsWritten(s)) == Trim(s)
    ensures AllSpace(s) ==> TrimAsWritten(s) == s && Trim(s) == []
  {
    if |s| > 0 && !IsSpace(s[0]) {
      assert !AllSpace(s);
      var t := DropTrailingSpace(s);
      assert t[0] == s[0];
    }
  }

  /** Length of the run of characters satisfying IsSpace from `i`. */
  function SpaceRun(s: string, i: nat): (n: nat)
    requires i <= |s|
    ensures i + n <= |s|
    ensures forall k | i <= k < i + n :: IsSpace(s[k])
    ensures i + n == |s| || !IsSpace(s[i + n])
    decreases |s| - i
  {
    if i < |s| && IsSpace(s[i]) then 1 + SpaceRun(s, i + 1) else 0
  }

  /** Length of the run of decimal digits from `i`. */
  function DigitRun(s: string, i: nat): (n: nat)
    requires i <= |s|
    ensures i + n <= |s|
    ensures forall k | i <= k < i + n :: IsDigit(s[k])
    ensures i + n == |s| || !IsDigit(s[i + n])
    decreases |s| - i
  {
    if i < |s| && IsDigit(s[i]) then 1 + DigitRun(s, i + 1) else 0
  }

  function DigitValue(c: char): nat {
    if IsDigit(c) then c as int - '0' as int else 0
  }

  /** The number a run of decimal digits spells. */
  function DigitsValue(d: string): nat {
    if |d| == 0 then 0 else 10 * DigitsValue(d[..|d| - 1]) + DigitValue(d[|d| - 1])
  }

  function Pow10(n: nat): (r: real)
    ensures r >= 1.0
  {
    if n == 0 then 1.0 else 10.0 * Pow10(n - 1)
  }

  /** `m` times ten to the power `e`. */
  function Scale10(m: real, e: int): real {
    if e >= 0 then m * Pow10(e) else m / Pow10(-e)
  }

  /** Length of an exponent part "e[+-]digits" at `i`, 0 when there is none
      with at least one digit. */
  function ExponentLen(s: string, i: nat): (n: nat)
    requires i <= |s|
    ensures i + n <= |s|
    ensures n > 0 ==> i + n == |s| || !IsDigit(s[i + n])
    ensures n > 0 ==> i + 1 < |s| && (if s[i + 1] == '+' || s[i + 1] == '-' then i + 2 else i + 1) < i + n
  {
    if i < |s| && (s[i] == 'e' || s[i] == 'E') then
      var j := if i + 1 < |s| && (s[i + 1] == '+' || s[i + 1] == '-') then i + 2 else i + 1;
      var d := DigitRun(s, j);
      if d > 0 then j + d - i else 0
    else 0
  }

  /** What `strtod` reports: how many characters it consumed (0 when no
      conversion happened) and the value it converted. */
  datatype Scan = Scan(len: nat, value: real)

  /** Where the digits of a number begin: past leading whitespace and one
      optional sign. */
  function DigitsStart(s: string): (m: nat)
    ensures SpaceRun(s, 0) <= m <= |s|
    ensures m > SpaceRun(s, 0) ==> s[SpaceRun(s, 0)] == '+' || s[SpaceRun(s, 0)] == '-'
  {
    var ws := SpaceRun(s, 0);
    if ws < |s| && (s[ws] == '+' || s[ws] == '-') then ws + 1 else ws
  }

  /** Length of the mantissa "digits[.digits]" at `m`, 0 when it holds no
      digit; a decimal point counts only together with a digit. */
  function MantissaLen(s: string, m: nat): (n: nat)
    requires m <= |s|
    ensures m + n <= |s|
    ensures n > 0 ==> exists k | m <= k < m + n :: IsDigit(s[k])
    ensures n > 0 ==> m + n == |s| || !IsDigit(s[m + n])
  {
    var intLen := DigitRun(s, m);
    var dot := m + intLen;
    var hasDot := dot < |s| && s[dot] == '.';
    var fracLen := if hasDot then DigitRun(s, dot + 1) else 0;
    if intLen + fracLen == 0 then 0
    else
      assert IsDigit(s[if intLen > 0 then m else dot + 1]);
      if hasDot then intLen + 1 + fracLen else intLen
  }

  /** The value of the mantissa of length `n` at `m`: its integer digits,
      plus the digits after a decimal point over the matching power of 10. */
  function MantissaValue(s: string, m: nat, n: nat): real
    requires m + n <= |s|
  {
    var intLen := DigitRun(s, m);
    if intLen < n then
      DigitsValue(s[m..m + intLen]) as real + DigitsValue(s[m + intLen + 1..m + n]) as real / Pow10(n - intLen - 1)
    else DigitsValue(s[m..m + n]) as real
  }

  /** The signed value of an exponent part of length `n` at `i`. */
  function ExponentValue(s: string, i: nat, n: nat): int
    requires i <= |s| && n > 0 && ExponentLen(s, i) == n
  {
    var j := if s[i + 1] == '+' || s[i + 1] == '-' then i + 2 else i + 1;
    var v: int := DigitsValue(s[j..i + n]);
    if s[i + 1] == '-' then -v else v
  }

  /** The power of 10 an exponent part at `i` gives, 0 when there is none. */
  function ExponentAt(s: string, i: nat): int
    requires i <= |s|
  {
    var n := ExponentLen(s, i);
    if n == 0 then 0 else ExponentValue(s, i, n)
  }

  /** `x` with the sign in front of the digits applied. */
  function Signed(s: string, x: real): real {
    var ws := SpaceRun(s, 0);
    if DigitsStart(s) > ws && s[ws] == '-' then -x else x
  }

  /** The decimal subset of `strtod`: optional whitespace, an optional
      sign, digits with an optional decimal point (at least one digit), and
      an optional exponent. The conversion stops only where no further digit
      could be consumed. */
  function StrToD(s: string): (r: Scan)
    ensures r.len <= |s|
    ensures r.len == 0 ==> r.value == 0.0
    ensures r.len > 0 ==> exists k | 0 <= k < r.len :: IsDigit(s[k])
    ensures r.len > 0 ==> SpaceRun(s, 0) < r.len
    ensures 0 < r.len < |s| ==> !IsDigit(s[r.len])
  {
    var m := DigitsStart(s);
    var n := MantissaLen(s, m);
    if n == 0 then Scan(0, 0.0)
    else Scan(m + n + ExponentLen(s, m + n), Signed(s, Scale10(MantissaValue(s, m, n), ExponentAt(s, m + n))))
  }

  /** A digit run from `i` is exactly as long as the digits that follow. */
  lemma DigitRunExact(s: string, i: nat, n: nat)
    requires i + n <= |s| && forall k | i <= k < i + n :: IsDigit(s[k])
    requires i + n == |s| || !IsDigit(s[i + n])
    ensures DigitRun(s, i) == n
  {
  }

  /** A string that opens with an unsigned mantissa and no exponent
      converts to the mantissa's value. */
  lemma PlainMantissa(s: string, n: nat)
    requires n > 0 && n <= |s| && DigitsStart(s) == 0 && MantissaLen(s, 0) == n && ExponentLen(s, n) == 0
    ensures StrToD(s) == Scan(n, MantissaValue(s, 0, n))
  {
    var x := MantissaValue(s, 0, n);
    assert ExponentAt(s, n) == 0;
    assert Scale10(x, 0) == x;
    assert Signed(s, x) == x;
  }

  /** `strtod` on an unsigned integer literal: the digits at the front of
      `s` are all it consumes, and it converts their decimal value. */
  lemma StrToDInteger(s: string, n: nat)
    requires 0 < n <= |s| && forall k | 0 <= k < n :: IsDigit(s[k])
    requires n < |s| ==> !IsDigit(s[n]) && s[n] != '.' && s[n] != 'e' && s[n] != 'E'
    ensures StrToD(s) == Scan(n, DigitsValue(s[..n]) as real)
  {
    assert !IsSpace(s[0]);
    assert DigitsStart(s) == 0;
    DigitRunExact(s, 0, n);
    assert MantissaLen(s, 0) == n;
    assert ExponentLen(s, n) == 0;
    PlainMantissa(s, n);
    assert s[0..n] == s[..n];
  }

  /** `strtod` on a decimal literal "digits.digits" (at least one digit in
      all): it consumes up to the end of the fraction and converts the
      integer part plus the fraction's digits over 10^f. */
  lemma StrToDDecimal(s: string, n: nat, f: nat)
    requires 0 < n + f && n + 1 + f <= |s|
    requires forall k | 0 <= k < n :: IsDigit(s[k])
    requires s[n] == '.' && forall k | n + 1 <= k < n + 1 + f :: IsDigit(s[k])
    requires n + 1 + f < |s| ==> !IsDigit(s[n + 1 + f]) && s[n + 1 + f] != 'e' && s[n + 1 + f] != 'E'
    ensures StrToD(s) == Scan(n + 1 + f, DigitsValue(s[..n]) as real + DigitsValue(s[n + 1..n + 1 + f]) as real / Pow10(f))
  {
    assert !IsSpace(s[0]) && s[0] != '+' && s[0] != '-';
    assert DigitsStart(s) == 0;
    DecimalMantissa(s, n, f);
    assert ExponentLen(s, n + 1 + f) == 0;
    PlainMantissa(s, n + 1 + f);
  }

  /** The mantissa of a decimal literal "digits.digits". */
  lemma DecimalMantissa(s: string, n: nat, f: nat)
    requires 0 < n + f && n + 1 + f <= |s|
    requires forall k | 0 <= k < n :: IsDigit(s[k])
    requires s[n] == '.' && forall k | n + 1 <= k < n + 1 + f :: IsDigit(s[k])
    requires n + 1 + f < |s| ==> !IsDigit(s[n + 1 + f])
    ensures MantissaLen(s, 0) == n + 1 + f
    ensures MantissaValue(s, 0, n + 1 + f) == DigitsValue(s[..n]) as real + DigitsValue(s[n + 1..n + 1 + f]) as real / Pow10(f)
  {
    DigitRunExact(s, 0, n);
    DigitRunExact(s, n + 1, f);
    assert n < n + 1 + f && (n + 1 + f) - n - 1 == f;
    assert s[0..n] == s[..n];
  }

  /** is_numeric as written: non-empty, and whatever `strtod` consumed is
      followed by the end of the string or whitespace. When `strtod`
      converts nothing, the test looks at the first character. */
  predicate IsNumericAsWritten(s: string) {
    |s| > 0 && (var n := StrToD(s).len; n == |s| || IsSpace(s[n]))
  }

  /** is_numeric as evidently intended: additionally, a number was actually
      converted. */
  predicate IsNumeric(s: string) {
    |s| > 0 && (var n := StrToD(s).len; n > 0 && (n == |s| || IsSpace(s[n])))
  }

  /** is_numeric as written accepts exactly what the corrected test
      accepts, plus the tokens on which `strtod` converts nothing and the
      first character is whitespace. */
  lemma IsNumericAsWrittenAgrees(s: string)
    ensures IsNumericAsWritten(s) <==> IsNumeric(s) || (|s| > 0 && StrToD(s).len == 0 && IsSpace(s[0]))
  {
  }

  /** A numeric token contains a digit, and everything after the number is
      whitespace-led or absent. */
  lemma IsNumericHasDigit(s: string)
    requires IsNumeric(s)
    ensures exists k | 0 <= k < |s| :: IsDigit(s[k])
  {
  }

  /** A whitespace-only token, such as the "\n" left by a trailing comma,
      converts nothing, yet is_numeric as written accepts it. */
  lemma BlankAcceptedAsWritten(s: string)
    requires |s| > 0 && AllSpace(s)
    ensures IsNumericAsWritten(s)
    ensures !IsNumeric(s)
  {
    AllSpaceRun(s, 0);
    assert SpaceRun(s, 0) == |s|;
  }

  lemma {:induction false} AllSpaceRun(s: string, i: nat)
    requires i <= |s| && AllSpace(s)
    ensures SpaceRun(s, i) == |s| - i
    decreases |s| - i
  {
    if i < |s| {
      AllSpaceRun(s, i + 1);
    }
  }

  /** Length of the comma-free run at the front of `s`. */
  function FieldLen(s: string): (n: nat)
    ensures n <= |s|
    ensures forall k | 0 <= k < n :: s[k] != ','
    ensures n == |s| || s[n] == ','
  {
    if |s| == 0 || s[0] == ',' then 0 else 1 + FieldLen(s[1..])
  }

  /** `strtok(line, ",")` repeated: the maximal non-empty comma-free runs,
      in order; empty fields vanish. */
  function Tokens(s: string): (r: seq<string>)
    ensures forall k | 0 <= k < |r| :: |r[k]| > 0 && ',' !in r[k]
    decreases |s|
  {
    if |s| == 0 then []
    else if s[0] == ',' then Tokens(s[1..])
    else
      var n := FieldLen(s);
      assert forall c | c in s[..n] :: c != ',';
      [s[..n]] + Tokens(s[n..])
  }

  /** A comma-free string is one token, or none when empty. */
  lemma SingleField(w: string)
    requires ',' !in w
    ensures Tokens(w) == if |w| == 0 then [] else [w]
  {
    if |w| > 0 {
      assert w[0] in w;
      FieldLenAll(w);
      assert w[..|w|] == w;
      assert Tokens(w[|w|..]) == [];
    }
  }

  lemma {:induction false} FieldLenAll(w: string)
    requires ',' !in w
    ensures FieldLen(w) == |w|
  {
    if |w| > 0 {
      assert ',' !in w[1..];
      FieldLenAll(w[1..]);
    }
  }

  lemma {:induction false} FieldLenSplit(a: string, b: string)
    ensures FieldLen(a + "," + b) == FieldLen(a)
  {
    if |a| > 0 && a[0] != ',' {
      assert (a + "," + b)[1..] == a[1..] + "," + b;
      FieldLenSplit(a[1..], b);
    }
  }

  /** Splitting at a comma: the tokens of "a,b" are those of a then those
      of b. With SingleField this pins Tokens down on every string. */
  lemma {:induction false} TokensSplit(a: string, b: string)
    ensures Tokens(a + "," + b) == Tokens(a) + Tokens(b)
    decreases |a|
  {
    var s := a + "," + b;
    if |a| == 0 {
      assert s == "," + b;
      assert s[1..] == b;
    } else if a[0] == ',' {
      assert s[1..] == a[1..] + "," + b;
      TokensSplit(a[1..], b);
    } else {
      var n := FieldLen(a);
      FieldLenSplit(a, b);
      assert s[..n] == a[..n];
      assert s[n..] == a[n..] + "," + b;
      TokensSplit(a[n..], b);
      assert Tokens(a) == [a[..n]] + Tokens(a[n..]);
      assert Tokens(s) == [s[..n]] + Tokens(s[n..]);
    }
  }
}

=== FILE: file_image.dfy ===
/** The file a sequence of positioned writes produces: each write is an
    `fseek(f, offset, SEEK_SET)` followed by an `fwrite`, starting from an
    empty file opened with "wb". */
module FileImage {
  import opened Bytes

  /** One positioned write of `bytes` at `offset`. */
  datatype Write = Write(offset: nat, bytes: seq<Byte>)

  /** The offset just past a write. */
  function End(w: Write): nat {
    w.offset + |w.bytes|
  }

  /** The two writes touch no common byte. */
  predicate Disjoint(a: Write, b: Write) {
    |a.bytes| == 0 || |b.bytes| == 0 || End(a) <= b.offset || End(b) <= a.offset
  }

  /** The file after one write: the written range holds the bytes, the rest
      of the old content is kept, and a hole between the old end and the
      offset reads as zeros. Writing no bytes never extends the file. */
  function Overlay(f: seq<Byte>, w: Write): (r: seq<Byte>)
    ensures |w.bytes| == 0 ==> r == f
    ensures |w.bytes| > 0 ==> |r| == if End(w) > |f| then End(w) else |f|
    ensures forall k | w.offset <= k < End(w) :: k < |r| && r[k] == w.bytes[k - w.offset]
    ensures forall k | 0 <= k < |f| && !(w.offset <= k < End(w)) :: r[k] == f[k]
    ensures forall k | |f| <= k < |r| && !(w.offset <= k < End(w)) :: r[k] == 0
  {
    if |w.bytes| == 0 then f
    else
      var n := if End(w) > |f| then End(w) else |f|;
      seq(n, k requires 0 <= k < n =>
        if w.offset <= k < End(w) then w.bytes[k - w.offset] else if k < |f| then f[k] else 0)
  }

  /** The file after all writes of the plan, in order. */
  function Render(plan: seq<Write>): (r: seq<Byte>)
    ensures |plan| == 0 ==> r == []
  {
    if |plan| == 0 then [] else Overlay(Render(plan[..|plan| - 1]), plan[|plan| - 1])
  }

  /** Every non-empty write lies inside the file. */
  lemma {:induction false} RenderCovers(plan: seq<Write>, i: nat)
    requires i < |plan| && |plan[i].bytes| > 0
    ensures End(plan[i]) <= |Render(plan)|
  {
    var m := |plan| - 1;
    if i < m {
      assert plan[..m][i] == plan[i];
      RenderCovers(plan[..m], i);
    }
  }

  /** A write that no later write overlaps reads back from the file. */
  lemma {:induction false} RenderReadsBack(plan: seq<Write>, i: nat)
    requires i < |plan|
    requires forall k | i < k < |plan| :: Disjoint(plan[i], plan[k])
    ensures End(plan[i]) <= |Render(plan)| || |plan[i].bytes| == 0
    ensures forall k | plan[i].offset <= k < End(plan[i]) ::
              k < |Render(plan)| && Render(plan)[k] == plan[i].bytes[k - plan[i].offset]
  {
    var m := |plan| - 1;
    if i < m {
      var pre := plan[..m];
      assert pre[i] == plan[i];
      forall k | i < k < |pre|
        ensures Disjoint(pre[i], pre[k])
      {
        assert pre[k] == plan[k];
      }
      RenderReadsBack(pre, i);
    }
  }

  /** A byte no write touches reads as zero. */
  lemma {:induction false} RenderGap(plan: seq<Write>, p: nat)
    requires p < |Render(plan)|
    requires forall k | 0 <= k < |plan| :: !(plan[k].offset <= p < End(plan[k]))
    ensures Render(plan)[p] == 0
  {
    var m := |plan| - 1;
    var pre := plan[..m];
    forall k | 0 <= k < |pre|
      ensures !(pre[k].offset <= p < End(pre[k]))
    {
      assert pre[k] == plan[k];
    }
    if p < |Render(pre)| {
      RenderGap(pre, p);
    }
  }

  /** The slice form of RenderReadsBack. */
  lemma {:induction false} RenderSlice(plan: seq<Write>, i: nat)
    requires i < |plan| && |plan[i].bytes| > 0
    requires forall k | i < k < |plan| :: Disjoint(plan[i], plan[k])
    ensures End(plan[i]) <= |Render(plan)|
    ensures Render(plan)[plan[i].offset..End(plan[i])] == plan[i].bytes
  {
    var m := |plan| - 1;
    var pre := plan[..m];
    if i < m {
      assert pre[i] == plan[i];
      forall k | i < k < |pre|
        ensures Disjoint(pre[i], pre[k])
      {
        assert pre[k] == plan[k];
      }
      RenderSlice(pre, i);
      OverlayKeepsSlice(Render(pre), plan[m], plan[i]);
    } else {
      OverlaySlice(Render(pre), plan[m]);
    }
  }

  /** A write reads back from the file it was just laid over. */
  lemma OverlaySlice(f: seq<Byte>, w: Write)
    requires |w.bytes| > 0
    ensures End(w) <= |Overlay(f, w)| && Overlay(f, w)[w.offset..End(w)] == w.bytes
  {
    SliceOfPoints(Overlay(f, w), w.offset, w.bytes);
  }

  /** A later write disjoint from an earlier one leaves its bytes alone. */
  lemma OverlayKeepsSlice(f: seq<Byte>, w: Write, v: Write)
    requires |v.bytes| > 0 && End(v) <= |f| && f[v.offset..End(v)] == v.bytes && Disjoint(v, w)
    ensures End(v) <= |Overlay(f, w)| && Overlay(f, w)[v.offset..End(v)] == v.bytes
  {
    var r := Overlay(f, w);
    forall k | v.offset <= k < End(v)
      ensures r[k] == v.bytes[k - v.offset]
    {
      assert f[k] == f[v.offset..End(v)][k - v.offset];
    }
    SliceOfPoints(r, v.offset, v.bytes);
  }

  /** Bytes that agree with `b` point by point from `off` form the slice `b`. */
  lemma SliceOfPoints(f: seq<Byte>, off: nat, b: seq<Byte>)
    requires off + |b| <= |f|
    requires forall k | off <= k < off + |b| :: f[k] == b[k - off]
    ensures f[off..off + |b|] == b
  {
    var g := f[off..off + |b|];
    forall k | 0 <= k < |b|
      ensures g[k] == b[k]
    {
      assert g[k] == f[off + k];
    }
  }
}

=== FILE: generator.dfy ===
/** The command-line driver of motec_log_generator.c: argument validation
    with the log-type choice, the output file name, and the conversion of
    one log into the plan of writes for its .ld file. getopt_long itself,
    the file system and the console are outside the model: the options
    arrive already decoded, the log arrives as its lines, and the result is
    the output name with the write plan. */
module Generator {
  import opened Wrappers
  import opened Bytes
  import opened LdFormat
  import opened FileImage
  import opened MotecLog
  import opened Layout
  import opened RoundTrip
  import TimeSeries
  import CsvLog

  /** The log formats the generator accepts. */
  datatype LogType = Can | Csv | Accessport

  /** Why the arguments were refused. */
  datatype ArgError = Usage | BadOption | MissingDbc | InvalidType

  /** The options getopt_long fills in; an absent text option stays NULL. */
  datatype Options = Options(
    output: Option<string>, frequency: real, dbc: Option<string>, driver: Option<string>,
    vehicleId: Option<string>, vehicleWeight: int, vehicleType: Option<string>,
    vehicleComment: Option<string>, venueName: Option<string>, eventName: Option<string>,
    eventSession: Option<string>, longComment: Option<string>, shortComment: Option<string>)

  /** The arguments of one run. */
  datatype Args = Args(logPath: string, logType: LogType, opts: Options)

  const DEFAULT_FREQUENCY: real := 20.0

  /** The options before any is given: all texts absent, weight 0. */
  const DEFAULT_OPTIONS: Options :=
    Options(None, DEFAULT_FREQUENCY, None, None, None, 0, None, None, None, None, None, None, None)

  /** The type names the command line spells. */
  function TypeName(t: LogType): string {
    match t
    case Can => "CAN"
    case Csv => "CSV"
    case Accessport => "ACCESSPORT"
  }

  /** The log-type choice of parse_arguments: the three names are the only
      ones accepted, and CAN only together with a DBC file. */
  function SelectLogType(typeStr: string, hasDbc: bool): (r: Result<LogType, ArgError>)
    ensures r.Success? ==> TypeName(r.value) == typeStr
    ensures r.Success? <==> typeStr in {"CSV", "ACCESSPORT"} || (typeStr == "CAN" && hasDbc)
    ensures r.Failure? ==> r.error == (if typeStr == "CAN" then MissingDbc else InvalidType)
  {
    if typeStr == "CAN" then (if hasDbc then Success(Can) else Failure(MissingDbc))
    else if typeStr == "CSV" then Success(Csv)
    else if typeStr == "ACCESSPORT" then Success(Accessport)
    else Failure(InvalidType)
  }

  /** Every type is accepted under its own name, given a DBC file. */
  lemma TypeNameSelects(t: LogType)
    ensures SelectLogType(TypeName(t), true) == Success(t)
    ensures t != Can ==> SelectLogType(TypeName(t), false) == Success(t)
  {
  }

  /** parse_arguments. `argc` counts the program name; `opts` is what the
      option loop produced, None when getopt_long reported an unknown
      option or a missing value; `positionals` are the arguments left from
      `optind` on. */
  function ParseArguments(argc: nat, opts: Option<Options>, positionals: seq<string>): (r: Result<Args, ArgError>)
    ensures argc < 3 ==> r == Failure(Usage)
    ensures argc >= 3 && opts.None? ==> r == Failure(BadOption)
    ensures argc >= 3 && opts.Some? && |positionals| < 2 ==> r == Failure(Usage)
    ensures r.Success? ==>
      && argc >= 3 && opts.Some? && |positionals| >= 2
      && r.value.logPath == positionals[0] && r.value.opts == opts.value
      && TypeName(r.value.logType) == positionals[1]
      && (r.value.logType == Can ==> opts.value.dbc.Some?)
    ensures argc >= 3 && opts.Some? && |positionals| >= 2 ==>
      (r.Success? <==> SelectLogType(positionals[1], opts.value.dbc.Some?).Success?)
  {
    if argc < 3 then Failure(Usage)
    else if opts.None? then Failure(BadOption)
    else if |positionals| < 2 then Failure(Usage)
    else
      var t :- SelectLogType(positionals[1], opts.value.dbc.Some?);
      Success(Args(positionals[0], t, opts.value))
  }

  /** The position of the last '.' in `s`, as strrchr finds it. */
  function LastDot(s: string): (r: Option<nat>)
    ensures r.Some? ==> r.value < |s| && s[r.value] == '.'
    ensures r.Some? ==> forall k | r.value < k < |s| :: s[k] != '.'
    ensures r.None? ==> forall k | 0 <= k < |s| :: s[k] != '.'
  {
    if |s| == 0 then None
    else if s[|s| - 1] == '.' then Some(|s| - 1)
    else LastDot(s[..|s| - 1])
  }

  /** The path cut at its last '.', or kept whole without one. */
  function Stem(s: string): (r: string)
    ensures |r| <= |s| && r == s[..|r|]
    ensures |r| == |s| <==> forall k | 0 <= k < |s| :: s[k] != '.'
    ensures |r| < |s| ==> s[|r|] == '.' && forall k | |r| < k < |s| :: s[k] != '.'
  {
    match LastDot(s)
    case None => s
    case Some(i) => s[..i]
  }

  /** get_output_filename: the output path when one is given, else the
      input path, cut at its last '.' and given the ".ld" extension. */
  function OutputFilename(input: string, output: Option<string>): (r: string)
    ensures |r| >= 3 && r[|r| - 3..] == ".ld"
    ensures var src := if output.Some? then output.value else input;
      && r[..|r| - 3] == Stem(src)
  {
    var src := if output.Some? then output.value else input;
    Stem(src) + ".ld"
  }

  /** The stem is the largest dot-free-tailed prefix: a path with no '.'
      keeps all of it, and otherwise it is cut exactly before the last '.'. */
  lemma StemCuts(s: string, i: nat)
    requires i < |s| && s[i] == '.' && forall k | i < k < |s| :: s[k] != '.'
    ensures Stem(s) == s[..i]
  {
  }

  /** The name of a derived name is itself: cutting "x.ld" again gives
      "x" back. */
  lemma OutputFilenameIdempotent(input: string)
    ensures OutputFilename(OutputFilename(input, None), None) == OutputFilename(input, None)
  {
    var r := OutputFilename(input, None);
    StemCuts(r, |r| - 3);
    assert r[..|r| - 3] == Stem(input);
  }

  /** A given output path wins, and its own extension is replaced. */
  lemma OutputWins(input: string, output: string)
    ensures OutputFilename(input, Some(output)) == OutputFilename(output, None)
  {
  }

  /** Three small names: "data.csv" gives "data.ld", "log" gives "log.ld";
      and the last '.' may sit in a directory name, so "run.d/log" gives
      "run.ld". */
  lemma OutputFilenameExamples()
    ensures OutputFilename("data.csv", None) == "data.ld"
    ensures OutputFilename("log", None) == "log.ld"
    ensures OutputFilename("x", Some("run.d/log")) == "run.ld"
  {
    StemCuts("data.csv", 4);
    StemCuts("run.d/log", 3);
    assert Stem("log") == "log";
  }

  /** Why a conversion failed. */
  datatype ProcessError = CannotOpen | NoChannels

  /** What a conversion produces: the output name and the writes of the
      .ld file. */
  datatype Output = Output(filename: string, plan: seq<Write>)

  /** Reading the log by its type: the CSV reader as data_log.c writes
      it; the CAN and Accessport readers are stubs that always fail. */
  function Ingest(t: LogType, lines: seq<string>): (r: Option<TimeSeries.DataLog>)
    ensures r.Some? <==> t == Csv
    ensures r.Some? ==> r.value == CsvLog.FromCsvLogAsWritten(TimeSeries.Create(""), lines)
  {
    match t
    case Csv => Some(CsvLog.FromCsvLogAsWritten(TimeSeries.Create(""), lines))
    case _ => None
  }

  /** The metadata the options set on a fresh MotecLog. */
  function MetadataOf(o: Options): Metadata {
    SetMetadata(EMPTY_METADATA, o.driver, o.vehicleId, o.vehicleWeight, o.vehicleType, o.vehicleComment,
                o.venueName, o.eventName, o.eventSession, o.longComment, o.shortComment)
  }

  /** process_log_file. `lines` is the log's content, None when it cannot
      be opened; `recSize`, `tm` and `f32` stand for sizeof(ldChan), the
      recording time's image and the float encoding. A failed reader or a
      log without channels is an error and nothing is written; otherwise
      the encoder built from the log is written, as motec_log.c writes it,
      under the derived name. */
  function ProcessLogFile(args: Args, lines: Option<seq<string>>, recSize: nat, tm: seq<Byte>, f32: real -> F32)
    : (r: Result<Output, ProcessError>)
    requires recSize >= CHAN_RECORD_BYTES
    ensures lines.None? ==> r == Failure(CannotOpen)
    ensures lines.Some? && args.logType != Csv ==> r == Failure(NoChannels)
    ensures lines.Some? && args.logType == Csv ==>
      var log := CsvLog.FromCsvLogAsWritten(TimeSeries.Create(""), lines.value);
      (r.Success? <==> |log.channels| > 0)
    ensures r.Success? ==>
      && lines.Some? && args.logType == Csv
      && r.value.filename == OutputFilename(args.logPath, args.opts.output)
      && r.value.plan == WriteLogAsWritten(Build(MetadataOf(args.opts), recSize, Ingest(Csv, lines.value).value), tm, f32)
  {
    if lines.None? then Failure(CannotOpen)
    else
      var log := Ingest(args.logType, lines.value);
      if log.None? || |log.value.channels| == 0 then Failure(NoChannels)
      else
        var e := Build(MetadataOf(args.opts), recSize, log.value);
        Success(Output(OutputFilename(args.logPath, args.opts.output), WriteLogAsWritten(e, tm, f32)))
  }

  /** The encoder built from a log, as its .ld file is written: the event
      record decodes to the texts the metadata set and the venue's name,
      but the venue's vehicle is lost; record i carries channel i. */
  lemma BuiltFileReadsBack(md: Metadata, recSize: nat, log: TimeSeries.DataLog, tm: seq<Byte>, f32: real -> F32)
    requires recSize >= CHAN_RECORD_BYTES && |tm| <= TM_MAX_BYTES
    ensures var e := Build(md, recSize, log);
      && e.header.event == Some(AuxRecords(md))
      && LdParser.ReadEvent(Render(WriteLogAsWritten(e, tm, f32)), EVENT_PTR)
         == Some(LdParser.Parsed(VehicleDropped(AuxRecords(md)), EVENT_PTR + EVENT_BYTES))
      && (forall i | 0 <= i < |log.channels| :: Content(e.chans[i], log.channels[i]))
  {
    var e := Build(md, recSize, log);
    BuildClosedForm(md, recSize, log);
    BuildAuxLaid(md, recSize, log);
    AuxChainAsWritten(e, tm, f32);
  }

  /** With the venue written in the layout the decoder reads, the event
      record comes back whole, venue and vehicle included. */
  lemma BuiltFileReadsBackCorrected(md: Metadata, recSize: nat, log: TimeSeries.DataLog, tm: seq<Byte>, f32: real -> F32)
    requires recSize >= CHAN_RECORD_BYTES
    ensures var e := Build(md, recSize, log);
      && e.header.event == Some(AuxRecords(md))
      && LdParser.ReadEvent(Render(WriteLog(e, tm, f32)), EVENT_PTR)
         == Some(LdParser.Parsed(AuxRecords(md), EVENT_PTR + EVENT_BYTES))
      && (forall i | 0 <= i < |log.channels| :: Content(e.chans[i], log.channels[i]))
  {
    var e := Build(md, recSize, log);
    BuildClosedForm(md, recSize, log);
    BuildAuxLaid(md, recSize, log);
    AuxChainRoundTrip(e, tm, f32);
  }

  /** In the .ld file written for a log with channels, the header's chain
      leads through all n records in column order, while the offsets fit in
      32 bits and the time image ends before the vehicle record. */
  lemma BuiltFileChain(md: Metadata, recSize: nat, log: TimeSeries.DataLog, tm: seq<Byte>, f32: real -> F32)
    requires recSize >= CHAN_RECORD_BYTES && |log.channels| > 0
    requires |tm| <= TM_MAX_BYTES && MetaOffset(|log.channels|, recSize) < TWO32
    ensures ChainListed(Render(WriteLogAsWritten(Build(md, recSize, log), tm, f32)), |log.channels|, recSize, |log.channels|)
  {
    var e := Build(md, recSize, log);
    BuildClosedForm(md, recSize, log);
    BuildAuxLaid(md, recSize, log);
    FileChainVisitsAll(e, tm, f32, VenueBytesAsWritten, |log.channels|);
  }

  /** What a successful conversion writes is the file of the encoder built
      from the CSV log, under the derived name: the name ends in ".ld", and
      the event record reads back as the options set it, with the venue's
      vehicle lost. */
  lemma ConvertedFile(args: Args, lines: seq<string>, recSize: nat, tm: seq<Byte>, f32: real -> F32)
    requires recSize >= CHAN_RECORD_BYTES && |tm| <= TM_MAX_BYTES
    requires ProcessLogFile(args, Some(lines), recSize, tm, f32).Success?
    ensures var out := ProcessLogFile(args, Some(lines), recSize, tm, f32).value;
      var log := CsvLog.FromCsvLogAsWritten(TimeSeries.Create(""), lines);
      && args.logType == Csv && |log.channels| > 0
      && out.filename[|out.filename| - 3..] == ".ld"
      && LdParser.ReadEvent(Render(out.plan), EVENT_PTR)
         == Some(LdParser.Parsed(VehicleDropped(AuxRecords(MetadataOf(args.opts))), EVENT_PTR + EVENT_BYTES))
  {
    var log := CsvLog.FromCsvLogAsWritten(TimeSeries.Create(""), lines);
    assert Ingest(Csv, lines).value == log;
    EventOfBuilt(MetadataOf(args.opts), recSize, log, tm, f32);
  }

  /** The event record of the file written from a built encoder. */
  lemma EventOfBuilt(md: Metadata, recSize: nat, log: TimeSeries.DataLog, tm: seq<Byte>, f32: real -> F32)
    requires recSize >= CHAN_RECORD_BYTES && |tm| <= TM_MAX_BYTES
    ensures LdParser.ReadEvent(Render(WriteLogAsWritten(Build(md, recSize, log), tm, f32)), EVENT_PTR)
            == Some(LdParser.Parsed(VehicleDropped(AuxRecords(md)), EVENT_PTR + EVENT_BYTES))
  {
    BuiltFileReadsBack(md, recSize, log, tm, f32);
  }
}

=== FILE: layout.dfy ===
/** The closed form of the encoder's layout and what follows from it: the
    metadata records sit one record size apart from HEADER_PTR, the sample
    buffers follow the last record back to back, the chain is doubly linked
    in insertion order and, once terminated, walking it visits every record
    once and stops. */
module Layout {
  import opened Wrappers
  import opened LdFormat
  import opened MotecLog
  import TimeSeries

  /** The samples of all the given records. */
  function TotalLen(chans: seq<ChanRecord>): nat {
    if |chans| == 0 then 0 else TotalLen(chans[..|chans| - 1]) + chans[|chans| - 1].dataLen
  }

  /** Offset of the i-th metadata record: one record size past the one
      before, starting at HEADER_PTR (so HEADER_PTR + i·R, MetaOffsetClosed). */
  function MetaOffset(i: nat, recSize: nat): (r: nat)
    ensures r >= HEADER_PTR
  {
    if i == 0 then HEADER_PTR else MetaOffset(i - 1, recSize) + recSize
  }

  /** The closed form of MetaOffset. */
  lemma {:induction false} MetaOffsetClosed(i: nat, recSize: nat)
    ensures MetaOffset(i, recSize) == HEADER_PTR + i * recSize
  {
    if i > 0 {
      MetaOffsetClosed(i - 1, recSize);
      assert i * recSize == (i - 1) * recSize + recSize;
    }
  }

  /** Record i of the encoder where the closed form puts it. */
  predicate ChanLaid(e: Encoder, i: nat)
    requires i < |e.chans|
  {
    var c := e.chans[i];
    && c.metaPtr == MetaOffset(i, e.recSize)
    && c.prevMetaPtr == (if i == 0 then 0 else MetaOffset(i - 1, e.recSize))
    && c.nextMetaPtr == c.metaPtr + e.recSize
    && c.dataLen == |c.data|
    && c.dataPtr == e.header.dataPtr + SAMPLE_BYTES * TotalLen(e.chans[..i])
  }

  /** The closed form: header references fixed, the data region starting
      one record size per channel after HEADER_PTR, and every record laid
      out as ChanLaid says. */
  predicate WellLaid(e: Encoder) {
    && e.recSize >= CHAN_RECORD_BYTES
    && e.header.metaPtr == HEADER_PTR && e.header.eventPtr == EVENT_PTR
    && e.header.dataPtr == MetaOffset(|e.chans|, e.recSize)
    && forall i | 0 <= i < |e.chans| :: ChanLaid(e, i)
  }

  /** TotalLen depends only on the lengths. */
  lemma {:induction false} TotalLenSameLengths(a: seq<ChanRecord>, b: seq<ChanRecord>)
    requires |a| == |b| && forall i | 0 <= i < |a| :: a[i].dataLen == b[i].dataLen
    ensures TotalLen(a) == TotalLen(b)
  {
    if |a| > 0 {
      TotalLenSameLengths(a[..|a| - 1], b[..|b| - 1]);
    }
  }

  /** A longer prefix holds at least the samples of a shorter one plus the
      record in between. */
  lemma {:induction false} TotalLenPrefix(chans: seq<ChanRecord>, i: nat, j: nat)
    requires i < j <= |chans|
    ensures TotalLen(chans[..i]) + chans[i].dataLen <= TotalLen(chans[..j])
    decreases j
  {
    assert chans[..j][..j - 1] == chans[..j - 1];
    if j > i + 1 {
      TotalLenPrefix(chans, i, j - 1);
    } else {
      assert chans[..j][j - 1] == chans[i];
    }
  }

  /** Each later record starts at least a record size further on. */
  lemma {:induction false} MetaOffsetGap(i: nat, j: nat, recSize: nat)
    requires i < j
    ensures MetaOffset(i, recSize) + recSize <= MetaOffset(j, recSize)
    decreases j
  {
    if j > i + 1 {
      MetaOffsetGap(i, j - 1, recSize);
    }
  }

  /** Initialisation is laid out. */
  lemma InitializeLaid(md: Metadata, recSize: nat)
    requires recSize >= CHAN_RECORD_BYTES
    ensures WellLaid(Initialize(md, recSize))
  {
  }

  /** What AddChannel guarantees of its result `r`, as far as the layout
      is concerned. */
  predicate Appended(e: Encoder, r: Encoder) {
    var n := |e.chans|;
    && r.recSize == e.recSize && |r.chans| == n + 1
    && r.header == e.header.(dataPtr := e.header.dataPtr + e.recSize)
    && (forall i | 0 <= i < n :: r.chans[i] == ShiftData(e.chans[i], e.recSize))
    && var c := r.chans[n];
    && (n == 0 ==> c.metaPtr == HEADER_PTR && c.prevMetaPtr == 0 && c.dataPtr == r.header.dataPtr)
    && (n > 0 ==> var last := e.chans[n - 1];
          && c.metaPtr == last.nextMetaPtr && c.prevMetaPtr == last.metaPtr
          && c.dataPtr == r.chans[n - 1].dataPtr + SAMPLE_BYTES * last.dataLen)
    && c.nextMetaPtr == c.metaPtr + e.recSize
    && c.dataLen == |c.data|
  }

  /** Adding a channel keeps the closed form. */
  lemma AddChannelLaid(e: Encoder, ch: TimeSeries.Channel)
    requires WellLaid(e)
    ensures WellLaid(AddChannel(e, ch))
  {
    var r := AddChannel(e, ch);
    var n := |e.chans|;
    assert r.chans[n].dataLen == |r.chans[n].data|;
    assert Appended(e, r);
    forall i | 0 <= i < n + 1
      ensures ChanLaid(r, i)
    {
      if i < n {
        EarlierStillLaid(e, r, i);
      } else {
        NewRecordLaid(e, r);
      }
    }
  }

  /** An earlier record moves with the data region. */
  lemma EarlierStillLaid(e: Encoder, r: Encoder, i: nat)
    requires WellLaid(e) && Appended(e, r) && i < |e.chans|
    ensures ChanLaid(r, i)
  {
    assert ChanLaid(e, i);
    assert r.chans[i] == ShiftData(e.chans[i], e.recSize);
    TotalLenSameLengths(r.chans[..i], e.chans[..i]);
  }

  /** The appended record follows the last one. */
  lemma NewRecordLaid(e: Encoder, r: Encoder)
    requires WellLaid(e) && Appended(e, r)
    ensures ChanLaid(r, |e.chans|)
  {
    var n := |e.chans|;
    if n > 0 {
      var R := e.recSize;
      var last := e.chans[n - 1];
      assert ChanLaid(e, n - 1);
      assert r.chans[n - 1] == ShiftData(last, R);
      assert r.chans[n].metaPtr == MetaOffset(n - 1, R) + R == MetaOffset(n, R);
      TotalLenSameLengths(r.chans[..n - 1], e.chans[..n - 1]);
      assert r.chans[..n][..n - 1] == r.chans[..n - 1];
      assert TotalLen(r.chans[..n]) == TotalLen(e.chans[..n - 1]) + last.dataLen;
    }
  }

  /** Adding any sequence of channels keeps the closed form. */
  lemma {:induction false} AddAllLaid(e: Encoder, chs: seq<TimeSeries.Channel>)
    requires WellLaid(e)
    ensures WellLaid(AddAllChannels(e, chs))
  {
    if |chs| > 0 {
      AddAllLaid(e, chs[..|chs| - 1]);
      AddChannelLaid(AddAllChannels(e, chs[..|chs| - 1]), chs[|chs| - 1]);
    }
  }

  /** The encoder for a log, as process_log_file builds it. */
  function Build(md: Metadata, recSize: nat, log: TimeSeries.DataLog): (e: Encoder)
    requires recSize >= CHAN_RECORD_BYTES
    ensures |e.chans| == |log.channels| && e.recSize == recSize
  {
    AddAllChannels(Initialize(md, recSize), log.channels)
  }

  /** The closed form for a whole log: the encoder is WellLaid, with
      record i at HEADER_PTR + i·R, the data region at HEADER_PTR + n·R and
      channel i's samples after those of the channels before it, and record
      i carries the content of channel i. */
  lemma BuildClosedForm(md: Metadata, recSize: nat, log: TimeSeries.DataLog)
    requires recSize >= CHAN_RECORD_BYTES
    ensures WellLaid(Build(md, recSize, log))
    ensures forall i | 0 <= i < |log.channels| :: Content(Build(md, recSize, log).chans[i], log.channels[i])
  {
    InitializeLaid(md, recSize);
    AddAllLaid(Initialize(md, recSize), log.channels);
    forall i | 0 <= i < |log.channels|
      ensures Content(Build(md, recSize, log).chans[i], log.channels[i])
    {
      BuildCarries(md, recSize, log, i);
    }
  }

  /** Record i of the built encoder carries channel i. */
  lemma BuildCarries(md: Metadata, recSize: nat, log: TimeSeries.DataLog, i: nat)
    requires recSize >= CHAN_RECORD_BYTES && i < |log.channels|
    ensures Content(Build(md, recSize, log).chans[i], log.channels[i])
  {
    var e0 := Initialize(md, recSize);
    AddAllCarries(e0, log.channels, i);
    assert |e0.chans| + i == i;
  }

  /** Consecutive records are linked both ways, in insertion order. */
  lemma DoublyLinked(e: Encoder, i: nat)
    requires WellLaid(e) && i + 1 < |e.chans|
    ensures e.chans[i + 1].metaPtr == e.chans[i].nextMetaPtr
    ensures e.chans[i + 1].prevMetaPtr == e.chans[i].metaPtr
  {
    assert ChanLaid(e, i) && ChanLaid(e, i + 1);
    assert MetaOffset(i + 1, e.recSize) == MetaOffset(i, e.recSize) + e.recSize;
  }

  /** Metadata records never overlap: each lies a full record size before
      the next one, and a record size holds the 84 bytes written. */
  lemma MetaRecordsApart(e: Encoder, i: nat, j: nat)
    requires WellLaid(e) && i < j < |e.chans|
    ensures e.chans[i].metaPtr + CHAN_RECORD_BYTES <= e.chans[i].metaPtr + e.recSize <= e.chans[j].metaPtr
  {
    assert ChanLaid(e, i) && ChanLaid(e, j);
    MetaOffsetGap(i, j, e.recSize);
  }

  /** Sample buffers follow each other without overlapping. */
  lemma DataBuffersApart(e: Encoder, i: nat, j: nat)
    requires WellLaid(e) && i < j < |e.chans|
    ensures e.chans[i].dataPtr + SAMPLE_BYTES * e.chans[i].dataLen <= e.chans[j].dataPtr
  {
    assert ChanLaid(e, i) && ChanLaid(e, j);
    TotalLenPrefix(e.chans, i, j);
  }

  /** Consecutive sample buffers are contiguous. */
  lemma DataBuffersContiguous(e: Encoder, i: nat)
    requires WellLaid(e) && i + 1 < |e.chans|
    ensures e.chans[i].dataPtr + SAMPLE_BYTES * e.chans[i].dataLen == e.chans[i + 1].dataPtr
  {
    assert ChanLaid(e, i) && ChanLaid(e, i + 1);
    assert e.chans[..i + 1][..i] == e.chans[..i];
  }

  /** Every sample buffer starts after every metadata record ends. */
  lemma DataAfterMeta(e: Encoder, i: nat, j: nat)
    requires WellLaid(e) && i < |e.chans| && j < |e.chans|
    ensures e.chans[j].metaPtr + e.recSize <= e.chans[i].dataPtr
  {
    assert ChanLaid(e, i) && ChanLaid(e, j);
    MetaOffsetGap(j, |e.chans|, e.recSize);
  }

  /** The first record whose metadata offset is `ptr`. */
  function FindRecord(chans: seq<ChanRecord>, ptr: nat): (r: Option<nat>)
    ensures r.Some? ==> r.value < |chans| && chans[r.value].metaPtr == ptr
    ensures r.Some? ==> forall k | 0 <= k < r.value :: chans[k].metaPtr != ptr
    ensures r.None? ==> forall k | 0 <= k < |chans| :: chans[k].metaPtr != ptr
    decreases |chans|
  {
    if |chans| == 0 then None
    else if chans[0].metaPtr == ptr then Some(0)
    else match FindRecord(chans[1..], ptr)
      case None => None
      case Some(k) => Some(k + 1)
  }

  /** The indices of the records visited by following next references
      from `ptr`, stopping at a 0 reference, at a reference to no record,
      or when `fuel` runs out. */
  function Walk(chans: seq<ChanRecord>, ptr: nat, fuel: nat): (r: seq<nat>)
    ensures |r| <= fuel
    ensures forall k | 0 <= k < |r| :: r[k] < |chans|
    decreases fuel
  {
    if fuel == 0 || ptr == 0 then []
    else match FindRecord(chans, ptr)
      case None => []
      case Some(j) => [j] + Walk(chans, chans[j].nextMetaPtr, fuel - 1)
  }

  /** The indices lo, lo + 1, ..., hi - 1. */
  function Range(lo: nat, hi: nat): (r: seq<nat>)
    requires lo <= hi
    ensures |r| == hi - lo && forall k | 0 <= k < |r| :: r[k] == lo + k
  {
    seq(hi - lo, k requires 0 <= k < hi - lo => lo + k)
  }

  /** Termination moves no record. */
  lemma TerminateKeepsPlace(e: Encoder, k: nat)
    requires k < |e.chans|
    ensures Terminate(e).chans[k].metaPtr == e.chans[k].metaPtr
  {
  }

  /** The first record at `ptr` is the one FindRecord finds. */
  lemma FindFirst(chans: seq<ChanRecord>, ptr: nat, i: nat)
    requires i < |chans| && chans[i].metaPtr == ptr
    requires forall k | 0 <= k < i :: chans[k].metaPtr != ptr
    ensures FindRecord(chans, ptr) == Some(i)
  {
  }

  /** The terminated record i is found at its offset. */
  lemma FindLaid(e: Encoder, i: nat)
    requires WellLaid(e) && i < |e.chans|
    ensures FindRecord(Terminate(e).chans, MetaOffset(i, e.recSize)) == Some(i)
  {
    var t := Terminate(e).chans;
    var p := MetaOffset(i, e.recSize);
    assert ChanLaid(e, i);
    TerminateKeepsPlace(e, i);
    forall k | 0 <= k < i
      ensures t[k].metaPtr != p
    {
      TerminateKeepsPlace(e, k);
      MetaRecordsApart(e, k, i);
    }
    FindFirst(t, p, i);
  }

  /** One step of the walk: the record found at a nonzero reference is
      listed, then the walk continues from its next reference. */
  lemma WalkStep(chans: seq<ChanRecord>, ptr: nat, i: nat, fuel: nat, rest: seq<nat>)
    requires fuel > 0 && ptr > 0 && FindRecord(chans, ptr) == Some(i) && i < |chans|
    requires Walk(chans, chans[i].nextMetaPtr, fuel - 1) == rest
    ensures Walk(chans, ptr, fuel) == [i] + rest
  {
  }

  /** The indices from lo are lo followed by those from lo + 1. */
  lemma RangeCons(lo: nat, hi: nat)
    requires lo < hi
    ensures Range(lo, hi) == [lo] + Range(lo + 1, hi)
  {
  }

  /** The next reference of record i after termination: record i + 1's
      offset, or 0 for the last record. */
  lemma TerminatedNext(e: Encoder, i: nat)
    requires WellLaid(e) && i < |e.chans|
    ensures Terminate(e).chans[i].metaPtr == MetaOffset(i, e.recSize)
    ensures Terminate(e).chans[i].nextMetaPtr == if i + 1 < |e.chans| then MetaOffset(i + 1, e.recSize) else 0
  {
    assert ChanLaid(e, i);
    if i + 1 < |e.chans| {
      assert MetaOffset(i + 1, e.recSize) == MetaOffset(i, e.recSize) + e.recSize;
    }
  }
  /** After termination, walking from record i visits i, ..., n - 1 and
      stops, given fuel for every step. */
  lemma {:induction false} WalkFrom(e: Encoder, i: nat, fuel: nat)
    requires WellLaid(e) && i < |e.chans| && fuel >= |e.chans| - i
    ensures Walk(Terminate(e).chans, MetaOffset(i, e.recSize), fuel) == Range(i, |e.chans|)
    decreases |e.chans| - i
  {
    var t := Terminate(e).chans;
    var n := |e.chans|;
    FindLaid(e, i);
    RangeCons(i, n);
    TerminatedNext(e, i);
    if i + 1 < n {
      WalkFrom(e, i + 1, fuel - 1);
      WalkStep(t, MetaOffset(i, e.recSize), i, fuel, Range(i + 1, n));
    } else {
      WalkStep(t, MetaOffset(i, e.recSize), i, fuel, []);
    }
  }

  /** The chain motec_log_write leaves: from the header's metadata
      reference, every record once, in insertion order, then the 0 that
      ends it; no fuel beyond the record count is ever used. */
  lemma ChainVisitsAll(e: Encoder, fuel: nat)
    requires WellLaid(e) && |e.chans| > 0 && fuel >= |e.chans|
    ensures Walk(Terminate(e).chans, Terminate(e).header.metaPtr, fuel) == Range(0, |e.chans|)
  {
    WalkFrom(e, 0, fuel);
  }

  /** With no channel the header's metadata reference still says
      HEADER_PTR, a reference no record answers. */
  lemma EmptyChainDangles(e: Encoder)
    requires WellLaid(e) && |e.chans| == 0
    ensures Terminate(e).header.metaPtr == HEADER_PTR != 0
    ensures FindRecord(Terminate(e).chans, Terminate(e).header.metaPtr) == None
  {
  }
}

=== FILE: ld_format.dfy ===
/** The records of an LD file as the C structures of ldparser.h describe
    them, the fixed offsets the encoder uses (motec_log.h), and the bytes
    each record occupies once written (motec_log.c). */
module LdFormat {
  import opened Wrappers
  import opened Bytes

  /** Fixed absolute offsets of the reference layout (motec_log.h). */
  const VEHICLE_PTR: nat := 1762
  const VENUE_PTR: nat := 5078
  const EVENT_PTR: nat := 8180
  const HEADER_PTR: nat := 11336

  /** Channel encodings (motec_log.h). */
  const DTYPE_FLOAT32: nat := 1
  const DTYPE_FLOAT16: nat := 2
  const DTYPE_INT32: nat := 3
  const DTYPE_INT16: nat := 4

  /** The per-channel magic number is this base plus the channel's index. */
  const MAGIC_BASE: nat := 0x2ee1

  /** Samples are written as 32-bit floats. */
  const SAMPLE_BYTES: nat := 4

  /** Record sizes in bytes: vehicle 64+4+32+32; venue as read 64+1034+2;
      event 64+64+1024+2; one channel-metadata record as written; the
      header without its `struct tm` image. */
  const VEHICLE_BYTES: nat := 132
  const VENUE_RESERVED: nat := 1034
  const VENUE_BYTES: nat := 1100
  const EVENT_BYTES: nat := 1154
  const CHAN_RECORD_BYTES: nat := 84
  const HEADER_FIXED_BYTES: nat := 268

  /** Text field widths. */
  const NAME_WIDTH: nat := 64
  const SHORT_TEXT_WIDTH: nat := 32
  const LONG_COMMENT_WIDTH: nat := 1024
  const CHAN_NAME_WIDTH: nat := 32
  const CHAN_SHORT_NAME_WIDTH: nat := 8
  const CHAN_UNIT_WIDTH: nat := 12

  /** A 4-byte image of one sample narrowed to a C `float`. */
  type F32 = b: seq<Byte> | |b| == 4 witness [0, 0, 0, 0]

  datatype Vehicle = Vehicle(id: seq<Byte>, weight: U32, vehicleType: seq<Byte>, comment: seq<Byte>)

  datatype Venue = Venue(name: seq<Byte>, vehiclePtr: U16, vehicle: Option<Vehicle>)

  datatype Event = Event(name: seq<Byte>, session: seq<Byte>, comment: seq<Byte>,
                         venuePtr: U16, venue: Option<Venue>)

  datatype Header = Header(metaPtr: nat, dataPtr: nat, eventPtr: nat, event: Option<Event>,
                           driver: seq<Byte>, vehicleId: seq<Byte>, venue: seq<Byte>,
                           shortComment: seq<Byte>)

  /** One channel-metadata record (ldChan) together with its samples. */
  datatype ChanRecord = ChanRecord(
    metaPtr: nat, prevMetaPtr: nat, nextMetaPtr: nat, dataPtr: nat, dataLen: nat,
    dtype: nat, freq: U16, shift: int, mul: int, scale: int, dec: int,
    name: seq<Byte>, shortName: seq<Byte>, unit: seq<Byte>, data: seq<real>)

  /** The numeric-family half of the discriminator: 0x07 for floats. */
  function DTypeA(dtype: nat): (r: U16)
    ensures r == 0x07 <==> dtype == DTYPE_FLOAT32 || dtype == DTYPE_FLOAT16
    ensures r == 0x07 || r == 0
  {
    if dtype == DTYPE_FLOAT32 || dtype == DTYPE_FLOAT16 then 0x07 else 0
  }

  /** The width half of the discriminator: 2 for the 16-bit kinds, else 4. */
  function DTypeWidth(dtype: nat): (r: U16)
    ensures r == 2 <==> dtype == DTYPE_FLOAT16 || dtype == DTYPE_INT16
    ensures r == 2 || r == 4
  {
    if dtype == DTYPE_FLOAT16 || dtype == DTYPE_INT16 then 2 else 4
  }

  /** The magic number of the channel at `index`, stored in a `uint16_t`. */
  function Magic(index: nat): (r: U16)
    ensures MAGIC_BASE + index < TWO16 ==> r == MAGIC_BASE + index
    ensures MAGIC_BASE + index == TWO16 ==> r == 0
  {
    (MAGIC_BASE + index) % TWO16
  }

  /** The vehicle record as written at its reference. */
  function VehicleBytes(v: Vehicle): (r: seq<Byte>)
    ensures |r| == VEHICLE_BYTES
  {
    Fit(v.id, NAME_WIDTH) + U32Le(v.weight) + Fit(v.vehicleType, SHORT_TEXT_WIDTH)
      + Fit(v.comment, SHORT_TEXT_WIDTH)
  }

  /** The venue record as motec_log.c writes it: the name followed at once
      by the vehicle reference. */
  function VenueBytesAsWritten(v: Venue): (r: seq<Byte>)
    ensures |r| == NAME_WIDTH + 2
    ensures r == VenueBytes(v)[..NAME_WIDTH] + VenueBytes(v)[VENUE_BYTES - 2..]
  {
    Fit(v.name, NAME_WIDTH) + U16Le(v.vehiclePtr)
  }

  /** The venue record in the layout the decoder reads: the name, 1034
      reserved bytes, then the vehicle reference. */
  function VenueBytes(v: Venue): (r: seq<Byte>)
    ensures |r| == VENUE_BYTES
  {
    Fit(v.name, NAME_WIDTH) + Zeros(VENUE_RESERVED) + U16Le(v.vehiclePtr)
  }

  /** The event record as written at its reference. */
  function EventBytes(e: Event): (r: seq<Byte>)
    ensures |r| == EVENT_BYTES
  {
    Fit(e.name, NAME_WIDTH) + Fit(e.session, NAME_WIDTH) + Fit(e.comment, LONG_COMMENT_WIDTH)
      + U16Le(e.venuePtr)
  }

  /** The header as written at offset 0; `tm` is the platform's image of
      the `struct tm` recording time. */
  function HeaderBytes(h: Header, tm: seq<Byte>): (r: seq<Byte>)
    ensures |r| == HEADER_FIXED_BYTES + |tm|
  {
    U32Le(h.metaPtr) + U32Le(h.dataPtr) + U32Le(h.eventPtr)
      + Fit(h.driver, NAME_WIDTH) + Fit(h.vehicleId, NAME_WIDTH) + Fit(h.venue, NAME_WIDTH)
      + tm + Fit(h.shortComment, NAME_WIDTH)
  }

  /** The four 32-bit fields that open a channel record. */
  function ChanRefs(c: ChanRecord): (r: seq<Byte>)
    ensures |r| == 16
  {
    U32Le(c.prevMetaPtr) + U32Le(c.nextMetaPtr) + U32Le(c.dataPtr) + U32Le(c.dataLen)
  }

  /** The eight 16-bit fields that follow: magic, discriminator, frequency
      and the display fields. */
  function ChanShorts(c: ChanRecord, index: nat): (r: seq<Byte>)
    ensures |r| == 16
  {
    U16Le(Magic(index)) + U16Le(DTypeA(c.dtype)) + U16Le(DTypeWidth(c.dtype)) + U16Le(c.freq)
      + I16Le(c.shift) + I16Le(c.mul) + I16Le(c.scale) + I16Le(c.dec)
  }

  /** write_ld_channel: the 84 bytes of the channel record at `index`. */
  function ChanRecordBytes(c: ChanRecord, index: nat): (r: seq<Byte>)
    ensures |r| == CHAN_RECORD_BYTES
  {
    ChanRefs(c) + ChanShorts(c, index) + Fit(c.name, CHAN_NAME_WIDTH) + Fit(c.shortName, CHAN_SHORT_NAME_WIDTH)
      + Fit(c.unit, CHAN_UNIT_WIDTH)
  }

  /** The header's three references read back, modulo 2^32, from its
      first twelve bytes. */
  lemma HeaderRefs(h: Header, tm: seq<Byte>)
    ensures var r := HeaderBytes(h, tm);
      && DecodeU32(r[0..4]) == h.metaPtr % TWO32
      && DecodeU32(r[4..8]) == h.dataPtr % TWO32
      && DecodeU32(r[8..12]) == h.eventPtr % TWO32
  {
    var r := HeaderBytes(h, tm);
    assert r[0..4] == U32Le(h.metaPtr);
    assert r[4..8] == U32Le(h.dataPtr);
    assert r[8..12] == U32Le(h.eventPtr);
    U32RoundTrip(h.metaPtr);
    U32RoundTrip(h.dataPtr);
    U32RoundTrip(h.eventPtr);
  }

  lemma ChanRefsFields(c: ChanRecord)
    ensures var r := ChanRefs(c);
      && DecodeU32(r[0..4]) == c.prevMetaPtr % TWO32
      && DecodeU32(r[4..8]) == c.nextMetaPtr % TWO32
      && DecodeU32(r[8..12]) == c.dataPtr % TWO32
      && DecodeU32(r[12..16]) == c.dataLen % TWO32
  {
    var r := ChanRefs(c);
    assert r[0..4] == U32Le(c.prevMetaPtr);
    assert r[4..8] == U32Le(c.nextMetaPtr);
    assert r[8..12] == U32Le(c.dataPtr);
    assert r[12..16] == U32Le(c.dataLen);
    U32RoundTrip(c.prevMetaPtr);
    U32RoundTrip(c.nextMetaPtr);
    U32RoundTrip(c.dataPtr);
    U32RoundTrip(c.dataLen);
  }

  lemma ChanShortsFields(c: ChanRecord, index: nat)
    requires -0x8000 <= c.shift < 0x8000 && -0x8000 <= c.mul < 0x8000
    requires -0x8000 <= c.scale < 0x8000 && -0x8000 <= c.dec < 0x8000
    ensures var r := ChanShorts(c, index);
      && DecodeU16(r[0..2]) == Magic(index)
      && DecodeU16(r[2..4]) == DTypeA(c.dtype)
      && DecodeU16(r[4..6]) == DTypeWidth(c.dtype)
      && DecodeU16(r[6..8]) == c.freq
      && DecodeI16(r[8..10]) == c.shift
      && DecodeI16(r[10..12]) == c.mul
      && DecodeI16(r[12..14]) == c.scale
      && DecodeI16(r[14..16]) == c.dec
  {
    var r := ChanShorts(c, index);
    assert r[0..2] == U16Le(Magic(index));
    assert r[2..4] == U16Le(DTypeA(c.dtype));
    assert r[4..6] == U16Le(DTypeWidth(c.dtype));
    assert r[6..8] == U16Le(c.freq);
    assert r[8..10] == I16Le(c.shift);
    assert r[10..12] == I16Le(c.mul);
    assert r[12..14] == I16Le(c.scale);
    assert r[14..16] == I16Le(c.dec);
    U16RoundTrip(Magic(index));
    U16RoundTrip(DTypeA(c.dtype));
    U16RoundTrip(DTypeWidth(c.dtype));
    U16RoundTrip(c.freq);
    I16RoundTrip(c.shift);
    I16RoundTrip(c.mul);
    I16RoundTrip(c.scale);
    I16RoundTrip(c.dec);
  }

  /** The four references of a written channel record read back, modulo
      2^32, whatever its display fields hold. */
  lemma ChanRecordRefs(c: ChanRecord, index: nat)
    ensures var r := ChanRecordBytes(c, index);
      && DecodeU32(r[0..4]) == c.prevMetaPtr % TWO32
      && DecodeU32(r[4..8]) == c.nextMetaPtr % TWO32
      && DecodeU32(r[8..12]) == c.dataPtr % TWO32
      && DecodeU32(r[12..16]) == c.dataLen % TWO32
  {
    var r := ChanRecordBytes(c, index);
    var a := ChanRefs(c);
    ChanRefsFields(c);
    assert r[0..16] == a;
    assert r[0..4] == a[0..4] && r[4..8] == a[4..8] && r[8..12] == a[8..12] && r[12..16] == a[12..16];
  }

  /** Each field of a written channel record reads back from its byte
      position: references and length modulo 2^32, the magic number of the
      index, both discriminator halves, the display fields, and the texts. */
  lemma ChanRecordFields(c: ChanRecord, index: nat)
    requires -0x8000 <= c.shift < 0x8000 && -0x8000 <= c.mul < 0x8000
    requires -0x8000 <= c.scale < 0x8000 && -0x8000 <= c.dec < 0x8000
    ensures var r := ChanRecordBytes(c, index);
      && DecodeU32(r[0..4]) == c.prevMetaPtr % TWO32
      && DecodeU32(r[4..8]) == c.nextMetaPtr % TWO32
      && DecodeU32(r[8..12]) == c.dataPtr % TWO32
      && DecodeU32(r[12..16]) == c.dataLen % TWO32
      && DecodeU16(r[16..18]) == Magic(index)
      && DecodeU16(r[18..20]) == DTypeA(c.dtype)
      && DecodeU16(r[20..22]) == DTypeWidth(c.dtype)
      && DecodeU16(r[22..24]) == c.freq
      && DecodeI16(r[24..26]) == c.shift
      && DecodeI16(r[26..28]) == c.mul
      && DecodeI16(r[28..30]) == c.scale
      && DecodeI16(r[30..32]) == c.dec
      && r[32..64] == Fit(c.name, CHAN_NAME_WIDTH)
      && r[64..72] == Fit(c.shortName, CHAN_SHORT_NAME_WIDTH)
      && r[72..84] == Fit(c.unit, CHAN_UNIT_WIDTH)
  {
    var r := ChanRecordBytes(c, index);
    var a := ChanRefs(c);
    var b := ChanShorts(c, index);
    ChanRefsFields(c);
    ChanShortsFields(c, index);
    assert r[0..16] == a;
    assert r[16..32] == b;
    assert r[0..4] == a[0..4] && r[4..8] == a[4..8] && r[8..12] == a[8..12] && r[12..16] == a[12..16];
    assert r[16..18] == b[0..2] && r[18..20] == b[2..4] && r[20..22] == b[4..6] && r[22..24] == b[6..8];
    assert r[24..26] == b[8..10] && r[26..28] == b[10..12] && r[28..30] == b[12..14] && r[30..32] == b[14..16];
  }
}

=== FILE: ld_parser.dfy ===
/** The decoder pieces of ldparser.c over an in-memory file image: each
    read takes the byte sequence and a read position and yields the decoded
    record with the position after it, or `None` for a short read. */
module LdParser {
  import opened Wrappers
  import opened Bytes
  import opened LdFormat

  /** A decoded value and the read position just past it. */
  datatype Parsed<T> = Parsed(value: T, next: nat)

  /** The value of a successful read, dropping the position. */
  function ValueOf<T>(r: Option<Parsed<T>>): Option<T> {
    match r
    case None => None
    case Some(p) => Some(p.value)
  }

  /** `fread(buf, n, 1, f)` at `pos`: fails unless all `n` bytes are there. */
  function ReadBytes(file: seq<Byte>, pos: nat, n: nat): (r: Option<Parsed<seq<Byte>>>)
    ensures r.Some? <==> pos + n <= |file|
    ensures r.Some? ==> r.value.next == pos + n && r.value.value == file[pos..pos + n]
  {
    if pos + n <= |file| then Some(Parsed(file[pos..pos + n], pos + n)) else None
  }

  function ReadU16(file: seq<Byte>, pos: nat): (r: Option<Parsed<U16>>)
    ensures r.Some? <==> pos + 2 <= |file|
    ensures r.Some? ==> r.value.next == pos + 2 && r.value.value == DecodeU16(file[pos..pos + 2])
  {
    var b :- ReadBytes(file, pos, 2);
    Some(Parsed(DecodeU16(b.value) as U16, b.next))
  }

  function ReadU32(file: seq<Byte>, pos: nat): (r: Option<Parsed<U32>>)
    ensures r.Some? <==> pos + 4 <= |file|
    ensures r.Some? ==> r.value.next == pos + 4 && r.value.value == DecodeU32(file[pos..pos + 4])
  {
    var b :- ReadBytes(file, pos, 4);
    Some(Parsed(DecodeU32(b.value) as U32, b.next))
  }

  /** read_vehicle: id, weight, type and comment, copied raw; any short
      read fails the whole record. */
  function ReadVehicle(file: seq<Byte>, pos: nat): (r: Option<Parsed<Vehicle>>)
    ensures r.Some? <==> pos + VEHICLE_BYTES <= |file|
    ensures r.Some? ==> r.value.next == pos + VEHICLE_BYTES
    ensures r.Some? ==> r.value.value == Vehicle(file[pos..pos + 64], DecodeU32(file[pos + 64..pos + 68]),
                                                 file[pos + 68..pos + 100], file[pos + 100..pos + 132])
  {
    var id :- ReadBytes(file, pos, NAME_WIDTH);
    var weight :- ReadU32(file, id.next);
    var kind :- ReadBytes(file, weight.next, SHORT_TEXT_WIDTH);
    var comment :- ReadBytes(file, kind.next, SHORT_TEXT_WIDTH);
    Some(Parsed(Vehicle(id.value, weight.value, kind.value, comment.value), comment.next))
  }

  /** read_venue: the name, 1034 skipped bytes (a forward seek, which never
      fails by itself), then the vehicle reference. A nonzero reference is
      followed with a nested read whose failure leaves the vehicle absent;
      the position returned is the one just past the reference field. */
  function ReadVenue(file: seq<Byte>, pos: nat): (r: Option<Parsed<Venue>>)
    ensures r.Some? <==> pos + VENUE_BYTES <= |file|
    ensures r.Some? ==> r.value.next == pos + VENUE_BYTES
    ensures r.Some? ==> r.value.value.name == file[pos..pos + 64]
    ensures r.Some? ==> r.value.value.vehiclePtr == DecodeU16(file[pos + 1098..pos + 1100])
    ensures r.Some? ==> (r.value.value.vehicle.Some? <==>
                         r.value.value.vehiclePtr > 0 && ReadVehicle(file, r.value.value.vehiclePtr).Some?)
    ensures r.Some? && r.value.value.vehicle.Some? ==>
              r.value.value.vehicle.value == ReadVehicle(file, r.value.value.vehiclePtr).value.value
  {
    var name :- ReadBytes(file, pos, NAME_WIDTH);
    var ptr :- ReadU16(file, name.next + VENUE_RESERVED);
    var vehicle := if ptr.value > 0 then ValueOf(ReadVehicle(file, ptr.value)) else None;
    Some(Parsed(Venue(name.value, ptr.value, vehicle), ptr.next))
  }

  /** read_event: name, session, comment and venue reference; a nonzero
      reference is followed as in ReadVenue, and the position returned is
      the one just past the reference field. */
  function ReadEvent(file: seq<Byte>, pos: nat): (r: Option<Parsed<Event>>)
    ensures r.Some? <==> pos + EVENT_BYTES <= |file|
    ensures r.Some? ==> r.value.next == pos + EVENT_BYTES
    ensures r.Some? ==> && r.value.value.name == file[pos..pos + 64]
                        && r.value.value.session == file[pos + 64..pos + 128]
                        && r.value.value.comment == file[pos + 128..pos + 1152]
    ensures r.Some? ==> r.value.value.venuePtr == DecodeU16(file[pos + 1152..pos + 1154])
    ensures r.Some? ==> (r.value.value.venue.Some? <==>
                         r.value.value.venuePtr > 0 && ReadVenue(file, r.value.value.venuePtr).Some?)
    ensures r.Some? && r.value.value.venue.Some? ==>
              r.value.value.venue.value == ReadVenue(file, r.value.value.venuePtr).value.value
  {
    var name :- ReadBytes(file, pos, NAME_WIDTH);
    var session :- ReadBytes(file, name.next, NAME_WIDTH);
    var comment :- ReadBytes(file, session.next, LONG_COMMENT_WIDTH);
    var ptr :- ReadU16(file, comment.next);
    var venue := if ptr.value > 0 then ValueOf(ReadVenue(file, ptr.value)) else None;
    Some(Parsed(Event(name.value, session.value, comment.value, ptr.value, venue), ptr.next))
  }

  /** The decoded file: a header and its channels. */
  datatype LdData<H, C> = LdData(head: H, channels: seq<C>)

  /** read_ldfile: read the header, then the channel chain from the
      header's metadata reference. The header and chain readers are not
      part of this model and are parameters; either one failing fails the
      whole read, with no partial result. */
  function ReadLdFile<H, C>(file: seq<Byte>, readHead: seq<Byte> -> Option<H>, metaPtrOf: H -> nat,
                            readChannels: (seq<Byte>, nat) -> Option<seq<C>>): (r: Option<LdData<H, C>>)
    ensures r.Some? <==> readHead(file).Some? && readChannels(file, metaPtrOf(readHead(file).value)).Some?
    ensures r.Some? ==> r.value.head == readHead(file).value
    ensures r.Some? ==> r.value.channels == readChannels(file, metaPtrOf(r.value.head)).value
  {
    var head :- readHead(file);
    var channels :- readChannels(file, metaPtrOf(head));
    Some(LdData(head, channels))
  }

  /** A vehicle record written at `pos` reads back unchanged. */
  lemma VehicleRoundTrip(file: seq<Byte>, pos: nat, v: Vehicle)
    requires |v.id| == NAME_WIDTH && |v.vehicleType| == SHORT_TEXT_WIDTH && |v.comment| == SHORT_TEXT_WIDTH
    requires pos + VEHICLE_BYTES <= |file| && file[pos..pos + VEHICLE_BYTES] == VehicleBytes(v)
    ensures ReadVehicle(file, pos) == Some(Parsed(v, pos + VEHICLE_BYTES))
  {
    var b := VehicleBytes(v);
    var w := U32Le(v.weight);
    assert b == v.id + w + v.vehicleType + v.comment;
    Fields4(file, pos, v.id, w, v.vehicleType, v.comment);
    U32RoundTrip(v.weight);
    assert DecodeU32(file[pos + 64..pos + 68]) == v.weight;
    assert file[pos + 68..pos + 100] == v.vehicleType && file[pos + 100..pos + 132] == v.comment;
  }

  /** A venue record laid out as the decoder expects reads back its name
      and vehicle reference. */
  lemma VenueRoundTrip(file: seq<Byte>, pos: nat, v: Venue)
    requires |v.name| == NAME_WIDTH
    requires pos + VENUE_BYTES <= |file| && file[pos..pos + VENUE_BYTES] == VenueBytes(v)
    ensures ReadVenue(file, pos).Some?
    ensures ReadVenue(file, pos).value.value.name == v.name
    ensures ReadVenue(file, pos).value.value.vehiclePtr == v.vehiclePtr
  {
    var b := VenueBytes(v);
    assert b[0..64] == v.name;
    assert b[1098..1100] == U16Le(v.vehiclePtr);
    SubSlice(file, pos, VENUE_BYTES, 0, 64);
    SubSlice(file, pos, VENUE_BYTES, 1098, 1100);
    U16RoundTrip(v.vehiclePtr);
  }

  /** An event record written at `pos` reads back its texts and venue
      reference. */
  lemma EventRoundTrip(file: seq<Byte>, pos: nat, e: Event)
    requires |e.name| == NAME_WIDTH && |e.session| == NAME_WIDTH && |e.comment| == LONG_COMMENT_WIDTH
    requires pos + EVENT_BYTES <= |file| && file[pos..pos + EVENT_BYTES] == EventBytes(e)
    ensures ReadEvent(file, pos).Some?
    ensures var d := ReadEvent(file, pos).value.value;
      d.name == e.name && d.session == e.session && d.comment == e.comment && d.venuePtr == e.venuePtr
  {
    var b := EventBytes(e);
    assert b == e.name + e.session + e.comment + U16Le(e.venuePtr);
    Fields4(file, pos, e.name, e.session, e.comment, U16Le(e.venuePtr));
    U16RoundTrip(e.venuePtr);
  }
}

=== FILE: motec_log.dfy ===
/** The LD encoder of motec_log.c as a pure value: the metadata set before
    conversion, the header with its event, venue and vehicle records, and
    the channel records with their offsets; then the plan of positioned
    writes motec_log_write performs.

    `recSize` is the in-memory `sizeof(ldChan)`, by which every channel
    shifts the data region; it is at least the 84 bytes write_ld_channel
    emits per record. Offsets are unbounded here; the source stores them in
    32-bit fields. */
module MotecLog {
  import opened Wrappers
  import opened Bytes
  import opened LdFormat
  import opened FileImage
  import TimeSeries

  /** Widths of the metadata buffers of MotecLog (motec_log.h). */
  const DRIVER_WIDTH: nat := 64
  const VEHICLE_ID_WIDTH: nat := 64
  const VEHICLE_TYPE_WIDTH: nat := 32
  const VEHICLE_COMMENT_WIDTH: nat := 32
  const VENUE_NAME_WIDTH: nat := 64
  const EVENT_NAME_WIDTH: nat := 64
  const EVENT_SESSION_WIDTH: nat := 64
  const LONG_COMMENT_BUF_WIDTH: nat := 1024
  const SHORT_COMMENT_WIDTH: nat := 64

  /** The metadata a MotecLog holds before initialisation. */
  datatype Metadata = Metadata(
    driver: string, vehicleId: string, vehicleWeight: U32, vehicleType: string,
    vehicleComment: string, venueName: string, eventName: string, eventSession: string,
    longComment: string, shortComment: string)

  /** motec_log_create clears the whole structure. */
  const EMPTY_METADATA: Metadata := Metadata("", "", 0, "", "", "", "", "", "", "")

  /** What one text buffer holds after an optional copy into it: the old
      text when none is given, otherwise the given text's first `width - 1`
      characters, or all of it when shorter. */
  predicate StoredText(old_: string, s: Option<string>, width: nat, r: string)
    requires width >= 1
  {
    && (s.None? ==> r == old_)
    && (s.Some? ==> |r| == Min(|s.value|, width - 1) && r == s.value[..|r|])
  }

  /** One `if (s) strncpy(buf, s, width - 1)`: a given text replaces the
      stored one, cut to `width - 1` characters; an absent one keeps it. */
  function Store(old_: string, s: Option<string>, width: nat): (r: string)
    requires width >= 1
    ensures s.None? ==> r == old_
    ensures s.Some? ==> |r| <= width - 1 && |r| <= |s.value| && r == s.value[..|r|]
    ensures s.Some? && |s.value| < width ==> r == s.value
  {
    match s
    case None => old_
    case Some(t) => t[..Min(|t|, width - 1)]
  }

  /** motec_log_set_metadata. The weight arrives as a C `int` and is stored
      in an `unsigned int`, so it is kept modulo 2^32. */
  function SetMetadata(md: Metadata, driver: Option<string>, vehicleId: Option<string>, vehicleWeight: int,
                       vehicleType: Option<string>, vehicleComment: Option<string>, venueName: Option<string>,
                       eventName: Option<string>, eventSession: Option<string>, longComment: Option<string>,
                       shortComment: Option<string>): (r: Metadata)
    ensures r.vehicleWeight == vehicleWeight % TWO32
    ensures 0 <= vehicleWeight < TWO32 ==> r.vehicleWeight == vehicleWeight
    ensures StoredText(md.driver, driver, DRIVER_WIDTH, r.driver)
    ensures StoredText(md.vehicleId, vehicleId, VEHICLE_ID_WIDTH, r.vehicleId)
    ensures StoredText(md.vehicleType, vehicleType, VEHICLE_TYPE_WIDTH, r.vehicleType)
    ensures StoredText(md.vehicleComment, vehicleComment, VEHICLE_COMMENT_WIDTH, r.vehicleComment)
    ensures StoredText(md.venueName, venueName, VENUE_NAME_WIDTH, r.venueName)
    ensures StoredText(md.eventName, eventName, EVENT_NAME_WIDTH, r.eventName)
    ensures StoredText(md.eventSession, eventSession, EVENT_SESSION_WIDTH, r.eventSession)
    ensures StoredText(md.longComment, longComment, LONG_COMMENT_BUF_WIDTH, r.longComment)
    ensures StoredText(md.shortComment, shortComment, SHORT_COMMENT_WIDTH, r.shortComment)
  {
    Metadata(
      Store(md.driver, driver, DRIVER_WIDTH),
      Store(md.vehicleId, vehicleId, VEHICLE_ID_WIDTH),
      vehicleWeight % TWO32,
      Store(md.vehicleType, vehicleType, VEHICLE_TYPE_WIDTH),
      Store(md.vehicleComment, vehicleComment, VEHICLE_COMMENT_WIDTH),
      Store(md.venueName, venueName, VENUE_NAME_WIDTH),
      Store(md.eventName, eventName, EVENT_NAME_WIDTH),
      Store(md.eventSession, eventSession, EVENT_SESSION_WIDTH),
      Store(md.longComment, longComment, LONG_COMMENT_BUF_WIDTH),
      Store(md.shortComment, shortComment, SHORT_COMMENT_WIDTH))
  }

  /** Copying a text twice is copying it once: the second copy of the
      same text into the buffer finds it already there. */
  lemma StoreIdempotent(old_: string, s: Option<string>, width: nat)
    requires width >= 1
    ensures Store(Store(old_, s, width), s, width) == Store(old_, s, width)
  {
    if s.Some? {
      var t := s.value;
      var n := Min(|t|, width - 1);
      assert t[..n][..n] == t[..n];
    }
  }

  /** Setting the same metadata twice is setting it once. */
  lemma SetMetadataIdempotent(md: Metadata, driver: Option<string>, vehicleId: Option<string>, vehicleWeight: int,
                              vehicleType: Option<string>, vehicleComment: Option<string>, venueName: Option<string>,
                              eventName: Option<string>, eventSession: Option<string>, longComment: Option<string>,
                              shortComment: Option<string>)
    ensures var once := SetMetadata(md, driver, vehicleId, vehicleWeight, vehicleType, vehicleComment, venueName,
                                    eventName, eventSession, longComment, shortComment);
      SetMetadata(once, driver, vehicleId, vehicleWeight, vehicleType, vehicleComment, venueName,
                  eventName, eventSession, longComment, shortComment) == once
  {
    StoreIdempotent(md.driver, driver, DRIVER_WIDTH);
    StoreIdempotent(md.vehicleId, vehicleId, VEHICLE_ID_WIDTH);
    StoreIdempotent(md.vehicleType, vehicleType, VEHICLE_TYPE_WIDTH);
    StoreIdempotent(md.vehicleComment, vehicleComment, VEHICLE_COMMENT_WIDTH);
    StoreIdempotent(md.venueName, venueName, VENUE_NAME_WIDTH);
    StoreIdempotent(md.eventName, eventName, EVENT_NAME_WIDTH);
    StoreIdempotent(md.eventSession, eventSession, EVENT_SESSION_WIDTH);
    StoreIdempotent(md.longComment, longComment, LONG_COMMENT_BUF_WIDTH);
    StoreIdempotent(md.shortComment, shortComment, SHORT_COMMENT_WIDTH);
  }

  /** The encoder: the record size, the header (owning the event, venue
      and vehicle records) and the channel records in insertion order. */
  datatype Encoder = Encoder(recSize: nat, header: Header, chans: seq<ChanRecord>)

  /** The event record motec_log_initialize builds, with its venue and
      vehicle. */
  function AuxRecords(md: Metadata): (ev: Event)
    ensures ev.venuePtr == VENUE_PTR && ev.venue.Some?
    ensures ev.venue.value.vehiclePtr == VEHICLE_PTR && ev.venue.value.vehicle.Some?
  {
    var vehicle := Vehicle(TextField(md.vehicleId, NAME_WIDTH), md.vehicleWeight,
                           TextField(md.vehicleType, SHORT_TEXT_WIDTH), TextField(md.vehicleComment, SHORT_TEXT_WIDTH));
    var venue := Venue(TextField(md.venueName, NAME_WIDTH), VEHICLE_PTR, Some(vehicle));
    Event(TextField(md.eventName, NAME_WIDTH), TextField(md.eventSession, NAME_WIDTH),
          TextField(md.longComment, LONG_COMMENT_WIDTH), VENUE_PTR, Some(venue))
  }

  /** motec_log_initialize: the header points both its metadata and its
      data at HEADER_PTR and its event at EVENT_PTR; the event refers to the
      venue at VENUE_PTR, the venue to the vehicle at VEHICLE_PTR. No
      channel exists yet. */
  function Initialize(md: Metadata, recSize: nat): (e: Encoder)
    requires recSize >= CHAN_RECORD_BYTES
    ensures e.recSize == recSize && e.chans == []
    ensures e.header.metaPtr == HEADER_PTR && e.header.dataPtr == HEADER_PTR && e.header.eventPtr == EVENT_PTR
    ensures e.header.event == Some(AuxRecords(md))
    ensures e.header.driver == TextField(md.driver, NAME_WIDTH)
    ensures e.header.vehicleId == TextField(md.vehicleId, NAME_WIDTH)
    ensures e.header.venue == TextField(md.venueName, NAME_WIDTH)
    ensures e.header.shortComment == TextField(md.shortComment, NAME_WIDTH)
  {
    Encoder(recSize,
            Header(HEADER_PTR, HEADER_PTR, EVENT_PTR, Some(AuxRecords(md)),
                   TextField(md.driver, NAME_WIDTH), TextField(md.vehicleId, NAME_WIDTH),
                   TextField(md.venueName, NAME_WIDTH), TextField(md.shortComment, NAME_WIDTH)),
            [])
  }

  /** The sample values of a channel, in order. */
  function Values(ch: TimeSeries.Channel): (r: seq<real>)
    ensures |r| == |ch.samples|
    ensures forall k | 0 <= k < |r| :: r[k] == ch.samples[k].value
  {
    seq(|ch.samples|, k requires 0 <= k < |ch.samples| => ch.samples[k].value)
  }

  /** The frequency field: the average frequency truncated to an integer and
      stored in a `uint16_t`. */
  function Freq(ch: TimeSeries.Channel): (r: U16)
    ensures TimeSeries.AvgFrequency(ch) < TWO16 as real ==> r as real <= TimeSeries.AvgFrequency(ch) < r as real + 1.0
  {
    TimeSeries.AvgFrequency(ch).Floor % TWO16
  }

  /** The fields of a channel record that come from its source channel
      rather than from the layout. */
  predicate Content(c: ChanRecord, ch: TimeSeries.Channel) {
    && c.dataLen == |ch.samples| && c.data == Values(ch)
    && c.dtype == DTYPE_FLOAT32 && c.freq == Freq(ch)
    && c.shift == 0 && c.mul == 1 && c.scale == 1 && c.dec == 0
    && c.name == TextField(ch.name, CHAN_NAME_WIDTH)
    && c.shortName == Zeros(CHAN_SHORT_NAME_WIDTH)
    && c.unit == TextField(ch.units, CHAN_UNIT_WIDTH)
  }

  /** A record with its data offset moved forward by `d`. */
  function ShiftData(c: ChanRecord, d: nat): ChanRecord {
    c.(dataPtr := c.dataPtr + d)
  }

  /** motec_log_add_channel. Every existing data offset, the header's
      included, moves forward by one record size; the new record follows the
      last one in the metadata chain and its samples follow the last
      channel's samples. */
  function AddChannel(e: Encoder, ch: TimeSeries.Channel): (r: Encoder)
    ensures r.recSize == e.recSize && |r.chans| == |e.chans| + 1
    ensures r.header == e.header.(dataPtr := e.header.dataPtr + e.recSize)
    ensures forall i | 0 <= i < |e.chans| :: r.chans[i] == ShiftData(e.chans[i], e.recSize)
    ensures var c := r.chans[|e.chans|];
      && (|e.chans| == 0 ==> c.metaPtr == HEADER_PTR && c.prevMetaPtr == 0 && c.dataPtr == r.header.dataPtr)
      && (|e.chans| > 0 ==> var last := e.chans[|e.chans| - 1];
            && c.metaPtr == last.nextMetaPtr && c.prevMetaPtr == last.metaPtr
            && c.dataPtr == r.chans[|e.chans| - 1].dataPtr + SAMPLE_BYTES * last.dataLen)
      && c.nextMetaPtr == c.metaPtr + e.recSize
      && Content(c, ch)
  {
    var R := e.recSize;
    var header := e.header.(dataPtr := e.header.dataPtr + R);
    var shifted := seq(|e.chans|, i requires 0 <= i < |e.chans| => ShiftData(e.chans[i], R));
    var n := |shifted|;
    var metaPtr := if n > 0 then shifted[n - 1].nextMetaPtr else HEADER_PTR;
    var prevMetaPtr := if n > 0 then shifted[n - 1].metaPtr else 0;
    var dataPtr := if n > 0 then shifted[n - 1].dataPtr + SAMPLE_BYTES * shifted[n - 1].dataLen else header.dataPtr;
    var c := ChanRecord(metaPtr, prevMetaPtr, metaPtr + R, dataPtr, |ch.samples|,
                        DTYPE_FLOAT32, Freq(ch), 0, 1, 1, 0,
                        TextField(ch.name, CHAN_NAME_WIDTH), Zeros(CHAN_SHORT_NAME_WIDTH),
                        TextField(ch.units, CHAN_UNIT_WIDTH), Values(ch));
    Encoder(R, header, shifted + [c])
  }

  /** motec_log_add_all_channels: every channel of the log, in order. */
  function AddAllChannels(e: Encoder, chs: seq<TimeSeries.Channel>): (r: Encoder)
    ensures r.recSize == e.recSize && |r.chans| == |e.chans| + |chs|
    ensures r.header == e.header.(dataPtr := e.header.dataPtr + |chs| * e.recSize)
  {
    if |chs| == 0 then e
    else
      var m := AddAllChannels(e, chs[..|chs| - 1]);
      MoreShift(|chs|, e.recSize);
      AddChannel(m, chs[|chs| - 1])
  }

  /** After adding channels, an earlier record has only its data offset
      moved, by one record size per added channel. */
  lemma {:induction false} AddAllShifts(e: Encoder, chs: seq<TimeSeries.Channel>, i: nat)
    requires i < |e.chans|
    ensures AddAllChannels(e, chs).chans[i] == ShiftData(e.chans[i], |chs| * e.recSize)
  {
    var R := e.recSize;
    if |chs| == 0 {
      assert 0 * R == 0;
      ShiftNone(e.chans[i]);
    } else {
      var front := chs[..|chs| - 1];
      var m := AddAllChannels(e, front);
      AddAllShifts(e, front, i);
      MoreShift(|chs|, R);
      assert AddAllChannels(e, chs).chans[i] == ShiftData(m.chans[i], R);
      ShiftTwice(e.chans[i], (|chs| - 1) * R, R);
    }
  }

  /** After adding channels, the record added for channel i carries that
      channel's content. */
  lemma {:induction false} AddAllCarries(e: Encoder, chs: seq<TimeSeries.Channel>, i: nat)
    requires i < |chs|
    ensures Content(AddAllChannels(e, chs).chans[|e.chans| + i], chs[i])
  {
    var front := chs[..|chs| - 1];
    var m := AddAllChannels(e, front);
    var n := |e.chans|;
    if i < |chs| - 1 {
      AddAllCarries(e, front, i);
      assert AddAllChannels(e, chs).chans[n + i] == ShiftData(m.chans[n + i], e.recSize);
    }
  }

  /** A shift by 0 changes nothing. */
  lemma ShiftNone(c: ChanRecord)
    ensures ShiftData(c, 0) == c
  {
  }

  /** Two shifts of the data offset are one shift by their sum. */
  lemma ShiftTwice(c: ChanRecord, a: nat, b: nat)
    ensures ShiftData(ShiftData(c, a), b) == ShiftData(c, a + b)
  {
  }

  /** k record sizes are k - 1 of them and one more. */
  lemma MoreShift(k: nat, R: nat)
    requires k > 0
    ensures (k - 1) * R + R == k * R && (k - 1) * R >= 0
  {
  }

  /** motec_log_write's first step: the last record's next reference
      becomes 0, ending the chain. Nothing else changes. */
  function Terminate(e: Encoder): (r: Encoder)
    ensures r.recSize == e.recSize && r.header == e.header && |r.chans| == |e.chans|
    ensures forall i | 0 <= i < |e.chans| - 1 :: r.chans[i] == e.chans[i]
    ensures |e.chans| > 0 ==> r.chans[|e.chans| - 1] == e.chans[|e.chans| - 1].(nextMetaPtr := 0)
  {
    var n := |e.chans|;
    if n == 0 then e else e.(chans := e.chans[n - 1 := e.chans[n - 1].(nextMetaPtr := 0)])
  }

  /** The bytes of the samples narrowed to `float`; `f32` gives the four
      bytes of one value's `float` image. */
  function SampleBytes(data: seq<real>, f32: real -> F32): (r: seq<Byte>)
    ensures |r| == SAMPLE_BYTES * |data|
    ensures forall k | 0 <= k < |data| :: r[SAMPLE_BYTES * k..SAMPLE_BYTES * k + SAMPLE_BYTES] == f32(data[k])
  {
    if |data| == 0 then []
    else
      var front := SampleBytes(data[..|data| - 1], f32);
      var r := front + f32(data[|data| - 1]);
      assert forall k | 0 <= k < |data| - 1 :: r[SAMPLE_BYTES * k..SAMPLE_BYTES * k + SAMPLE_BYTES]
                                             == front[SAMPLE_BYTES * k..SAMPLE_BYTES * k + SAMPLE_BYTES];
      r
  }

  /** write_ld_header's nested records: the event at the header's event
      reference, then the venue and the vehicle at theirs, each only when
      present. `venueBytes` lays out the venue record. */
  function AuxWrites(h: Header, venueBytes: Venue -> seq<Byte>): (r: seq<Write>)
    ensures h.event.None? ==> r == []
    ensures h.event.Some? ==> |r| >= 1 && r[0] == Write(h.eventPtr, EventBytes(h.event.value))
    ensures h.event.Some? && h.event.value.venue.Some? ==>
              |r| >= 2 && r[1] == Write(h.event.value.venuePtr, venueBytes(h.event.value.venue.value))
    ensures h.event.Some? && h.event.value.venue.Some? && h.event.value.venue.value.vehicle.Some? ==>
              |r| == 3 && r[2] == Write(h.event.value.venue.value.vehiclePtr,
                                        VehicleBytes(h.event.value.venue.value.vehicle.value))
  {
    match h.event
    case None => []
    case Some(ev) =>
      [Write(h.eventPtr, EventBytes(ev))] +
      match ev.venue
      case None => []
      case Some(venue) =>
        [Write(ev.venuePtr, venueBytes(venue))] +
        match venue.vehicle
        case None => []
        case Some(v) => [Write(venue.vehiclePtr, VehicleBytes(v))]
  }

  /** The loop over channels: record i at its metadata offset written as
      index i, then its samples at its data offset. */
  function ChannelWrites(chans: seq<ChanRecord>, f32: real -> F32): (r: seq<Write>)
    ensures |r| == 2 * |chans|
    ensures forall i | 0 <= i < |chans| :: r[2 * i] == Write(chans[i].metaPtr, ChanRecordBytes(chans[i], i))
    ensures forall i | 0 <= i < |chans| :: r[2 * i + 1] == Write(chans[i].dataPtr, SampleBytes(chans[i].data, f32))
  {
    var n := |chans|;
    if n == 0 then []
    else
      var front := ChannelWrites(chans[..n - 1], f32);
      var c := chans[n - 1];
      front + [Write(c.metaPtr, ChanRecordBytes(c, n - 1)), Write(c.dataPtr, SampleBytes(c.data, f32))]
  }

  /** motec_log_write as a plan: terminate the chain, write the header at 0
      (with `tm`, the platform's image of the recording time), its nested
      records, then each channel. With no channel only the header part is
      written, which is the same plan. */
  function WriteLogWith(e: Encoder, tm: seq<Byte>, f32: real -> F32, venueBytes: Venue -> seq<Byte>): (r: seq<Write>)
    ensures var aux := AuxWrites(e.header, venueBytes);
      && |r| == 1 + |aux| + 2 * |e.chans|
      && r[0] == Write(0, HeaderBytes(e.header, tm))
      && r[1..1 + |aux|] == aux
      && r[1 + |aux|..] == ChannelWrites(Terminate(e).chans, f32)
  {
    var t := Terminate(e);
    [Write(0, HeaderBytes(t.header, tm))] + AuxWrites(t.header, venueBytes) + ChannelWrites(t.chans, f32)
  }

  /** The write plan with the venue record in the layout the decoder reads. */
  function WriteLog(e: Encoder, tm: seq<Byte>, f32: real -> F32): seq<Write> {
    WriteLogWith(e, tm, f32, VenueBytes)
  }

  /** Whether write_ld_header writes a venue record. */
  predicate VenueWritten(h: Header) {
    h.event.Some? && h.event.value.venue.Some?
  }

  /** Two venue layouts give the same nested writes except the venue
      record's bytes. */
  lemma AuxWritesVenueOnly(h: Header, a: Venue -> seq<Byte>, b: Venue -> seq<Byte>)
    ensures |AuxWrites(h, a)| == |AuxWrites(h, b)|
    ensures forall k | 0 <= k < |AuxWrites(h, a)| ::
              AuxWrites(h, a)[k].offset == AuxWrites(h, b)[k].offset
              && (k != 1 ==> AuxWrites(h, a)[k] == AuxWrites(h, b)[k])
    ensures !VenueWritten(h) ==> AuxWrites(h, a) == AuxWrites(h, b)
  {
  }

  /** The write plan as motec_log.c has it, the venue's vehicle reference
      right after the name. It is the plan of the decoder's layout in
      every write but the venue record, whose 1034 reserved bytes are
      missing, so the vehicle reference lands at +64 instead of +1098. */
  function WriteLogAsWritten(e: Encoder, tm: seq<Byte>, f32: real -> F32): (r: seq<Write>)
    ensures var w := WriteLog(e, tm, f32);
      && |r| == |w|
      && (forall k | 0 <= k < |r| :: r[k].offset == w[k].offset && (k != 2 ==> r[k] == w[k]))
      && (!VenueWritten(e.header) ==> r == w)
      && (VenueWritten(e.header) ==> r[2].bytes == w[2].bytes[..NAME_WIDTH] + w[2].bytes[VENUE_BYTES - 2..])
  {
    AuxWritesVenueOnly(e.header, VenueBytesAsWritten, VenueBytes);
    WriteLogWith(e, tm, f32, VenueBytesAsWritten)
  }
}

=== FILE: round_trip.dfy ===
/** What the file motec_log_write produces holds, read back with the
    decoder of ldparser.c: the event, venue and vehicle records come back
    as the encoder built them (with the venue in the decoder's layout, and
    not as motec_log.c lays it out), each channel record and sample buffer
    sits at its offset, and the next references stored in the file lead
    from the header through every record once. */
module RoundTrip {
  import opened Wrappers
  import opened Bytes
  import opened LdFormat
  import opened LdParser
  import opened FileImage
  import opened MotecLog
  import opened Layout

  /** The largest `struct tm` image for which the header ends before the
      vehicle record at VEHICLE_PTR. */
  const TM_MAX_BYTES: nat := 1494

  /** The header's nested records as motec_log_initialize builds them:
      all present, at the fixed references, with full-width fields. */
  predicate AuxLaid(h: Header) {
    && h.eventPtr == EVENT_PTR && h.event.Some?
    && var ev := h.event.value;
    && |ev.name| == NAME_WIDTH && |ev.session| == NAME_WIDTH && |ev.comment| == LONG_COMMENT_WIDTH
    && ev.venuePtr == VENUE_PTR && ev.venue.Some?
    && var venue := ev.venue.value;
    && |venue.name| == NAME_WIDTH && venue.vehiclePtr == VEHICLE_PTR && venue.vehicle.Some?
    && var v := venue.vehicle.value;
    && |v.id| == NAME_WIDTH && |v.vehicleType| == SHORT_TEXT_WIDTH && |v.comment| == SHORT_TEXT_WIDTH
  }

  /** Initialisation builds the nested records so, and adding channels
      leaves them alone. */
  lemma BuildAuxLaid(md: Metadata, recSize: nat, log: TimeSeries.DataLog)
    requires recSize >= CHAN_RECORD_BYTES
    ensures AuxLaid(Build(md, recSize, log).header)
  {
  }

  /** Where each write of the plan goes, for a laid-out encoder: the header
      at 0, the event, venue and vehicle at their references, then record i
      and its samples at positions 4 + 2i and 5 + 2i. */
  lemma PlanShape(e: Encoder, tm: seq<Byte>, f32: real -> F32, venueBytes: Venue -> seq<Byte>)
    requires AuxLaid(e.header)
    ensures var plan := WriteLogWith(e, tm, f32, venueBytes);
      var ev := e.header.event.value;
      var venue := ev.venue.value;
      var t := Terminate(e).chans;
      && |plan| == 4 + 2 * |e.chans|
      && plan[0] == Write(0, HeaderBytes(e.header, tm))
      && plan[1] == Write(EVENT_PTR, EventBytes(ev))
      && plan[2] == Write(VENUE_PTR, venueBytes(venue))
      && plan[3] == Write(VEHICLE_PTR, VehicleBytes(venue.vehicle.value))
      && (forall i | 0 <= i < |e.chans| :: plan[4 + 2 * i] == Write(t[i].metaPtr, ChanRecordBytes(t[i], i)))
      && (forall i | 0 <= i < |e.chans| :: plan[5 + 2 * i] == Write(t[i].dataPtr, SampleBytes(t[i].data, f32)))
  {
    var plan := WriteLogWith(e, tm, f32, venueBytes);
    var aux := AuxWrites(e.header, venueBytes);
    var cw := ChannelWrites(Terminate(e).chans, f32);
    assert |aux| == 3;
    assert plan[1] == aux[0] && plan[2] == aux[1] && plan[3] == aux[2];
    forall i | 0 <= i < |e.chans|
      ensures plan[4 + 2 * i] == cw[2 * i] && plan[5 + 2 * i] == cw[2 * i + 1]
    {
      assert plan[4..][2 * i] == cw[2 * i];
      assert plan[4..][2 * i + 1] == cw[2 * i + 1];
    }
  }

  /** The offset and length of every write in a plan laid out like
      WriteLogWith's for the encoder `e`, a venue record of `venueLen` bytes
      and a time image of `tmLen` bytes. */
  predicate Placed(e: Encoder, plan: seq<Write>, venueLen: nat, tmLen: nat) {
    && |plan| == 4 + 2 * |e.chans|
    && plan[0].offset == 0 && |plan[0].bytes| == HEADER_FIXED_BYTES + tmLen
    && plan[1].offset == EVENT_PTR && |plan[1].bytes| == EVENT_BYTES
    && plan[2].offset == VENUE_PTR && |plan[2].bytes| == venueLen
    && plan[3].offset == VEHICLE_PTR && |plan[3].bytes| == VEHICLE_BYTES
    && (forall i | 0 <= i < |e.chans| ::
          plan[4 + 2 * i].offset == e.chans[i].metaPtr && |plan[4 + 2 * i].bytes| == CHAN_RECORD_BYTES)
    && (forall i | 0 <= i < |e.chans| ::
          plan[5 + 2 * i].offset == e.chans[i].dataPtr && |plan[5 + 2 * i].bytes| == SAMPLE_BYTES * e.chans[i].dataLen)
  }

  /** Terminating the chain leaves every record's position and samples. */
  lemma TerminateKeepsData(e: Encoder, i: nat)
    requires i < |e.chans|
    ensures var c := Terminate(e).chans[i];
      c.metaPtr == e.chans[i].metaPtr && c.dataPtr == e.chans[i].dataPtr && c.data == e.chans[i].data
  {
  }

  /** WriteLogWith lays its writes out so. */
  lemma PlanPlaced(e: Encoder, tm: seq<Byte>, f32: real -> F32, venueBytes: Venue -> seq<Byte>)
    requires WellLaid(e) && AuxLaid(e.header)
    ensures Placed(e, WriteLogWith(e, tm, f32, venueBytes), |venueBytes(e.header.event.value.venue.value)|, |tm|)
  {
    var t := Terminate(e).chans;
    forall i | 0 <= i < |e.chans|
      ensures t[i].metaPtr == e.chans[i].metaPtr && t[i].dataPtr == e.chans[i].dataPtr
      ensures |t[i].data| == e.chans[i].dataLen
    {
      TerminateKeepsData(e, i);
      assert ChanLaid(e, i);
    }
    PlanShape(e, tm, f32, venueBytes);
  }

  /** Record j and its samples lie at or past HEADER_PTR. */
  lemma ChanHigh(e: Encoder, j: nat)
    requires WellLaid(e) && j < |e.chans|
    ensures e.chans[j].metaPtr >= HEADER_PTR && e.chans[j].dataPtr >= HEADER_PTR
  {
    assert ChanLaid(e, j);
  }

  /** Every channel write lies at or past HEADER_PTR. */
  lemma ChannelsHigh(e: Encoder, plan: seq<Write>, venueLen: nat, tmLen: nat)
    requires WellLaid(e) && Placed(e, plan, venueLen, tmLen)
    ensures forall k | 4 <= k < |plan| :: plan[k].offset >= HEADER_PTR
  {
    forall k | 4 <= k < |plan|
      ensures plan[k].offset >= HEADER_PTR
    {
      var j := (k - 4) / 2;
      ChanHigh(e, j);
      if k == 4 + 2 * j {
        assert plan[k].offset == e.chans[j].metaPtr;
      } else {
        assert k == 5 + 2 * j;
        assert plan[k].offset == e.chans[j].dataPtr;
      }
    }
  }

  /** The event, venue and vehicle writes overlap no later write, when the
      venue record ends before the event's. */
  lemma AuxApart(e: Encoder, plan: seq<Write>, venueLen: nat, tmLen: nat, i: nat)
    requires WellLaid(e) && Placed(e, plan, venueLen, tmLen)
    requires 1 <= i <= 3 && VENUE_PTR + venueLen <= EVENT_PTR
    ensures forall k | i < k < |plan| :: Disjoint(plan[i], plan[k])
  {
    ChannelsHigh(e, plan, venueLen, tmLen);
  }

  /** The header write overlaps no later write while the time image is
      short enough to end before the vehicle record. */
  lemma HeaderApart(e: Encoder, plan: seq<Write>, venueLen: nat, tmLen: nat)
    requires WellLaid(e) && Placed(e, plan, venueLen, tmLen)
    requires tmLen <= TM_MAX_BYTES && VENUE_PTR + venueLen <= EVENT_PTR
    ensures forall k | 0 < k < |plan| :: Disjoint(plan[0], plan[k])
  {
    ChannelsHigh(e, plan, venueLen, tmLen);
  }

  /** Channel record i's write overlaps no later write. */
  lemma RecordApart(e: Encoder, plan: seq<Write>, venueLen: nat, tmLen: nat, i: nat)
    requires WellLaid(e) && Placed(e, plan, venueLen, tmLen) && i < |e.chans|
    ensures forall k | 4 + 2 * i < k < |plan| :: Disjoint(plan[4 + 2 * i], plan[k])
  {
    forall k | 4 + 2 * i < k < |plan|
      ensures Disjoint(plan[4 + 2 * i], plan[k])
    {
      var j := (k - 4) / 2;
      if k == 4 + 2 * j {
        assert plan[k] == plan[4 + 2 * j];
        MetaRecordsApart(e, i, j);
      } else {
        assert plan[k] == plan[5 + 2 * j];
        DataAfterMeta(e, j, i);
      }
    }
  }

  /** Channel i's sample write overlaps no later write. */
  lemma SamplesApart(e: Encoder, plan: seq<Write>, venueLen: nat, tmLen: nat, i: nat)
    requires WellLaid(e) && Placed(e, plan, venueLen, tmLen) && i < |e.chans|
    ensures forall k | 5 + 2 * i < k < |plan| :: Disjoint(plan[5 + 2 * i], plan[k])
  {
    forall k | 5 + 2 * i < k < |plan|
      ensures Disjoint(plan[5 + 2 * i], plan[k])
    {
      var j := (k - 4) / 2;
      if k == 4 + 2 * j {
        assert plan[k] == plan[4 + 2 * j];
        DataAfterMeta(e, i, j);
      } else {
        assert plan[k] == plan[5 + 2 * j];
        DataBuffersApart(e, i, j);
      }
    }
  }

  /** Bytes `p` with VENUE_PTR + venueLen <= p < EVENT_PTR past the vehicle
      record lie under no write. */
  lemma Untouched(e: Encoder, plan: seq<Write>, venueLen: nat, tmLen: nat, p: nat)
    requires WellLaid(e) && Placed(e, plan, venueLen, tmLen) && tmLen <= TM_MAX_BYTES
    requires VENUE_PTR + venueLen <= p < EVENT_PTR
    ensures forall k | 0 <= k < |plan| :: !(plan[k].offset <= p < End(plan[k]))
  {
    ChannelsHigh(e, plan, venueLen, tmLen);
  }

  /** The three nested records read back where they were written. */
  lemma AuxSlices(e: Encoder, tm: seq<Byte>, f32: real -> F32, venueBytes: Venue -> seq<Byte>)
    requires WellLaid(e) && AuxLaid(e.header)
    requires VENUE_PTR + |venueBytes(e.header.event.value.venue.value)| <= EVENT_PTR
    ensures var file := Render(WriteLogWith(e, tm, f32, venueBytes));
      var ev := e.header.event.value;
      var venue := ev.venue.value;
      && EVENT_PTR + EVENT_BYTES <= |file|
      && file[EVENT_PTR..EVENT_PTR + EVENT_BYTES] == EventBytes(ev)
      && VEHICLE_PTR + VEHICLE_BYTES <= |file|
      && file[VEHICLE_PTR..VEHICLE_PTR + VEHICLE_BYTES] == VehicleBytes(venue.vehicle.value)
      && (|venueBytes(venue)| > 0 ==>
            && VENUE_PTR + |venueBytes(venue)| <= |file|
            && file[VENUE_PTR..VENUE_PTR + |venueBytes(venue)|] == venueBytes(venue))
  {
    var plan := WriteLogWith(e, tm, f32, venueBytes);
    var venueLen := |venueBytes(e.header.event.value.venue.value)|;
    PlanShape(e, tm, f32, venueBytes);
    PlanPlaced(e, tm, f32, venueBytes);
    AuxApart(e, plan, venueLen, |tm|, 1);
    AuxApart(e, plan, venueLen, |tm|, 2);
    AuxApart(e, plan, venueLen, |tm|, 3);
    RenderSlice(plan, 1);
    RenderSlice(plan, 3);
    if venueLen > 0 {
      RenderSlice(plan, 2);
    }
  }

  /** The event record read at EVENT_PTR from the written file is the
      event the encoder holds, with its venue and that venue's vehicle. */
  lemma AuxChainRoundTrip(e: Encoder, tm: seq<Byte>, f32: real -> F32)
    requires WellLaid(e) && AuxLaid(e.header)
    ensures ReadEvent(Render(WriteLog(e, tm, f32)), EVENT_PTR)
            == Some(Parsed(e.header.event.value, EVENT_PTR + EVENT_BYTES))
  {
    var file := Render(WriteLog(e, tm, f32));
    var ev := e.header.event.value;
    var venue := ev.venue.value;
    var v := venue.vehicle.value;
    AuxSlices(e, tm, f32, VenueBytes);
    EventRoundTrip(file, EVENT_PTR, ev);
    VenueRoundTrip(file, VENUE_PTR, venue);
    VehicleRoundTrip(file, VEHICLE_PTR, v);
    assert ReadVenue(file, VENUE_PTR).value.value == venue;
  }

  /** In a placed plan, a byte between the venue write and the event
      record is in the file and reads as 0. */
  lemma GapZero(e: Encoder, plan: seq<Write>, venueLen: nat, tmLen: nat, p: nat)
    requires WellLaid(e) && Placed(e, plan, venueLen, tmLen) && tmLen <= TM_MAX_BYTES
    requires VENUE_PTR + venueLen <= p < EVENT_PTR
    ensures p < |Render(plan)| && Render(plan)[p] == 0
  {
    RenderCovers(plan, 1);
    Untouched(e, plan, venueLen, tmLen, p);
    RenderGap(plan, p);
  }

  /** A file holding a written event whose venue reference points at a
      venue whose vehicle-reference bytes are 0 decodes to a venue without
      a vehicle. */
  lemma VenueWithoutVehicle(file: seq<Byte>, ev: Event)
    requires |ev.name| == NAME_WIDTH && |ev.session| == NAME_WIDTH && |ev.comment| == LONG_COMMENT_WIDTH
    requires ev.venuePtr == VENUE_PTR
    requires EVENT_PTR + EVENT_BYTES <= |file| && file[EVENT_PTR..EVENT_PTR + EVENT_BYTES] == EventBytes(ev)
    requires file[VENUE_PTR + VENUE_BYTES - 2] == 0 && file[VENUE_PTR + VENUE_BYTES - 1] == 0
    ensures var d := ReadEvent(file, EVENT_PTR);
      && d.Some? && d.value.value.venue.Some?
      && d.value.value.venue.value.vehiclePtr == 0
      && d.value.value.venue.value.vehicle.None?
  {
    EventRoundTrip(file, EVENT_PTR, ev);
    var p := VENUE_PTR + VENUE_BYTES - 2;
    assert file[p..p + 2] == [0, 0];
    var venue := ReadVenue(file, VENUE_PTR);
    assert venue.Some? && venue.value.value.vehiclePtr == 0;
  }

  /** As motec_log.c writes the venue, the decoder finds its vehicle
      reference in bytes nothing was written to: the reference reads as 0
      and the vehicle is lost. */
  lemma VenueLinkLostAsWritten(e: Encoder, tm: seq<Byte>, f32: real -> F32)
    requires WellLaid(e) && AuxLaid(e.header) && |tm| <= TM_MAX_BYTES
    ensures var d := ReadEvent(Render(WriteLogAsWritten(e, tm, f32)), EVENT_PTR);
      && d.Some? && d.value.value.venue.Some?
      && d.value.value.venue.value.vehiclePtr == 0
      && d.value.value.venue.value.vehicle.None?
  {
    var plan := WriteLogAsWritten(e, tm, f32);
    var venueLen := |VenueBytesAsWritten(e.header.event.value.venue.value)|;
    AuxSlices(e, tm, f32, VenueBytesAsWritten);
    PlanPlaced(e, tm, f32, VenueBytesAsWritten);
    GapZero(e, plan, venueLen, |tm|, VENUE_PTR + VENUE_BYTES - 2);
    GapZero(e, plan, venueLen, |tm|, VENUE_PTR + VENUE_BYTES - 1);
    VenueWithoutVehicle(Render(plan), e.header.event.value);
  }

  /** An event as the decoder finds it once its venue's vehicle reference
      reads as 0: the same texts, venue reference and venue name, and no
      vehicle. */
  function VehicleDropped(ev: Event): Event
    requires ev.venue.Some?
  {
    ev.(venue := Some(ev.venue.value.(vehiclePtr := 0, vehicle := None)))
  }

  /** The event record read at EVENT_PTR from the file as motec_log.c
      writes it: the event's texts and venue reference come back, the
      venue's name comes back, and the venue has lost its vehicle. */
  lemma AuxChainAsWritten(e: Encoder, tm: seq<Byte>, f32: real -> F32)
    requires WellLaid(e) && AuxLaid(e.header) && |tm| <= TM_MAX_BYTES
    ensures ReadEvent(Render(WriteLogAsWritten(e, tm, f32)), EVENT_PTR)
            == Some(Parsed(VehicleDropped(e.header.event.value), EVENT_PTR + EVENT_BYTES))
  {
    var plan := WriteLogAsWritten(e, tm, f32);
    var venue := e.header.event.value.venue.value;
    AuxSlices(e, tm, f32, VenueBytesAsWritten);
    PlanPlaced(e, tm, f32, VenueBytesAsWritten);
    GapZero(e, plan, NAME_WIDTH + 2, |tm|, VENUE_PTR + VENUE_BYTES - 2);
    GapZero(e, plan, NAME_WIDTH + 2, |tm|, VENUE_PTR + VENUE_BYTES - 1);
    VenueNameAsWritten(Render(plan), venue);
    EventWithoutVehicle(Render(plan), e.header.event.value);
  }

  /** The venue name at the front of a venue written as motec_log.c does. */
  lemma VenueNameAsWritten(file: seq<Byte>, venue: Venue)
    requires |venue.name| == NAME_WIDTH
    requires VENUE_PTR + NAME_WIDTH + 2 <= |file|
    requires file[VENUE_PTR..VENUE_PTR + NAME_WIDTH + 2] == VenueBytesAsWritten(venue)
    ensures file[VENUE_PTR..VENUE_PTR + NAME_WIDTH] == venue.name
  {
    assert VenueBytesAsWritten(venue)[0..NAME_WIDTH] == venue.name;
    SubSlice(file, VENUE_PTR, NAME_WIDTH + 2, 0, NAME_WIDTH);
  }

  /** A file holding a written event, its venue's name at the venue
      reference and zero bytes where the decoder looks for the vehicle
      reference decodes to the event with the vehicle dropped. */
  lemma EventWithoutVehicle(file: seq<Byte>, ev: Event)
    requires |ev.name| == NAME_WIDTH && |ev.session| == NAME_WIDTH && |ev.comment| == LONG_COMMENT_WIDTH
    requires ev.venuePtr == VENUE_PTR && ev.venue.Some? && |ev.venue.value.name| == NAME_WIDTH
    requires EVENT_PTR + EVENT_BYTES <= |file| && file[EVENT_PTR..EVENT_PTR + EVENT_BYTES] == EventBytes(ev)
    requires file[VENUE_PTR..VENUE_PTR + NAME_WIDTH] == ev.venue.value.name
    requires file[VENUE_PTR + VENUE_BYTES - 2] == 0 && file[VENUE_PTR + VENUE_BYTES - 1] == 0
    ensures ReadEvent(file, EVENT_PTR) == Some(Parsed(VehicleDropped(ev), EVENT_PTR + EVENT_BYTES))
  {
    VenueWithoutVehicle(file, ev);
    EventRoundTrip(file, EVENT_PTR, ev);
  }

  /** In a placed plan, record i's write reads back from the file. */
  lemma RecordSlice(e: Encoder, plan: seq<Write>, venueLen: nat, tmLen: nat, i: nat)
    requires WellLaid(e) && Placed(e, plan, venueLen, tmLen) && i < |e.chans|
    ensures var m := e.chans[i].metaPtr;
      m + CHAN_RECORD_BYTES <= |Render(plan)| && Render(plan)[m..m + CHAN_RECORD_BYTES] == plan[4 + 2 * i].bytes
  {
    RecordApart(e, plan, venueLen, tmLen, i);
    RenderSlice(plan, 4 + 2 * i);
  }

  /** In a placed plan, the write of channel i's samples reads back from
      the file. */
  lemma SamplesSlice(e: Encoder, plan: seq<Write>, venueLen: nat, tmLen: nat, i: nat)
    requires WellLaid(e) && Placed(e, plan, venueLen, tmLen) && i < |e.chans| && e.chans[i].dataLen > 0
    ensures var d := e.chans[i].dataPtr; var n := SAMPLE_BYTES * e.chans[i].dataLen;
      d + n <= |Render(plan)| && Render(plan)[d..d + n] == plan[5 + 2 * i].bytes
  {
    SamplesApart(e, plan, venueLen, tmLen, i);
    RenderSlice(plan, 5 + 2 * i);
  }

  /** Channel record i reads back from its metadata offset, whichever
      layout the venue record is written in. */
  lemma RecordReadsBack(e: Encoder, tm: seq<Byte>, f32: real -> F32, venueBytes: Venue -> seq<Byte>, i: nat)
    requires WellLaid(e) && AuxLaid(e.header) && i < |e.chans|
    ensures var file := Render(WriteLogWith(e, tm, f32, venueBytes));
      var c := Terminate(e).chans[i];
      && c.metaPtr + CHAN_RECORD_BYTES <= |file|
      && file[c.metaPtr..c.metaPtr + CHAN_RECORD_BYTES] == ChanRecordBytes(c, i)
  {
    var plan := WriteLogWith(e, tm, f32, venueBytes);
    PlanShape(e, tm, f32, venueBytes);
    PlanPlaced(e, tm, f32, venueBytes);
    RecordSlice(e, plan, |venueBytes(e.header.event.value.venue.value)|, |tm|, i);
  }

  /** Channel i's samples read back from its data offset, whichever
      layout the venue record is written in. */
  lemma SamplesReadBack(e: Encoder, tm: seq<Byte>, f32: real -> F32, venueBytes: Venue -> seq<Byte>, i: nat)
    requires WellLaid(e) && AuxLaid(e.header) && i < |e.chans| && e.chans[i].dataLen > 0
    ensures var file := Render(WriteLogWith(e, tm, f32, venueBytes));
      var c := e.chans[i];
      && c.dataPtr + SAMPLE_BYTES * c.dataLen <= |file|
      && file[c.dataPtr..c.dataPtr + SAMPLE_BYTES * c.dataLen] == SampleBytes(c.data, f32)
  {
    var plan := WriteLogWith(e, tm, f32, venueBytes);
    PlanShape(e, tm, f32, venueBytes);
    PlanPlaced(e, tm, f32, venueBytes);
    SamplesSlice(e, plan, |venueBytes(e.header.event.value.venue.value)|, |tm|, i);
    TerminateKeepsData(e, i);
    assert plan[5 + 2 * i].bytes == SampleBytes(e.chans[i].data, f32);
  }

  /** In a placed plan with a short enough time image, the header write
      reads back from the file. */
  lemma HeaderSlice(e: Encoder, plan: seq<Write>, venueLen: nat, tmLen: nat)
    requires WellLaid(e) && Placed(e, plan, venueLen, tmLen)
    requires tmLen <= TM_MAX_BYTES && VENUE_PTR + venueLen <= EVENT_PTR
    ensures |plan[0].bytes| <= |Render(plan)| && Render(plan)[0..|plan[0].bytes|] == plan[0].bytes
  {
    HeaderApart(e, plan, venueLen, tmLen);
    RenderSlice(plan, 0);
  }

  /** The header's three references read back from the first 12 bytes,
      for a venue layout that ends before the event record. */
  lemma HeaderReadsBack(e: Encoder, tm: seq<Byte>, f32: real -> F32, venueBytes: Venue -> seq<Byte>)
    requires WellLaid(e) && AuxLaid(e.header) && |tm| <= TM_MAX_BYTES
    requires VENUE_PTR + |venueBytes(e.header.event.value.venue.value)| <= EVENT_PTR
    ensures var file := Render(WriteLogWith(e, tm, f32, venueBytes));
      && 12 <= |file|
      && DecodeU32(file[0..4]) == e.header.metaPtr % TWO32
      && DecodeU32(file[4..8]) == e.header.dataPtr % TWO32
      && DecodeU32(file[8..12]) == e.header.eventPtr % TWO32
  {
    var plan := WriteLogWith(e, tm, f32, venueBytes);
    PlanShape(e, tm, f32, venueBytes);
    PlanPlaced(e, tm, f32, venueBytes);
    HeaderSlice(e, plan, |venueBytes(e.header.event.value.venue.value)|, |tm|);
    HeaderPrefix(Render(plan), e.header, tm);
  }

  /** A file that opens with a written header yields its references. */
  lemma HeaderPrefix(file: seq<Byte>, h: Header, tm: seq<Byte>)
    requires |HeaderBytes(h, tm)| <= |file| && file[0..|HeaderBytes(h, tm)|] == HeaderBytes(h, tm)
    ensures && 12 <= |file|
      && DecodeU32(file[0..4]) == h.metaPtr % TWO32
      && DecodeU32(file[4..8]) == h.dataPtr % TWO32
      && DecodeU32(file[8..12]) == h.eventPtr % TWO32
  {
    var b := HeaderBytes(h, tm);
    HeaderRefs(h, tm);
    SubSlice(file, 0, |b|, 0, 4);
    SubSlice(file, 0, |b|, 4, 8);
    SubSlice(file, 0, |b|, 8, 12);
  }

  /** The offsets met by following the next references stored in `file`
      (the 32-bit field four bytes into each record) from `ptr`, up to a 0
      reference, a short read, or `fuel` steps. */
  function FileChain(file: seq<Byte>, ptr: nat, fuel: nat): (r: seq<nat>)
    ensures |r| <= fuel
    decreases fuel
  {
    if fuel == 0 || ptr == 0 then []
    else match ReadU32(file, ptr + 4)
      case None => []
      case Some(p) => [ptr] + FileChain(file, p.value, fuel - 1)
  }

  /** The stored next reference of the record at `m` in a file holding
      that record. */
  lemma NextFromRecord(file: seq<Byte>, m: nat, c: ChanRecord, i: nat)
    requires m + CHAN_RECORD_BYTES <= |file| && file[m..m + CHAN_RECORD_BYTES] == ChanRecordBytes(c, i)
    ensures DecodeU32(file[m + 4..m + 8]) == c.nextMetaPtr % TWO32
  {
    ChanRecordRefs(c, i);
    SubSlice(file, m, CHAN_RECORD_BYTES, 4, 8);
  }

  /** Record i of a chain of n stored in `file` at offset HEADER_PTR + i·R
      holds the next one's offset, or 0 if it is the last. */
  predicate NextStored(file: seq<Byte>, n: nat, recSize: nat, i: nat) {
    && MetaOffset(i, recSize) + 8 <= |file|
    && DecodeU32(file[MetaOffset(i, recSize) + 4..MetaOffset(i, recSize) + 8])
       == if i + 1 < n then MetaOffset(i + 1, recSize) else 0
  }

  /** All n records of the chain are stored so. */
  predicate ChainStored(file: seq<Byte>, n: nat, recSize: nat) {
    forall i | 0 <= i < n :: NextStored(file, n, recSize, i)
  }

  /** Record i's stored next reference in the written file is record
      i + 1's offset, or 0 for the last record, provided the offsets fit in
      32 bits. */
  lemma StoredNext(e: Encoder, tm: seq<Byte>, f32: real -> F32, venueBytes: Venue -> seq<Byte>, i: nat)
    requires WellLaid(e) && AuxLaid(e.header) && i < |e.chans|
    requires MetaOffset(|e.chans|, e.recSize) < TWO32
    ensures NextStored(Render(WriteLogWith(e, tm, f32, venueBytes)), |e.chans|, e.recSize, i)
  {
    RecordReadsBack(e, tm, f32, venueBytes, i);
    TerminatedNext(e, i);
    RecordStoresNext(Render(WriteLogWith(e, tm, f32, venueBytes)), Terminate(e).chans[i], |e.chans|, e.recSize, i);
  }

  /** A file holding record i of a chain of n at its offset, whose next
      reference is the following record's offset (or 0 for the last), stores
      that link. */
  lemma RecordStoresNext(file: seq<Byte>, c: ChanRecord, n: nat, recSize: nat, i: nat)
    requires i < n && MetaOffset(n, recSize) < TWO32
    requires c.metaPtr == MetaOffset(i, recSize)
    requires c.nextMetaPtr == if i + 1 < n then MetaOffset(i + 1, recSize) else 0
    requires c.metaPtr + CHAN_RECORD_BYTES <= |file| && file[c.metaPtr..c.metaPtr + CHAN_RECORD_BYTES] == ChanRecordBytes(c, i)
    ensures NextStored(file, n, recSize, i)
  {
    NextFromRecord(file, c.metaPtr, c, i);
    var next := c.nextMetaPtr;
    assert next < TWO32 by {
      if i + 1 < n {
        MetaOffsetGap(i + 1, n, recSize);
      }
    }
    SmallMod(next, TWO32);
  }

  lemma SmallMod(x: nat, m: nat)
    requires x < m
    ensures x % m == x
  {
  }

  /** The written file stores the chain, provided the offsets fit in 32
      bits. */
  lemma StoredChain(e: Encoder, tm: seq<Byte>, f32: real -> F32, venueBytes: Venue -> seq<Byte>)
    requires WellLaid(e) && AuxLaid(e.header) && MetaOffset(|e.chans|, e.recSize) < TWO32
    ensures ChainStored(Render(WriteLogWith(e, tm, f32, venueBytes)), |e.chans|, e.recSize)
  {
    forall i | 0 <= i < |e.chans| {
      StoredNext(e, tm, f32, venueBytes, i);
    }
  }

  /** The offsets of records i, ..., n - 1. */
  function Offsets(i: nat, n: nat, recSize: nat): (r: seq<nat>)
    ensures |r| == if i <= n then n - i else 0
    ensures forall k | 0 <= k < |r| :: r[k] == MetaOffset(i + k, recSize)
    decreases n - i
  {
    if i < n then [MetaOffset(i, recSize)] + Offsets(i + 1, n, recSize) else []
  }

  /** One step of the walk: a nonzero reference with fuel left is listed,
      then the walk continues from its stored next reference. */
  lemma FileChainStep(file: seq<Byte>, ptr: nat, next: nat, fuel: nat, rest: seq<nat>)
    requires fuel > 0 && ptr > 0 && ptr + 8 <= |file|
    requires DecodeU32(file[ptr + 4..ptr + 8]) == next && FileChain(file, next, fuel - 1) == rest
    ensures FileChain(file, ptr, fuel) == [ptr] + rest
  {
  }

  /** Following the stored references from record i visits the offsets of
      records i, ..., n - 1, then stops at the 0 of the last one. */
  lemma {:induction false} FileChainFrom(file: seq<Byte>, n: nat, recSize: nat, i: nat, fuel: nat)
    requires ChainStored(file, n, recSize) && i < n && fuel >= n - i
    ensures FileChain(file, MetaOffset(i, recSize), fuel) == Offsets(i, n, recSize)
    decreases n - i
  {
    var m := MetaOffset(i, recSize);
    assert NextStored(file, n, recSize, i);
    if i + 1 < n {
      FileChainFrom(file, n, recSize, i + 1, fuel - 1);
      FileChainStep(file, m, MetaOffset(i + 1, recSize), fuel, Offsets(i + 1, n, recSize));
    } else {
      FileChainStep(file, m, 0, fuel, []);
    }
  }

  /** A file whose first four bytes reference HEADER_PTR and which stores
      a chain of n records walks through the chain from there. */
  lemma ChainFromHeader(file: seq<Byte>, n: nat, recSize: nat, fuel: nat)
    requires 4 <= |file| && DecodeU32(file[0..4]) == HEADER_PTR
    requires ChainStored(file, n, recSize) && 0 < n <= fuel
    ensures FileChain(file, DecodeU32(file[0..4]), fuel) == seq(n, k requires 0 <= k < n => MetaOffset(k, recSize))
  {
    assert MetaOffset(0, recSize) == HEADER_PTR;
    FileChainFrom(file, n, recSize, 0, fuel);
    assert Offsets(0, n, recSize) == seq(n, k requires 0 <= k < n => MetaOffset(k, recSize));
  }

  /** Following the stored next references of `file` from its header's
      metadata reference (its first four bytes) meets the offsets of the n
      records in order, and then ends. */
  predicate ChainListed(file: seq<Byte>, n: nat, recSize: nat, fuel: nat) {
    && 4 <= |file|
    && FileChain(file, DecodeU32(file[0..4]), fuel) == seq(n, k requires 0 <= k < n => MetaOffset(k, recSize))
  }

  /** In the written file, the header's stored metadata reference starts a
      chain of stored next references that meets the n record offsets
      HEADER_PTR + i·R in order and then ends, for a venue layout that ends
      before the event record. */
  lemma FileChainVisitsAll(e: Encoder, tm: seq<Byte>, f32: real -> F32, venueBytes: Venue -> seq<Byte>, fuel: nat)
    requires WellLaid(e) && AuxLaid(e.header) && |tm| <= TM_MAX_BYTES
    requires VENUE_PTR + |venueBytes(e.header.event.value.venue.value)| <= EVENT_PTR
    requires 0 < |e.chans| <= fuel && MetaOffset(|e.chans|, e.recSize) < TWO32
    ensures ChainListed(Render(WriteLogWith(e, tm, f32, venueBytes)), |e.chans|, e.recSize, fuel)
  {
    HeaderReadsBack(e, tm, f32, venueBytes);
    StoredChain(e, tm, f32, venueBytes);
    ChainFromHeader(Render(WriteLogWith(e, tm, f32, venueBytes)), |e.chans|, e.recSize, fuel);
  }
}

=== FILE: time_series.dfy ===
/** The in-memory time-series model of data_log.c: channels of timestamped
    samples, a log of channels, and the derived start, end, duration and
    average frequency. Timestamps and values are `real`; the `double`
    rounding of the source is not modelled. */
module TimeSeries {

  datatype Sample = Sample(timestamp: real, value: real)

  datatype Channel = Channel(name: string, units: string, decimals: int, samples: seq<Sample>)

  /** A log: its name, its channels in insertion order, and the number of
      channel slots currently allocated. */
  datatype DataLog = DataLog(name: string, channels: seq<Channel>, capacity: nat)

  /** Channel slots allocated by datalog_create. */
  const INITIAL_CHANNEL_CAPACITY: nat := 500

  /** datalog_create */
  function Create(name: string): DataLog {
    DataLog(name, [], INITIAL_CHANNEL_CAPACITY)
  }

  /** The channel slots hold every channel. */
  predicate CapacityOk(log: DataLog) {
    0 < log.capacity && |log.channels| <= log.capacity
  }

  /** channel_create: a channel with no samples. */
  function NewChannel(name: string, units: string, decimals: int): Channel {
    Channel(name, units, decimals, [])
  }

  /** datalog_add_channel: doubles the slots when they are all in use, then
      appends one empty channel after the existing ones. */
  function AddChannel(log: DataLog, name: string, units: string, decimals: int): (r: DataLog)
    ensures |r.channels| == |log.channels| + 1
    ensures r.channels[..|log.channels|] == log.channels
    ensures r.channels[|log.channels|] == Channel(name, units, decimals, [])
    ensures r.name == log.name
    ensures |log.channels| >= log.capacity ==> r.capacity == 2 * log.capacity
    ensures |log.channels| < log.capacity ==> r.capacity == log.capacity
    ensures CapacityOk(log) ==> CapacityOk(r)
  {
    var capacity := if |log.channels| >= log.capacity then 2 * log.capacity else log.capacity;
    DataLog(log.name, log.channels + [NewChannel(name, units, decimals)], capacity)
  }

  /** datalog_clear: discards every channel and keeps the slots. */
  function Clear(log: DataLog): (r: DataLog)
    ensures r.channels == [] && r.name == log.name && r.capacity == log.capacity
    ensures CapacityOk(log) ==> CapacityOk(r)
  {
    log.(channels := [])
  }

  /** One sample stored after the existing ones. */
  function AppendSample(c: Channel, timestamp: real, value: real): Channel {
    c.(samples := c.samples + [Sample(timestamp, value)])
  }

  /** channel_start: the first sample's timestamp, or 0 for an empty channel. */
  function ChannelStart(c: Channel): (r: real)
    ensures |c.samples| == 0 ==> r == 0.0
    ensures |c.samples| > 0 ==> exists k | 0 <= k < |c.samples| :: r == c.samples[k].timestamp
    ensures TimeOrdered(c) ==> forall k | 0 <= k < |c.samples| :: r <= c.samples[k].timestamp
  {
    if |c.samples| == 0 then 0.0 else c.samples[0].timestamp
  }

  /** channel_end: the last sample's timestamp, or 0 for an empty channel. */
  function ChannelEnd(c: Channel): (r: real)
    ensures |c.samples| == 0 ==> r == 0.0
    ensures |c.samples| > 0 ==> exists k | 0 <= k < |c.samples| :: r == c.samples[k].timestamp
    ensures TimeOrdered(c) ==> forall k | 0 <= k < |c.samples| :: c.samples[k].timestamp <= r
  {
    if |c.samples| == 0 then 0.0 else c.samples[|c.samples| - 1].timestamp
  }

  /** Appending a sample makes it the channel's end, and it is the start
      only when the channel was empty; a channel kept in ascending time
      starts no later than it ends. */
  lemma ChannelSpanAppend(c: Channel, timestamp: real, value: real)
    ensures ChannelEnd(AppendSample(c, timestamp, value)) == timestamp
    ensures ChannelStart(AppendSample(c, timestamp, value)) == if |c.samples| == 0 then timestamp else ChannelStart(c)
    ensures TimeOrdered(c) ==> ChannelStart(c) <= ChannelEnd(c)
  {
    if TimeOrdered(c) && |c.samples| > 0 {
      assert c.samples[0].timestamp <= c.samples[|c.samples| - 1].timestamp;
    }
  }

  /** channel_avg_frequency: (count - 1) over the span from the first to
      the last timestamp; 0 for fewer than two samples or a span that is not
      positive. */
  function AvgFrequency(c: Channel): (r: real)
    ensures r >= 0.0
    ensures r > 0.0 <==> |c.samples| >= 2 && ChannelEnd(c) > ChannelStart(c)
    ensures r > 0.0 ==> r * (ChannelEnd(c) - ChannelStart(c)) == (|c.samples| - 1) as real
  {
    var n := |c.samples|;
    if n < 2 then 0.0
    else
      var span := c.samples[n - 1].timestamp - c.samples[0].timestamp;
      if span <= 0.0 then 0.0 else (n - 1) as real / span
  }

  /** Samples at timestamps 0, 0.5 and 1 give an average frequency of 2. */
  lemma AvgFrequencyExample()
    ensures AvgFrequency(Channel("c", "", 3, [Sample(0.0, 1.0), Sample(0.5, 1.0), Sample(1.0, 1.0)])) == 2.0
  {
  }

  /** Samples every `h` seconds have an average frequency of 1/h. */
  lemma UniformFrequency(c: Channel, t0: real, h: real)
    requires h > 0.0 && |c.samples| >= 2
    requires forall k | 0 <= k < |c.samples| :: c.samples[k].timestamp == t0 + (k as real) * h
    ensures AvgFrequency(c) == 1.0 / h
  {
    var n := |c.samples|;
    var m := (n - 1) as real;
    var span := c.samples[n - 1].timestamp - c.samples[0].timestamp;
    assert span == m * h;
    assert m >= 1.0;
    calc {
      AvgFrequency(c);
      m / span;
      m / (m * h);
      { RealCancel(m, h); }
      1.0 / h;
    }
  }

  lemma RealCancel(m: real, h: real)
    requires m > 0.0 && h > 0.0
    ensures m / (m * h) == 1.0 / h
  {
    assert (m / (m * h)) * (m * h) == m;
    assert (1.0 / h) * (m * h) == m;
  }

  /** The smallest start over a non-empty sequence of channels. */
  function MinStart(cs: seq<Channel>): (r: real)
    requires |cs| > 0
    ensures forall i | 0 <= i < |cs| :: r <= ChannelStart(cs[i])
    ensures exists i | 0 <= i < |cs| :: r == ChannelStart(cs[i])
  {
    if |cs| == 1 then ChannelStart(cs[0])
    else
      var m := MinStart(cs[..|cs| - 1]);
      var last := ChannelStart(cs[|cs| - 1]);
      if last < m then last else m
  }

  /** The largest end over the channels, never below 0. */
  function MaxEnd(cs: seq<Channel>): (r: real)
    ensures r >= 0.0
    ensures forall i | 0 <= i < |cs| :: ChannelEnd(cs[i]) <= r
    ensures r == 0.0 || exists i | 0 <= i < |cs| :: r == ChannelEnd(cs[i])
  {
    if |cs| == 0 then 0.0
    else
      var m := MaxEnd(cs[..|cs| - 1]);
      var last := ChannelEnd(cs[|cs| - 1]);
      if last > m then last else m
  }

  /** datalog_start: the earliest channel start, 0 with no channels. Empty
      channels take part with a start of 0. */
  function Start(log: DataLog): (r: real)
    ensures |log.channels| == 0 ==> r == 0.0
    ensures forall i | 0 <= i < |log.channels| :: r <= ChannelStart(log.channels[i])
    ensures |log.channels| > 0 ==> exists i | 0 <= i < |log.channels| :: r == ChannelStart(log.channels[i])
  {
    if |log.channels| == 0 then 0.0 else MinStart(log.channels)
  }

  /** datalog_end: the latest channel end, floored at 0. */
  function End(log: DataLog): (r: real)
    ensures |log.channels| == 0 ==> r == 0.0
    ensures r >= 0.0
    ensures forall i | 0 <= i < |log.channels| :: ChannelEnd(log.channels[i]) <= r
    ensures r == 0.0 || exists i | 0 <= i < |log.channels| :: r == ChannelEnd(log.channels[i])
  {
    MaxEnd(log.channels)
  }

  /** datalog_duration: end minus start, 0 with no channels. */
  function Duration(log: DataLog): (r: real)
    ensures r == End(log) - Start(log)
    ensures |log.channels| == 0 ==> r == 0.0
  {
    if |log.channels| == 0 then 0.0 else End(log) - Start(log)
  }

  /** Samples stored in ascending time. */
  predicate TimeOrdered(c: Channel) {
    forall i, j | 0 <= i <= j < |c.samples| :: c.samples[i].timestamp <= c.samples[j].timestamp
  }

  /** With channels stored in ascending time the duration is not
      negative. */
  lemma DurationNonNegative(log: DataLog)
    requires forall i | 0 <= i < |log.channels| :: TimeOrdered(log.channels[i])
    ensures Duration(log) >= 0.0
  {
    if |log.channels| > 0 {
      var c := log.channels[0];
      assert Start(log) <= ChannelStart(c);
      assert ChannelEnd(c) <= End(log);
      if |c.samples| > 0 {
        assert TimeOrdered(c);
        assert c.samples[0].timestamp <= c.samples[|c.samples| - 1].timestamp;
      }
    }
  }

  /** Clearing a log leaves no start, end or duration. */
  lemma ClearResetsSpan(log: DataLog)
    ensures Start(Clear(log)) == 0.0 && End(Clear(log)) == 0.0 && Duration(Clear(log)) == 0.0
  {
  }

  /** Adding a channel pulls the log's start down to at most 0, because
      the new channel is empty and its start counts as 0; a log that had
      no channel starts at 0 either way. */
  lemma AddChannelStart(log: DataLog, name: string, units: string, decimals: int)
    ensures var r := AddChannel(log, name, units, decimals);
      Start(r) == (if Start(log) < 0.0 then Start(log) else 0.0)
  {
    var r := AddChannel(log, name, units, decimals);
    assert r.channels[..|r.channels| - 1] == log.channels;
  }
}

=== FILE: wrappers.dfy ===
/** Failure-carrying result types shared by the decoder, the ingestion
    adapters and the command-line front end. */
module Wrappers {

  /** A value that may be absent; `None` stands for the C code's NULL. */
  datatype Option<+T> = None | Some(value: T) {

    predicate IsFailure() {
      None?
    }

    function PropagateFailure<U>(): Option<U>
      requires None?
    {
      None
    }

    function Extract(): T
      requires Some?
    {
      value
    }
  }

  /** Either a value or an error, for operations that report a failure code. */
  datatype Result<+R, +E> = Success(value: R) | Failure(error: E) {

    predicate IsFailure() {
      Failure?
    }

    function PropagateFailure<U>(): Result<U, E>
      requires Failure?
    {
      Failure(error)
    }

    function Extract(): R
      requires Success?
    {
      value
    }
  }
}
